=== FILE: README.md ===
# Disaster-management tool: verified model of the core

The tool plans the response to a disaster on a road and infrastructure
network. Its core has two parts:

- a set of hand-written containers: an indexed binary min-heap and the priority
  queue over it, a chained hash map and a hash set built on it, a fixed-size
  array set, linked lists and a linked queue, a doubling array list, an array
  stack and a circular array queue;
- four graph functions that run on those containers:
  - Prim's minimum spanning tree and Dijkstra's shortest paths over a weighted
    adjacency-list graph;
  - Dijkstra's algorithm over an evacuation network whose roads can be blocked
    and unblocked;
  - an Edmonds-Karp maximum flow that allocates rescue teams to infrastructure
    nodes whose requirements their skills cover;
  - k-medoids clustering of the graph's vertices.

The model has one Dafny module per component:

| module | file | models |
|---|---|---|
| `Common` | `common.dfy` | Java's `null` as `Option`, thrown exceptions as `Outcome`/`Result`, and `Integer.MAX_VALUE` as `INF` |
| `Heap` | `min_heap.dfy` | `MinHeap` |
| `PriorityQueue` | `priority_queue.dfy` | `CustomPriorityQueue` |
| `Adjacency`, `Graphs` | `adjacency.dfy`, `graph.dfy` | `Graph` |
| `ShortestPaths` | `shortest_paths.dfy` | `dijkstra` and `getPath` |
| `Mst` | `mst.dfy` | `primMST` and the tree walk of `printMSTRecursive` |
| `Evacuation` | `evacuation.dfy` | `EvacuationGraph` and `EvacuationNode` |
| `FlowNetwork`, `TeamAllocation` | `flow_network.dfy`, `team_allocation.dfy` | `FunctionFiveHelper` |
| `Clustering` | `clustering.dfy` | `ClusteringHelper` |
| one module per file | the container files | each remaining container class |

Containers whose Java fields change in place are Dafny classes:

- their methods state the whole new state;
- ghost fields (`Contents`, `Keys`, `Repr`) give the abstract value;
- a `Valid()` predicate ties the ghost fields to the concrete fields.

The algorithms are methods with loop invariants. Each is proved against
predicates that state what the result means:

- Dijkstra's algorithm produces a shortest-path tree with minimal distances.
- Prim's algorithm takes every vertex once, each with a least key, and its
  tree spans exactly the vertices reachable from the start.
- The maximum flow stays feasible, antisymmetric and conserved, and leaves no
  augmenting path.
- The team allocation is a matching of qualified teams to distinct nodes.

Paths in the table below are relative to the repository root.

## Model

| member | source | states |
|---|---|---|
| Adjacency.FirstMatch | src/main/java/de/thab/algo/abstractdatastructures/Graph.java:189-197 | the index found is the first entry leading to the destination, and -1 exactly when no entry leads there |
| Heap.Parent | src/main/java/de/thab/algo/datastructure/MinHeap.java:82-84 | the parent slot of a non-root slot is smaller, and the slot is one of its two children |
| Heap.Left | src/main/java/de/thab/algo/datastructure/MinHeap.java:90-92 | the left child slot lies after its parent and has it as parent |
| Heap.Right | src/main/java/de/thab/algo/datastructure/MinHeap.java:98-100 | the right child slot follows the left one and has the same parent |
| Heap.RootIsMinimal | src/main/java/de/thab/algo/datastructure/MinHeap.java:159-163 | in an ordered heap the root key is no larger than any key in the heap, which is what getMin relies on |
| Heap.SiftUpStep | src/main/java/de/thab/algo/datastructure/MinHeap.java:119-122 | swapping a node with a larger parent moves the one place where the heap order may fail up to the parent |
| Heap.SiftDownStep | src/main/java/de/thab/algo/datastructure/MinHeap.java:208-211 | swapping a node with its smallest child moves the one place where the heap order may fail down to that child |
| Heap.SiftDownDone | src/main/java/de/thab/algo/datastructure/MinHeap.java:200-212 | when no child is smaller than the node, the whole heap is ordered |
| Heap.MinHeap.EmptyIff | src/main/java/de/thab/algo/datastructure/MinHeap.java:41-45 | the heap size is zero exactly when no vertex is in the heap |
| Heap.MinHeap.constructor | src/main/java/de/thab/algo/datastructure/MinHeap.java:52-59 | a new heap has the given capacity and holds no vertex |
| Heap.MinHeap.Swap | src/main/java/de/thab/algo/datastructure/MinHeap.java:68-77 | two slots exchange their nodes and the side table follows both vertices |
| Heap.MinHeap.SiftUp | src/main/java/de/thab/algo/datastructure/MinHeap.java:119-122 | the sift-up loop restores the heap order and keeps the side table exact |
| Heap.MinHeap.MinHeapify | src/main/java/de/thab/algo/datastructure/MinHeap.java:196-212 | the recursive sift-down restores the heap order and keeps the side table exact |
| Heap.MinHeap.InsertKey | src/main/java/de/thab/algo/datastructure/MinHeap.java:109-124 | returns false and changes nothing on a full heap; a vertex outside the capacity throws after only the first free slot was overwritten, so no vertex or key changes; otherwise the vertex joins with its key, the size grows by one and the heap stays ordered |
| Heap.MinHeap.DecreaseKey | src/main/java/de/thab/algo/datastructure/MinHeap.java:133-153 | a vertex not in the heap is a no-op; a larger key is rejected with nothing changed; otherwise only that vertex's key changes and the heap stays ordered |
| Heap.MinHeap.GetMin | src/main/java/de/thab/algo/datastructure/MinHeap.java:159-164 | an error on an empty heap; otherwise a vertex in the heap whose key is no larger than any other key |
| Heap.MinHeap.RemoveRoot | src/main/java/de/thab/algo/datastructure/MinHeap.java:176-184 | the root's vertex leaves the heap and the last node fills the root, so the order can fail only below the root |
| Heap.MinHeap.ExtractMin | src/main/java/de/thab/algo/datastructure/MinHeap.java:171-190 | an error on an empty heap; otherwise returns a vertex with the smallest key, removes exactly that vertex and marks it absent in the side table |
| Heap.InsertFive | src/test/java/de/thab/algo/TestMinHeapAndPriorityQueue.java:21-26 | inserting the five test keys yields exactly that vertex-to-key map |
| Heap.InsertAndGetMinScenario | src/test/java/de/thab/algo/TestMinHeapAndPriorityQueue.java:21-29 | after the five inserts the minimum is 5 |
| Heap.DecreaseKeyScenario | src/test/java/de/thab/algo/TestMinHeapAndPriorityQueue.java:32-41 | decreasing vertex 2 to 1 makes 1 the minimum |
| Heap.ExtractMinScenario | src/test/java/de/thab/algo/TestMinHeapAndPriorityQueue.java:44-53 | extracting the minimum yields 5, and 10 is the new minimum |
| PriorityQueue.CustomPriorityQueue.constructor | src/main/java/de/thab/algo/abstractdatastructures/queue/CustomPriorityQueue.java:17-19 | a new queue is empty and has the given capacity |
| PriorityQueue.CustomPriorityQueue.IsEmpty | src/main/java/de/thab/algo/abstractdatastructures/queue/CustomPriorityQueue.java:65-67 | true exactly when no vertex is queued |
| PriorityQueue.CustomPriorityQueue.Enqueue | src/main/java/de/thab/algo/abstractdatastructures/queue/CustomPriorityQueue.java:28-32 | fails with a full-queue error exactly when the heap is full, and with an index error for a vertex outside the capacity, both with the keys unchanged; otherwise the vertex joins with its key |
| PriorityQueue.CustomPriorityQueue.Dequeue | src/main/java/de/thab/algo/abstractdatastructures/queue/CustomPriorityQueue.java:40-45 | an error when empty; otherwise removes and returns a vertex with the smallest key, and only that vertex |
| PriorityQueue.CustomPriorityQueue.Peek | src/main/java/de/thab/algo/abstractdatastructures/queue/CustomPriorityQueue.java:53-58 | an error when empty; otherwise a vertex with the smallest key |
| PriorityQueue.CustomPriorityQueue.DecreaseKey | src/main/java/de/thab/algo/abstractdatastructures/queue/CustomPriorityQueue.java:75-77 | the three outcomes of the heap's decrease-key, seen on the queued keys |
| PriorityQueue.DequeueStep | src/main/java/de/thab/algo/abstractdatastructures/Graph.java:119-121 | the dequeued vertex has the least distance among unvisited vertices, an infinite one only when all of them are infinite, and the queue still mirrors the unvisited vertices once it is marked visited |
| PriorityQueue.EmptyQueue | src/main/java/de/thab/algo/abstractdatastructures/Graph.java:119 | an empty queue means every vertex has been visited |
| PriorityQueue.QueueOf | src/main/java/de/thab/algo/abstractdatastructures/Graph.java:114-117 | enqueuing every vertex with its initial key gives a queue holding exactly the vertices, each with that key |
| PriorityQueue.EmptyAfterDequeueScenario | src/test/java/de/thab/algo/TestMinHeapAndPriorityQueue.java:91-99 | a queue is empty, is not empty after one enqueue, and is empty again after one dequeue |
| PriorityQueue.EnqueueFive | src/test/java/de/thab/algo/TestMinHeapAndPriorityQueue.java:57-61 | enqueuing the five test keys yields exactly that vertex-to-key map |
| PriorityQueue.PeekScenario | src/test/java/de/thab/algo/TestMinHeapAndPriorityQueue.java:56-64 | peek returns 5 |
| PriorityQueue.DecreaseKeyScenario | src/test/java/de/thab/algo/TestMinHeapAndPriorityQueue.java:67-76 | after decreasing vertex 2 to 1, peek returns 1 |
| PriorityQueue.DequeueScenario | src/test/java/de/thab/algo/TestMinHeapAndPriorityQueue.java:79-88 | dequeue returns 5, then peek returns 10 |
| ShortestPaths.Initially | src/main/java/de/thab/algo/abstractdatastructures/Graph.java:216-220 | the initial arrays (start at 0, all others infinite, no parents, nothing visited) satisfy the loop invariant |
| ShortestPaths.SettleStep | src/main/java/de/thab/algo/abstractdatastructures/Graph.java:228-231 | marking the dequeued vertex visited keeps the settled distances final and ordered |
| ShortestPaths.RelaxStep | src/main/java/de/thab/algo/abstractdatastructures/Graph.java:239-244 | lowering an unvisited neighbour's distance and pointing its parent at the current vertex keeps every parent link accounting for its distance |
| ShortestPaths.RelaxStepRelaxed | src/main/java/de/thab/algo/abstractdatastructures/Graph.java:239-245 | after that relaxation the entry just processed can no longer shorten any distance |
| ShortestPaths.SkipStep | src/main/java/de/thab/algo/abstractdatastructures/Graph.java:234-246 | an entry into a visited vertex, or one that does not shorten, is already relaxed |
| ShortestPaths.Conclude | src/main/java/de/thab/algo/abstractdatastructures/Graph.java:227-248 | when the remaining vertices are unreached, the arrays form a shortest-path tree |
| ShortestPaths.TreeLinkKept | src/main/java/de/thab/algo/abstractdatastructures/Graph.java:241-244 | lowering another vertex's distance keeps a tree link |
| ShortestPaths.RelaxedKept | src/main/java/de/thab/algo/abstractdatastructures/Graph.java:241-244 | lowering distances of unvisited vertices keeps a relaxed vertex relaxed |
| ShortestPaths.Dijkstra | src/main/java/de/thab/algo/abstractdatastructures/Graph.java:210-248 | the distances and parents form a shortest-path tree from the start: every reached vertex links to a reached parent along an entry that accounts for its distance, and no entry leaving a reached vertex can shorten a distance |
| ShortestPaths.RelaxEntries | src/main/java/de/thab/algo/abstractdatastructures/Graph.java:233-247 | the inner loop relaxes every entry of the settled vertex and keeps the queue mirroring the distances of the unvisited vertices |
| ShortestPaths.GetPath | src/main/java/de/thab/algo/abstractdatastructures/Graph.java:291-302 | none for an infinite distance or a target other than the start without a parent; otherwise, when a path is returned, a vertex list from the start to the target in which each vertex's parent is the vertex before it |
| ShortestPaths.PathOfReached | src/main/java/de/thab/algo/functionThree/EvacuationGraph.java:154-166 | in a shortest-path tree every reached vertex gets a path, and that path is a walk whose weight is the vertex's distance |
| ShortestPaths.PathAlongLinks | src/main/java/de/thab/algo/abstractdatastructures/Graph.java:291-302 | the path built along parent links is a walk of the graph weighing exactly the target's distance |
| ShortestPaths.PathStep | src/main/java/de/thab/algo/abstractdatastructures/Graph.java:301 | the path to a vertex is its parent's path followed by the vertex |
| Adjacency.ExtendWalk | src/main/java/de/thab/algo/abstractdatastructures/Graph.java:301 | extending a walk by one entry adds that entry's weight |
| ShortestPaths.NoShorterWalk | src/main/java/de/thab/algo/abstractdatastructures/Graph.java:239-245 | with non-negative weights no walk from the start is lighter than the distance of the vertex it ends at |
| ShortestPaths.ReachedIfWalk | src/main/java/de/thab/algo/abstractdatastructures/Graph.java:227-248 | with non-negative weights every vertex that some walk lighter than infinity reaches has a finite distance |
| Mst.PrimInitially | src/main/java/de/thab/algo/abstractdatastructures/Graph.java:107-112 | the initial keys (start at 0, all others infinite) satisfy the loop invariant |
| Mst.TakeInOrder | src/main/java/de/thab/algo/abstractdatastructures/Graph.java:119-121 | dequeuing a least key keeps the least-key order of the vertices taken so far |
| Mst.LowerInOrder | src/main/java/de/thab/algo/abstractdatastructures/Graph.java:129-133 | lowering the key of a vertex outside the tree leaves the least-key order alone |
| Mst.TakeStep | src/main/java/de/thab/algo/abstractdatastructures/Graph.java:119-121 | taking the dequeued vertex into the tree keeps the invariant |
| Mst.LowerStep | src/main/java/de/thab/algo/abstractdatastructures/Graph.java:129-133 | lowering an outside neighbour's key to the entry's weight and pointing its parent at the current vertex keeps the invariant |
| Mst.KeepStep | src/main/java/de/thab/algo/abstractdatastructures/Graph.java:124-134 | an entry into the tree, or one no lighter than the key, needs no update |
| Mst.PrimConclude | src/main/java/de/thab/algo/abstractdatastructures/Graph.java:119-135 | once every vertex is in the tree the invariant gives the result |
| Mst.Prim | src/main/java/de/thab/algo/abstractdatastructures/Graph.java:102-135 | every vertex is taken once, the start first; each parent link comes from an earlier vertex along an entry weighing the key; no entry from an earlier vertex to a later one is lighter than the later one's key; each vertex taken had a least key, no heavier than any entry from the vertices taken before it to the rest; the tree below the start holds exactly the vertices a walk from the start along entries lighter than `Integer.MAX_VALUE` reaches |
| Mst.LowerKeys | src/main/java/de/thab/algo/abstractdatastructures/Graph.java:123-134 | the inner loop lowers every key that an entry of the new tree vertex undercuts, and keeps the queue mirroring the keys |
| Mst.SubtreeIsPrefix | src/main/java/de/thab/algo/abstractdatastructures/Graph.java:115-135 | a vertex lies below the start exactly when every vertex dequeued up to it had a finite key |
| Mst.FiniteStep | src/main/java/de/thab/algo/abstractdatastructures/Graph.java:124-133 | an entry lighter than infinity out of a vertex dequeued before any infinite key leads to another such vertex |
| Mst.FiniteClosedInTree | src/main/java/de/thab/algo/abstractdatastructures/Graph.java:115-135 | the vertices dequeued before any infinite key are closed under entries lighter than infinity |
| Mst.WalkStaysFinite | src/main/java/de/thab/algo/abstractdatastructures/Graph.java:115-135 | a walk along entries lighter than infinity from such a vertex ends at such a vertex |
| Mst.TreeWalk | src/main/java/de/thab/algo/abstractdatastructures/Graph.java:129-131 | the parent links from a vertex below the start, read forwards, form a walk from the start along entries lighter than infinity |
| Mst.ExtendLightWalk | src/main/java/de/thab/algo/abstractdatastructures/Graph.java:129-131 | appending an entry lighter than infinity to such a walk gives another |
| Mst.SpansReachable | src/main/java/de/thab/algo/abstractdatastructures/Graph.java:102-135 | the tree below the start spans exactly the vertices reachable from the start along entries lighter than infinity |
| Mst.ChildOnPath | src/main/java/de/thab/algo/abstractdatastructures/Graph.java:170-176 | a vertex below a node lies in the subtree of exactly one child of that node |
| Mst.SubtreeOfChild | src/main/java/de/thab/algo/abstractdatastructures/Graph.java:170-176 | a child's subtree is exactly the set of vertices below the node whose path passes through that child |
| Mst.BelowChild | src/main/java/de/thab/algo/abstractdatastructures/Graph.java:170-176 | a vertex in a child's subtree lies below the node, through that child, at a rank no smaller than the child's |
| Mst.ChildrenWeightIsShares | src/main/java/de/thab/algo/abstractdatastructures/Graph.java:170-177 | the children from `i` on account for exactly the links whose path to the node passes through one of them |
| Mst.SubtreeIsEdgeSum | src/main/java/de/thab/algo/abstractdatastructures/Graph.java:167-180 | the walk's total below a node equals the flat sum, over the vertices strictly below it, of the weight of each one's link to its parent |
| Graphs.FindFirst | src/main/java/de/thab/algo/abstractdatastructures/Graph.java:191-196 | the search loop finds the first entry leading to the destination |
| Graphs.WithUndirected | src/main/java/de/thab/algo/abstractdatastructures/Graph.java:53-56 | addEdge appends one entry to each endpoint's list and changes no other list |
| Graphs.WithDirected | src/main/java/de/thab/algo/abstractdatastructures/Graph.java:74-94 | the directed insert drops non-positive weights, appends a new destination, and appends a duplicate only when it is lighter than the first entry |
| Graphs.UndirectedKeepsSymmetric | src/main/java/de/thab/algo/abstractdatastructures/Graph.java:53-56 | undirected inserts keep every entry mirrored by one in the opposite direction with the same weight |
| Graphs.UndirectedCount | src/main/java/de/thab/algo/abstractdatastructures/Graph.java:53-56 | exactly one new entry at each endpoint (two at a loop) and none elsewhere |
| Graphs.UndirectedLookup | src/main/java/de/thab/algo/abstractdatastructures/Graph.java:53-56 | after addEdge the weight lookup reports the new weight only when no entry existed before |
| Graphs.FirstMatchAppend | src/main/java/de/thab/algo/abstractdatastructures/Graph.java:189-197 | appending entries never changes an existing first match |
| Graphs.DirectedKeepsNonNegative | src/main/java/de/thab/algo/abstractdatastructures/Graph.java:75 | the directed insert keeps all weights non-negative |
| Graphs.DirectedLookup | src/main/java/de/thab/algo/abstractdatastructures/Graph.java:79-92 | after a positive insert some entry is at most the new weight, while the lookup keeps reporting an older first entry |
| Graphs.Graph.constructor | src/main/java/de/thab/algo/abstractdatastructures/Graph.java:38-44 | every vertex starts with an empty list |
| Graphs.Graph.AddEdge | src/main/java/de/thab/algo/abstractdatastructures/Graph.java:53-56 | the lists become the undirected insert of the old ones |
| Graphs.Graph.AddEdgeDijkstra | src/main/java/de/thab/algo/abstractdatastructures/Graph.java:74-94 | only the source's list changes, by the directed insert |
| Graphs.Graph.GetWeight | src/main/java/de/thab/algo/abstractdatastructures/Graph.java:189-197 | the weight of the first entry to the destination, or 0 when there is none |
| Graphs.Graph.PrimMST | src/main/java/de/thab/algo/abstractdatastructures/Graph.java:102-137 | Prim's tree in the least-key order, spanning exactly the vertices reachable from the start along entries lighter than `Integer.MAX_VALUE`, and the total weight of that tree as the tree walk sums it |
| Graphs.Graph.PrintMST | src/main/java/de/thab/algo/abstractdatastructures/Graph.java:145-156 | the reported total is the weight of the tree below the start |
| Graphs.Graph.PrintMSTRecursive | src/main/java/de/thab/algo/abstractdatastructures/Graph.java:167-180 | marks exactly the subtree of the node visited and adds its weight to the running total |
| Graphs.Graph.Dijkstra | src/main/java/de/thab/algo/abstractdatastructures/Graph.java:210-251 | the arrays form a shortest-path tree of the graph's lists |
| Evacuation.EvacuationNode.constructor | src/main/java/de/thab/algo/functionThree/EvacuationNode.java:7-11 | a new entry has its destination and weight and is open |
| Evacuation.EvacuationNode.SetBlocked | src/main/java/de/thab/algo/functionThree/EvacuationNode.java:25-27 | the flag takes the given value |
| Evacuation.Plain | src/main/java/de/thab/algo/functionThree/EvacuationGraph.java:20-40 | the destination and weight of each road, in order |
| Evacuation.RoadsOf | src/main/java/de/thab/algo/functionThree/EvacuationGraph.java:42-66 | the current value of each entry object, flag included |
| Evacuation.Open | src/main/java/de/thab/algo/functionThree/EvacuationGraph.java:116-119 | never more entries than roads |
| Evacuation.OpenKeepsOpenRoads | src/main/java/de/thab/algo/functionThree/EvacuationGraph.java:116-119 | the routing loop sees exactly the open roads |
| Evacuation.OpenGraph | src/main/java/de/thab/algo/functionThree/EvacuationGraph.java:116-119 | each list restricted to its open roads |
| Evacuation.AddRoadIsDirectedInsert | src/main/java/de/thab/algo/functionThree/EvacuationGraph.java:20-40 | addEdge follows the insert rule of addEdgeDijkstra, and what it adds is open |
| Evacuation.AddRoad | src/main/java/de/thab/algo/functionThree/EvacuationGraph.java:20-40 | after a positive weight is added, some road to the destination weighs at most that much |
| Evacuation.SetFirst | src/main/java/de/thab/algo/functionThree/EvacuationGraph.java:45-53 | only the first entry to the destination gets the flag; destinations and weights do not change |
| Evacuation.Flagged | src/main/java/de/thab/algo/functionThree/EvacuationGraph.java:42-92 | blocking or unblocking a pair touches only the lists of its two vertices |
| Evacuation.FlaggedKeepsEntries | src/main/java/de/thab/algo/functionThree/EvacuationGraph.java:42-66 | blocking and unblocking change flags only |
| Evacuation.UnblockAfterBlock | src/main/java/de/thab/algo/functionThree/EvacuationGraph.java:68-92 | unblocking after blocking equals unblocking alone |
| Evacuation.DuplicateSurvivesBlock | src/main/java/de/thab/algo/functionThree/EvacuationGraph.java:29 | a lighter duplicate entry appended by addEdge stays open when the pair is blocked, so routing still uses it |
| Evacuation.BlockedIsUnreached | src/main/java/de/thab/algo/functionThree/EvacuationGraph.java:99-133 | a vertex all of whose incoming roads are blocked is unreachable |
| Evacuation.FindNode | src/main/java/de/thab/algo/functionThree/EvacuationGraph.java:25-34 | the search loop finds the first entry leading to the destination |
| Evacuation.EvacuationGraph.Roads | src/main/java/de/thab/algo/functionThree/EvacuationGraph.java:11-18 | the abstract value has one list per vertex, holding the current value of each entry |
| Evacuation.EvacuationGraph.constructor | src/main/java/de/thab/algo/functionThree/EvacuationGraph.java:11-18 | every vertex starts with no roads |
| Evacuation.EvacuationGraph.AddEdge | src/main/java/de/thab/algo/functionThree/EvacuationGraph.java:20-40 | only the source's list changes, by the insert rule |
| Evacuation.EvacuationGraph.Append | src/main/java/de/thab/algo/functionThree/EvacuationGraph.java:37 | a new open road of positive weight is appended to the source's list |
| Evacuation.EvacuationGraph.BlockRoad | src/main/java/de/thab/algo/functionThree/EvacuationGraph.java:42-66 | for two vertices, flags the first entry in each direction and returns whether either exists; an out-of-range number is an `IndexOutOfBoundsException` with every flag unchanged |
| Evacuation.EvacuationGraph.UnblockRoad | src/main/java/de/thab/algo/functionThree/EvacuationGraph.java:68-92 | for two vertices, clears the same two flags and returns whether either entry exists; an out-of-range number is an `IndexOutOfBoundsException` with every flag unchanged |
| Evacuation.EvacuationGraph.SetRoad | src/main/java/de/thab/algo/functionThree/EvacuationGraph.java:42-66 | the two flagging loops, first entry in each direction, with the exception of `adj.get` on an out-of-range `src` or `dest` leaving every flag unchanged |
| Evacuation.EvacuationGraph.SetFirstFlag | src/main/java/de/thab/algo/functionThree/EvacuationGraph.java:45-53 | flags the first entry of one list, and returns whether there is one |
| Evacuation.EvacuationGraph.SetFlag | src/main/java/de/thab/algo/functionThree/EvacuationGraph.java:49 | exactly one entry's flag changes, because no entry object is shared |
| Evacuation.EvacuationGraph.OpenSnapshot | src/main/java/de/thab/algo/functionThree/EvacuationGraph.java:116-119 | the entries the routing loop does not skip |
| Evacuation.OpenGraphSound | src/main/java/de/thab/algo/functionThree/EvacuationGraph.java:21 | roads that lead to vertices and weigh more than 0 leave an open graph with in-range destinations and no negative weight |
| Evacuation.EvacuationGraph.OpenRoadsSound | src/main/java/de/thab/algo/functionThree/EvacuationGraph.java:21-38 | because `addEdge` stores only positive weights, the graph the routing loop sees has in-range destinations and no negative weight |
| Evacuation.EvacuationGraph.CalculateEvacuationRoutes | src/main/java/de/thab/algo/functionThree/EvacuationGraph.java:94-133 | a shortest-path tree of the graph of open roads, whose weights are never negative because `addEdge` keeps only positive ones |
| FlowNetwork.Push | src/main/java/de/thab/algo/functionFive/FunctionFiveHelper.java:82-83 | the edge gains the amount, its partner loses it, and no other edge changes |
| FlowNetwork.Augment | src/main/java/de/thab/algo/functionFive/FunctionFiveHelper.java:81-84 | augmenting changes flows only, and keeps the edge pairs |
| FlowNetwork.Bottleneck | src/main/java/de/thab/algo/functionFive/FunctionFiveHelper.java:73-78 | the least residual capacity on the path (or the maximum int for an empty path), positive when every edge has spare capacity |
| FlowNetwork.FlowAtUpdate | src/main/java/de/thab/algo/functionFive/FunctionFiveHelper.java:82-83 | changing one edge's flow changes only the flow sums at its ends |
| FlowNetwork.PushShift | src/main/java/de/thab/algo/functionFive/FunctionFiveHelper.java:82-83 | a push moves the amount from one end of the edge to the other |
| FlowNetwork.AugmentShift | src/main/java/de/thab/algo/functionFive/FunctionFiveHelper.java:81-84 | augmenting along a walk moves the amount from its first vertex to its last, and every inner vertex stays balanced |
| FlowNetwork.PushAntisymmetric | src/main/java/de/thab/algo/functionFive/FunctionFiveHelper.java:82-83 | a push keeps each edge's flow the negation of its partner's |
| FlowNetwork.AugmentAntisymmetric | src/main/java/de/thab/algo/functionFive/FunctionFiveHelper.java:81-84 | augmenting keeps flows antisymmetric |
| FlowNetwork.AugmentBelow | src/main/java/de/thab/algo/functionFive/FunctionFiveHelper.java:81-84 | an edge off the path does not gain flow |
| FlowNetwork.AugmentFeasible | src/main/java/de/thab/algo/functionFive/FunctionFiveHelper.java:73-84 | pushing at most the residual capacity along distinct edges keeps every flow within capacity |
| FlowNetwork.FlowWithinLimit | src/main/java/de/thab/algo/functionFive/FunctionFiveHelper.java:40-45 | a feasible flow sends out of a vertex at most the capacity there |
| FlowNetwork.FlowBelowLimit | src/main/java/de/thab/algo/functionFive/FunctionFiveHelper.java:40-45 | two edges below capacity lower that bound by their shortfalls |
| FlowNetwork.OneBelowLimit | src/main/java/de/thab/algo/functionFive/FunctionFiveHelper.java:40-45 | one edge below capacity lowers that bound by its shortfall |
| FlowNetwork.IntoUnitVertex | src/main/java/de/thab/algo/functionFive/FunctionFiveHelper.java:63-65 | a balanced vertex that can send one unit receives at most one unit on two edges together |
| FlowNetwork.LimitAtShape | src/main/java/de/thab/algo/functionFive/FunctionFiveHelper.java:81-84 | capacity sums do not depend on flows |
| FlowNetwork.LimitAtNone | src/main/java/de/thab/algo/functionFive/FunctionFiveHelper.java:40-45 | with no positive capacity at a vertex its capacity sum is 0 |
| FlowNetwork.FlowAtZero | src/main/java/de/thab/algo/functionFive/FunctionFiveHelper.java:23 | with no flow anywhere every flow sum is 0 |
| FlowNetwork.TreeExtend | src/main/java/de/thab/algo/functionFive/FunctionFiveHelper.java:103-106 | reaching a new vertex through an edge with spare capacity from an earlier reached vertex keeps the parent links a tree |
| FlowNetwork.Chain | src/main/java/de/thab/algo/functionFive/FunctionFiveHelper.java:76 | the edges followed back from a reached vertex along the parent links, empty exactly at the source |
| FlowNetwork.ChainFacts | src/main/java/de/thab/algo/functionFive/FunctionFiveHelper.java:76-84 | that chain is a walk from the source with spare capacity on every edge and strictly falling ranks |
| FlowNetwork.ClosedBlocks | src/main/java/de/thab/algo/functionFive/FunctionFiveHelper.java:114 | a set holding the source but not the sink, left by no edge with spare capacity, blocks every augmenting path |
| FlowNetwork.ReachedAlong | src/main/java/de/thab/algo/functionFive/FunctionFiveHelper.java:98-114 | such a set holds every vertex of a path with spare capacity from the source |
| FlowNetwork.AugmentPath | src/main/java/de/thab/algo/functionFive/FunctionFiveHelper.java:72-86 | augmenting a source-to-sink path by its bottleneck keeps the flow antisymmetric and feasible, adds the bottleneck (at least 1) at the source and at the sink, and changes no other vertex |
| FlowNetwork.ChainAugments | src/main/java/de/thab/algo/functionFive/FunctionFiveHelper.java:76-84 | the chain of a reached sink is such a path, with distinct edges |
| FlowNetwork.AugmentCons | src/main/java/de/thab/algo/functionFive/FunctionFiveHelper.java:81-84 | augmenting is a push on the first edge followed by augmenting the rest |
| FlowNetwork.AugmentStep | src/main/java/de/thab/algo/functionFive/FunctionFiveHelper.java:81-84 | one step of the update loop pushes on the link into the current vertex and leaves the chain from its parent to augment |
| TeamAllocation.SourceEdges | src/main/java/de/thab/algo/functionFive/FunctionFiveHelper.java:49-51 | one edge pair per team |
| TeamAllocation.Pair | src/main/java/de/thab/algo/functionFive/FunctionFiveHelper.java:40-42 | the reverse edge runs the other way with capacity 0 |
| TeamAllocation.MatchEdges | src/main/java/de/thab/algo/functionFive/FunctionFiveHelper.java:55-58 | at most one edge pair per node |
| TeamAllocation.TeamEdges | src/main/java/de/thab/algo/functionFive/FunctionFiveHelper.java:54-60 | at most one edge pair per team and node |
| TeamAllocation.SinkEdges | src/main/java/de/thab/algo/functionFive/FunctionFiveHelper.java:63-65 | one edge pair per node |
| TeamAllocation.BuildEdges | src/main/java/de/thab/algo/functionFive/FunctionFiveHelper.java:47-66 | at least one edge pair per team and one per node |
| TeamAllocation.SourceEdgesShape | src/main/java/de/thab/algo/functionFive/FunctionFiveHelper.java:49-51 | the source sends capacity 1 to each team, with empty reverse edges |
| TeamAllocation.MatchEdgesShape | src/main/java/de/thab/algo/functionFive/FunctionFiveHelper.java:55-58 | a team gets a capacity-1 edge to exactly those nodes whose requirements its skills contain |
| TeamAllocation.TeamEdgesShape | src/main/java/de/thab/algo/functionFive/FunctionFiveHelper.java:54-60 | the same for all teams up to the given one |
| TeamAllocation.SinkEdgesShape | src/main/java/de/thab/algo/functionFive/FunctionFiveHelper.java:63-65 | each node sends capacity 1 to the sink, with empty reverse edges |
| TeamAllocation.BuildEdgesShape | src/main/java/de/thab/algo/functionFive/FunctionFiveHelper.java:47-66 | every edge buildGraph adds is one of the six kinds: source-team, team-node allowed by the skills, node-sink, or a reverse edge of capacity 0 |
| TeamAllocation.PairLimit | src/main/java/de/thab/algo/functionFive/FunctionFiveHelper.java:40-42 | only the forward edge of a pair adds to a capacity sum |
| TeamAllocation.SourceEdgesLimit | src/main/java/de/thab/algo/functionFive/FunctionFiveHelper.java:49-51 | the source can send one unit per team |
| TeamAllocation.SinkEdgesLimit | src/main/java/de/thab/algo/functionFive/FunctionFiveHelper.java:63-65 | the sink can receive one unit per node |
| TeamAllocation.NodeLimit | src/main/java/de/thab/algo/functionFive/FunctionFiveHelper.java:63-65 | each node can send one unit |
| TeamAllocation.BuildSourceLimit | src/main/java/de/thab/algo/functionFive/FunctionFiveHelper.java:47-66 | in the built network the source can send as many units as there are teams |
| TeamAllocation.BuildSinkLimit | src/main/java/de/thab/algo/functionFive/FunctionFiveHelper.java:47-66 | in the built network the sink can receive as many units as there are nodes |
| TeamAllocation.BuildNodeLimit | src/main/java/de/thab/algo/functionFive/FunctionFiveHelper.java:47-66 | in the built network each node can send one unit |
| TeamAllocation.Allocation | src/main/java/de/thab/algo/functionFive/FunctionFiveHelper.java:117-129 | the allocation maps teams to node numbers in range, and holds every team with a flow-carrying edge to a node |
| TeamAllocation.AllocationEdge | src/main/java/de/thab/algo/functionFive/FunctionFiveHelper.java:117-129 | each allocated team has a flow-carrying edge to its node |
| TeamAllocation.BuildEdgeCompatible | src/main/java/de/thab/algo/functionFive/FunctionFiveHelper.java:56-57 | a team-to-node edge exists only where the team's skills contain the node's requirements |
| TeamAllocation.AllocationInjective | src/main/java/de/thab/algo/functionFive/FunctionFiveHelper.java:117-129 | in a conserved feasible flow no node is allocated to two teams |
| TeamAllocation.NodeCarriesOne | src/main/java/de/thab/algo/functionFive/FunctionFiveHelper.java:63-65 | two team edges into one node carry at most one unit together |
| TeamAllocation.ReverseCapacity | src/main/java/de/thab/algo/functionFive/FunctionFiveHelper.java:42 | a node-to-team edge is a reverse edge with capacity 0 |
| TeamAllocation.PairIndexed | src/main/java/de/thab/algo/functionFive/FunctionFiveHelper.java:43-44 | addEdge keeps each vertex's index list exactly the edges leaving it |
| TeamAllocation.PairAntisymmetric | src/main/java/de/thab/algo/functionFive/FunctionFiveHelper.java:41-42 | a new pair carries no flow, so the flow stays antisymmetric and feasible |
| TeamAllocation.SearchStart | src/main/java/de/thab/algo/functionFive/FunctionFiveHelper.java:93-96 | the search begins with the source alone, reached and queued |
| TeamAllocation.SearchVisit | src/main/java/de/thab/algo/functionFive/FunctionFiveHelper.java:103-106 | reaching a new vertex queues it, records its parent edge and keeps the search state |
| TeamAllocation.VisitKeepsScanned | src/main/java/de/thab/algo/functionFive/FunctionFiveHelper.java:103-106 | reaching a vertex keeps scanned vertices scanned |
| TeamAllocation.ScanVisit | src/main/java/de/thab/algo/functionFive/FunctionFiveHelper.java:103-106 | the edge just followed is scanned |
| TeamAllocation.VisitKeepsQueue | src/main/java/de/thab/algo/functionFive/FunctionFiveHelper.java:105 | every reached vertex is still queued or done |
| TeamAllocation.VisitKeepsRanks | src/main/java/de/thab/algo/functionFive/FunctionFiveHelper.java:103-106 | the new vertex is reached after all earlier ones |
| TeamAllocation.SearchSkip | src/main/java/de/thab/algo/functionFive/FunctionFiveHelper.java:103 | an edge with no spare capacity, or into a reached vertex, counts as scanned |
| TeamAllocation.SearchPop | src/main/java/de/thab/algo/functionFive/FunctionFiveHelper.java:98-101 | a vertex whose edges are all scanned leaves the queue as done |
| TeamAllocation.SearchBlocks | src/main/java/de/thab/algo/functionFive/FunctionFiveHelper.java:114 | a search that empties its queue without the sink proves there is no augmenting path |
| TeamAllocation.IndexedShape | src/main/java/de/thab/algo/functionFive/FunctionFiveHelper.java:81-84 | changing flows keeps the index lists exact |
| TeamAllocation.MaxFlowRound | src/main/java/de/thab/algo/functionFive/FunctionFiveHelper.java:72-87 | one round keeps the flow antisymmetric, feasible and conserved, and raises what leaves the source and enters the sink by the same positive amount |
| TeamAllocation.FunctionFiveHelper.constructor | src/main/java/de/thab/algo/functionFive/FunctionFiveHelper.java:27-38 | a network of source, teams, nodes and sink with no edges |
| TeamAllocation.FunctionFiveHelper.AddEdge | src/main/java/de/thab/algo/functionFive/FunctionFiveHelper.java:40-45 | appends the edge and its capacity-0 reverse edge and indexes both |
| TeamAllocation.FunctionFiveHelper.BuildGraph | src/main/java/de/thab/algo/functionFive/FunctionFiveHelper.java:47-66 | appends exactly the source, team-node and sink edges |
| TeamAllocation.FunctionFiveHelper.AddSourceEdges | src/main/java/de/thab/algo/functionFive/FunctionFiveHelper.java:49-51 | appends the source edges |
| TeamAllocation.FunctionFiveHelper.AddTeamEdges | src/main/java/de/thab/algo/functionFive/FunctionFiveHelper.java:54-60 | appends the team-node edges of every team |
| TeamAllocation.FunctionFiveHelper.AddMatchEdges | src/main/java/de/thab/algo/functionFive/FunctionFiveHelper.java:55-59 | appends the team-node edges of one team |
| TeamAllocation.FunctionFiveHelper.AddSinkEdges | src/main/java/de/thab/algo/functionFive/FunctionFiveHelper.java:63-65 | appends the sink edges |
| TeamAllocation.FunctionFiveHelper.Bfs | src/main/java/de/thab/algo/functionFive/FunctionFiveHelper.java:92-115 | on success the parent links form a tree reaching the sink through edges with spare capacity; on failure no augmenting path exists |
| TeamAllocation.FunctionFiveHelper.ScanEdges | src/main/java/de/thab/algo/functionFive/FunctionFiveHelper.java:101-111 | reaching the sink leaves a parent tree that reaches it; otherwise every edge of the polled vertex with spare capacity ends at a reached vertex, every reached vertex is queued or done, and either a new vertex was reached or the queue is unchanged |
| TeamAllocation.FunctionFiveHelper.MaxFlow | src/main/java/de/thab/algo/functionFive/FunctionFiveHelper.java:68-90 | the result is the flow gained at the source and at the sink, conservation is kept, and no augmenting path is left |
| TeamAllocation.FunctionFiveHelper.Round | src/main/java/de/thab/algo/functionFive/FunctionFiveHelper.java:73-86 | one augmentation raises source and sink flow by the same positive amount and keeps conservation |
| TeamAllocation.FunctionFiveHelper.GetAllocation | src/main/java/de/thab/algo/functionFive/FunctionFiveHelper.java:117-129 | the team-to-node map read off the flow-carrying team edges, the last edge winning |
| TeamAllocation.FunctionFiveHelper.PathCapacity | src/main/java/de/thab/algo/functionFive/FunctionFiveHelper.java:76-78 | the bottleneck of the chain from the sink back to the source |
| TeamAllocation.FunctionFiveHelper.AugmentAlong | src/main/java/de/thab/algo/functionFive/FunctionFiveHelper.java:81-84 | the flows become the augmentation of that chain |
| TeamAllocation.BuiltEmpty | src/main/java/de/thab/algo/functionFive/FunctionFiveHelper.java:23 | the built network carries no flow, so it is conserved |
| TeamAllocation.FlowAllocation | src/main/java/de/thab/algo/functionFive/FunctionFiveHelper.java:117-129 | a valid flow is at most the team count and the node count, and its allocation pairs qualified teams with distinct nodes |
| TeamAllocation.NewNetwork | src/main/java/de/thab/algo/App.java:133-136 | a fresh network holding exactly the built edges |
| TeamAllocation.AssignTeams | src/main/java/de/thab/algo/App.java:132-143 | the maximum flow is at most the team count and the node count; every allocated team meets its node's requirements; no node is allocated twice |
| Clustering.FirstMin | src/main/java/de/thab/algo/functionFour/ClusteringHelper.java:43-46 | the selection result is -1 or an index of the costs |
| Clustering.FirstMinIsFirstSmallest | src/main/java/de/thab/algo/functionFour/ClusteringHelper.java:43-46 | the selection picks the first smallest value below the maximum int, and -1 when there is none |
| Clustering.Distances | src/main/java/de/thab/algo/functionFour/ClusteringHelper.java:41-42 | one distance per medoid |
| Clustering.Nearest | src/main/java/de/thab/algo/functionFour/ClusteringHelper.java:38-47 | a vertex joins one of the medoids, or -1 |
| Clustering.NearestIsFirstClosest | src/main/java/de/thab/algo/functionFour/ClusteringHelper.java:38-47 | a vertex joins the first medoid with the smallest distance, or -1 when every distance is at least the maximum int |
| Clustering.Labels | src/main/java/de/thab/algo/functionFour/ClusteringHelper.java:37-48 | one label per vertex |
| Clustering.Group | src/main/java/de/thab/algo/functionFour/ClusteringHelper.java:37-50 | every cluster is keyed by the label of some vertex |
| Clustering.GroupCovers | src/main/java/de/thab/algo/functionFour/ClusteringHelper.java:49 | every vertex is in the cluster keyed by its label |
| Clustering.GroupMembers | src/main/java/de/thab/algo/functionFour/ClusteringHelper.java:49 | a cluster holds only vertices with its label |
| Clustering.GroupIncreasing | src/main/java/de/thab/algo/functionFour/ClusteringHelper.java:37-50 | every cluster is non-empty and in increasing vertex order |
| Clustering.AssignKeys | src/main/java/de/thab/algo/functionFour/ClusteringHelper.java:36-50 | every cluster is keyed by a medoid or by -1 |
| Clustering.Costs | src/main/java/de/thab/algo/functionFour/ClusteringHelper.java:65-72 | one cost per cluster member |
| Clustering.CostNonNegative | src/main/java/de/thab/algo/functionFour/ClusteringHelper.java:68-71 | the cost of a candidate is not negative when none of its distances is |
| Clustering.NewMedoid | src/main/java/de/thab/algo/functionFour/ClusteringHelper.java:56-78 | the replacement is the old medoid or a member of its cluster |
| Clustering.NewMedoidIsFirstCheapest | src/main/java/de/thab/algo/functionFour/ClusteringHelper.java:56-78 | a missing or empty cluster, or one with no cost below the maximum int, keeps its medoid; otherwise the new medoid is the first member of least cost |
| Clustering.Update | src/main/java/de/thab/algo/functionFour/ClusteringHelper.java:53-84 | one new medoid per old one |
| Clustering.UpdateKeepsVertices | src/main/java/de/thab/algo/functionFour/ClusteringHelper.java:54-86 | the update keeps the number of medoids and keeps them vertices |
| Clustering.Run | src/main/java/de/thab/algo/functionFour/ClusteringHelper.java:34-94 | after at least one iteration every cluster holds vertices only |
| Clustering.RunEndsWithAssignment | src/main/java/de/thab/algo/functionFour/ClusteringHelper.java:34-94 | with no iterations the result is empty; otherwise it is the assignment to some medoid list of the same length |
| Clustering.DistinctVerticesAtMostN | src/main/java/de/thab/algo/functionFour/ClusteringHelper.java:27-31 | distinct medoids are at most the number of vertices |
| Clustering.ClusteringHelper.constructor | src/main/java/de/thab/algo/functionFour/ClusteringHelper.java:11-13 | the helper keeps the graph |
| Clustering.ClusteringHelper.KMedoids | src/main/java/de/thab/algo/functionFour/ClusteringHelper.java:22-95 | the loop result; k is at most the number of vertices, which the drawing loop needs in order to end and which follows from the distinct starting medoids; no iterations give no clusters; otherwise the clusters are an assignment to as many vertices as medoids as the drawing loop picked, none for a negative k |
| Clustering.ClusteringHelper.AssignClusters | src/main/java/de/thab/algo/functionFour/ClusteringHelper.java:36-50 | every vertex joins the cluster of its nearest medoid, and clusters hold vertices only |
| Clustering.ClusteringHelper.NearestMedoid | src/main/java/de/thab/algo/functionFour/ClusteringHelper.java:38-47 | the nearest medoid of the vertex |
| Clustering.ClusteringHelper.UpdateMedoids | src/main/java/de/thab/algo/functionFour/ClusteringHelper.java:53-84 | the new medoids, and a changed flag that is true exactly when they differ from the old ones |
| Clustering.ClusteringHelper.BestCandidate | src/main/java/de/thab/algo/functionFour/ClusteringHelper.java:56-78 | the medoid's replacement as the update step defines it: kept for a missing or empty cluster, else the candidate loop's choice |
| Clustering.ClusteringHelper.CheapestMember | src/main/java/de/thab/algo/functionFour/ClusteringHelper.java:64-78 | the first member of least cost, or the old medoid when no cost is below the maximum int |
| Clustering.ClusteringHelper.ClusterCost | src/main/java/de/thab/algo/functionFour/ClusteringHelper.java:69-72 | the sum of the candidate's distances to the cluster |
| ArrayLists.ArrayList.constructor | src/main/java/de/thab/algo/abstractdatastructures/list/ArrayList.java:11-17 | an empty list with the requested room |
| ArrayLists.ArrayList.Resize | src/main/java/de/thab/algo/abstractdatastructures/list/ArrayList.java:56-61 | a fresh array twice as long holding the same elements |
| ArrayLists.ArrayList.Add | src/main/java/de/thab/algo/abstractdatastructures/list/ArrayList.java:20-25 | appends the element, doubling a full array; with a zero-length array the write fails after the size was raised to 1, leaving an empty array with no element stored |
| ArrayLists.ArrayList.Get | src/main/java/de/thab/algo/abstractdatastructures/list/ArrayList.java:28-33 | the element at the index, or an error outside the list |
| ArrayLists.ArrayList.Remove | src/main/java/de/thab/algo/abstractdatastructures/list/ArrayList.java:36-44 | removes exactly the element at the index and keeps the order of the others, or fails with nothing changed |
| ArrayLists.ArrayList.Contains | src/main/java/de/thab/algo/abstractdatastructures/list/ArrayList.java:72-83 | true exactly when the element is in the list |
| ArrayLists.ArrayList.Size | src/main/java/de/thab/algo/abstractdatastructures/list/ArrayList.java:47-49 | the number of elements |
| ArrayLists.ArrayList.IsEmpty | src/main/java/de/thab/algo/abstractdatastructures/list/ArrayList.java:52-54 | true exactly when there are no elements |
| ArrayLists.NewArrayList | src/main/java/de/thab/algo/abstractdatastructures/list/ArrayList.java:11-17 | a negative capacity is rejected; otherwise an empty list |
| ArrayLists.AddAll | src/main/java/de/thab/algo/abstractdatastructures/list/ArrayList.java:20-25 | repeated adds append in order |
| Stacks.ArrayStack.constructor | src/main/java/de/thab/algo/abstractdatastructures/stack/ArrayStack.java:8-12 | an empty stack of the given size |
| Stacks.ArrayStack.Push | src/main/java/de/thab/algo/abstractdatastructures/stack/ArrayStack.java:14-21 | fails with nothing changed on a full stack; otherwise the element goes on top |
| Stacks.ArrayStack.Pop | src/main/java/de/thab/algo/abstractdatastructures/stack/ArrayStack.java:22-28 | fails on an empty stack; otherwise returns the last pushed element and removes it |
| Stacks.ArrayStack.Peek | src/main/java/de/thab/algo/abstractdatastructures/stack/ArrayStack.java:29-34 | fails on an empty stack; otherwise the last pushed element |
| Stacks.ArrayStack.IsEmpty | src/main/java/de/thab/algo/abstractdatastructures/stack/ArrayStack.java:35-37 | true exactly when there are no elements |
| Stacks.PushThenPop | src/main/java/de/thab/algo/abstractdatastructures/stack/ArrayStack.java:14-28 | a push then a pop returns the element and restores the stack |
| ArrayQueues.ArrayQueue.constructor | src/main/java/de/thab/algo/abstractdatastructures/ArrayQueue.java:10-15 | head 0, tail -1, so the queue is empty |
| ArrayQueues.ArrayQueue.IsFull | src/main/java/de/thab/algo/abstractdatastructures/ArrayQueue.java:38-40 | an error for size 0; otherwise the comparison of the next tail with head minus one |
| ArrayQueues.ArrayQueue.Enqueue | src/main/java/de/thab/algo/abstractdatastructures/ArrayQueue.java:17-24 | fails when full or of size 0; otherwise tail advances modulo size and that slot is overwritten |
| ArrayQueues.ArrayQueue.Dequeue | src/main/java/de/thab/algo/abstractdatastructures/ArrayQueue.java:25-34 | fails when head exceeds tail; otherwise returns the slot at head and advances head by one modulo size |
| ArrayQueues.NeverFullAtHeadZero | src/main/java/de/thab/algo/abstractdatastructures/ArrayQueue.java:38-40 | with head 0 the queue is never full |
| ArrayQueues.OverwriteWhenHeadIsZero | src/main/java/de/thab/algo/abstractdatastructures/ArrayQueue.java:17-24 | a third enqueue into a queue of size 2 succeeds and overwrites the first element |
| Sets.SwapRemove | src/main/java/de/thab/algo/abstractdatastructures/CustomSet.java:45-54 | removal by swap shortens the sequence by one |
| Sets.SwapRemoveElements | src/main/java/de/thab/algo/abstractdatastructures/CustomSet.java:45-54 | removal by swap takes out exactly that element, keeps all others, and creates no duplicates |
| Sets.CustomSet.constructor | src/main/java/de/thab/algo/abstractdatastructures/CustomSet.java:10-13 | an empty set |
| Sets.CustomSet.Add | src/main/java/de/thab/algo/abstractdatastructures/CustomSet.java:15-20 | false for an element already present; an error at capacity 100; otherwise the element is appended |
| Sets.CustomSet.Contains | src/main/java/de/thab/algo/abstractdatastructures/CustomSet.java:22-27 | true exactly when the element is stored |
| Sets.CustomSet.ContainsAll | src/main/java/de/thab/algo/abstractdatastructures/CustomSet.java:35-42 | true exactly when every element of the other set is stored |
| Sets.CustomSet.Remove | src/main/java/de/thab/algo/abstractdatastructures/CustomSet.java:45-54 | true exactly when the element was present; then it is removed by moving the last element into its slot |
| Sets.CustomSet.Size | src/main/java/de/thab/algo/abstractdatastructures/CustomSet.java:56-58 | the number of elements |
| Sets.CustomSet.Iterate | src/main/java/de/thab/algo/abstractdatastructures/CustomSet.java:61-76 | the iterator yields the stored elements in slot order |
| HashMaps.Hash | src/main/java/de/thab/algo/abstractdatastructures/CustomHashMap.java:19-21 | the bucket index lies strictly between -100 and 100, and is negative only for the hash code Integer.MIN_VALUE |
| HashMaps.Position | src/main/java/de/thab/algo/abstractdatastructures/CustomHashMap.java:26-33 | the chain scan stops at the first entry with the key, or reports -1 when there is none |
| HashMaps.Find | src/main/java/de/thab/algo/abstractdatastructures/CustomHashMap.java:39-49 | a value found is stored under the key, and nothing is found exactly when no entry has the key |
| HashMaps.PutChain | src/main/java/de/thab/algo/abstractdatastructures/CustomHashMap.java:24-36 | the new entry is stored and no entry with another key is lost |
| HashMaps.RemoveChain | src/main/java/de/thab/algo/abstractdatastructures/CustomHashMap.java:65-77 | remove only takes entries away |
| HashMaps.PutChainFind | src/main/java/de/thab/algo/abstractdatastructures/CustomHashMap.java:24-36 | after put the key maps to the new value and every other key is unchanged |
| HashMaps.PutChainValid | src/main/java/de/thab/algo/abstractdatastructures/CustomHashMap.java:24-36 | put keeps keys unique within the chain, and the chain grows only for a new key |
| HashMaps.RemoveChainFind | src/main/java/de/thab/algo/abstractdatastructures/CustomHashMap.java:65-77 | after remove the key is absent and every other key is unchanged |
| HashMaps.RemoveChainValid | src/main/java/de/thab/algo/abstractdatastructures/CustomHashMap.java:65-77 | remove keeps keys unique, and the chain shrinks only when the key was there |
| HashMaps.FlattenSplit | src/main/java/de/thab/algo/abstractdatastructures/CustomHashMap.java:156-172 | the entries of a prefix of buckets come first in bucket order |
| HashMaps.FlattenUpdateLength | src/main/java/de/thab/algo/abstractdatastructures/CustomHashMap.java:80-82 | replacing one chain changes the entry count by that chain's change |
| HashMaps.FlattenAllEmpty | src/main/java/de/thab/algo/abstractdatastructures/CustomHashMap.java:85-90 | empty buckets hold no entries |
| HashMaps.FlattenMember | src/main/java/de/thab/algo/abstractdatastructures/CustomHashMap.java:93-101 | an entry is listed exactly when some bucket holds it |
| HashMaps.FlattenUniqueKeys | src/main/java/de/thab/algo/abstractdatastructures/CustomHashMap.java:93-101 | no key appears twice in the whole table |
| HashMaps.LookupIsEntry | src/main/java/de/thab/algo/abstractdatastructures/CustomHashMap.java:39-49 | get finds a value exactly when that key-value entry is stored |
| HashMaps.PrefixFresh | src/main/java/de/thab/algo/abstractdatastructures/CustomHashMap.java:93-101 | the next entry in bucket order is not among those already added |
| HashMaps.CustomHashMap.constructor | src/main/java/de/thab/algo/abstractdatastructures/CustomHashMap.java:11-17 | 100 empty buckets; no key maps to anything |
| HashMaps.CustomHashMap.HashIndex | src/main/java/de/thab/algo/abstractdatastructures/CustomHashMap.java:19-21 | the bucket of a key, negative only for the hash code Integer.MIN_VALUE |
| HashMaps.CustomHashMap.Scan | src/main/java/de/thab/algo/abstractdatastructures/CustomHashMap.java:26-33 | the position of the key in the chain |
| HashMaps.CustomHashMap.Put | src/main/java/de/thab/algo/abstractdatastructures/CustomHashMap.java:24-36 | fails on a negative bucket; otherwise the key maps to the value, the size grows only for a new key, and every other key is unchanged |
| HashMaps.CustomHashMap.Get | src/main/java/de/thab/algo/abstractdatastructures/CustomHashMap.java:39-49 | the stored value or null; an error on a negative bucket |
| HashMaps.CustomHashMap.ContainsKey | src/main/java/de/thab/algo/abstractdatastructures/CustomHashMap.java:52-62 | whether the key is stored; an error on a negative bucket |
| HashMaps.CustomHashMap.Remove | src/main/java/de/thab/algo/abstractdatastructures/CustomHashMap.java:65-77 | reports whether the key was there; afterwards it is absent, the size shrinks by that, and other keys are unchanged |
| HashMaps.CustomHashMap.Size | src/main/java/de/thab/algo/abstractdatastructures/CustomHashMap.java:80-82 | the number of entries |
| HashMaps.CustomHashMap.Clear | src/main/java/de/thab/algo/abstractdatastructures/CustomHashMap.java:85-90 | every bucket is empty and the size is 0 |
| HashMaps.CustomHashMap.ComputeIfAbsent | src/main/java/de/thab/algo/abstractdatastructures/CustomHashMap.java:110-117 | a stored value is returned unchanged; otherwise the computed value is stored and returned; other keys are unchanged |
| HashMaps.CustomHashMap.GetKeyAtIndex | src/main/java/de/thab/algo/abstractdatastructures/CustomHashMap.java:156-172 | the key of the entry at that position in bucket order, or an error outside the size |
| HashMaps.CustomHashMap.EntrySet | src/main/java/de/thab/algo/abstractdatastructures/CustomHashMap.java:93-101 | a set holding all entries in bucket order, or an error when there are more than 100 |
| HashSets.KeyIsEntry | src/main/java/de/thab/algo/abstractdatastructures/CustomHashSet.java:8 | with the placeholder value, an element is a key exactly when its entry is stored |
| HashSets.MemberIsKey | src/main/java/de/thab/algo/abstractdatastructures/CustomHashSet.java:37-39 | an element is in the set exactly when the map's containsKey finds it |
| HashSets.KeysDistinct | src/main/java/de/thab/algo/abstractdatastructures/CustomHashSet.java:60-66 | the set lists no element twice |
| HashSets.OthersUnchanged | src/main/java/de/thab/algo/abstractdatastructures/CustomHashSet.java:28-44 | maps that differ only at one key list the same other elements |
| HashSets.CustomHashSet.constructor | src/main/java/de/thab/algo/abstractdatastructures/CustomHashSet.java:11-13 | an empty set over a fresh map |
| HashSets.CustomHashSet.Add | src/main/java/de/thab/algo/abstractdatastructures/CustomHashSet.java:28-34 | returns whether the element was new; the set gains exactly that element and no duplicates |
| HashSets.CustomHashSet.Contains | src/main/java/de/thab/algo/abstractdatastructures/CustomHashSet.java:37-39 | whether the element is in the set |
| HashSets.CustomHashSet.Remove | src/main/java/de/thab/algo/abstractdatastructures/CustomHashSet.java:42-44 | returns whether the element was there; the set loses exactly that element |
| HashSets.CustomHashSet.Size | src/main/java/de/thab/algo/abstractdatastructures/CustomHashSet.java:47-49 | the number of elements |
| HashSets.CustomHashSet.Clear | src/main/java/de/thab/algo/abstractdatastructures/CustomHashSet.java:51-53 | the set becomes empty |
| HashSets.CustomHashSet.ToList | src/main/java/de/thab/algo/abstractdatastructures/CustomHashSet.java:60-66 | every element once, in the map's bucket order |
| HashSets.CustomHashSet.ContainsAll | src/main/java/de/thab/algo/abstractdatastructures/CustomSet.java:35-42 | true exactly when every element of the other set is in this one |
| HashSets.FromCollection | src/main/java/de/thab/algo/abstractdatastructures/CustomHashSet.java:20-25 | a set of exactly the collection's elements, without duplicates; an error when some element hashes to a negative bucket |
| LinkedQueues.CustomQueue.constructor | src/main/java/de/thab/algo/abstractdatastructures/CustomQueue.java:17-21 | an empty queue |
| LinkedQueues.Node.constructor | src/main/java/de/thab/algo/abstractdatastructures/CustomQueue.java:12-14 | a new node holds its value and links to nothing |
| LinkedQueues.CustomQueue.Add | src/main/java/de/thab/algo/abstractdatastructures/CustomQueue.java:29-39 | the value joins at the back, and add returns true |
| LinkedQueues.CustomQueue.Poll | src/main/java/de/thab/algo/abstractdatastructures/CustomQueue.java:46-57 | null when empty; otherwise the front value, which leaves the queue |
| LinkedQueues.CustomQueue.IsEmpty | src/main/java/de/thab/algo/abstractdatastructures/CustomQueue.java:64-66 | true exactly when the queue holds nothing |
| LinkedQueues.CustomQueue.Size | src/main/java/de/thab/algo/abstractdatastructures/CustomQueue.java:73-75 | the number of values |
| LinkedQueues.AddThenPoll | src/main/java/de/thab/algo/abstractdatastructures/CustomQueue.java:29-57 | values leave in the order they arrived |
| CustomLinkedLists.Node.constructor | src/main/java/de/thab/algo/abstractdatastructures/CustomLinkedList.java:12-14 | a node with the value and no successor |
| CustomLinkedLists.CustomLinkedList.constructor | src/main/java/de/thab/algo/abstractdatastructures/CustomLinkedList.java:3-6 | an empty list |
| CustomLinkedLists.CustomLinkedList.Add | src/main/java/de/thab/algo/abstractdatastructures/CustomLinkedList.java:17-26 | appends the value |
| CustomLinkedLists.CustomLinkedList.Get | src/main/java/de/thab/algo/abstractdatastructures/CustomLinkedList.java:28-35 | the value at the index, or an error outside the list |
| CustomLinkedLists.CustomLinkedList.Remove | src/main/java/de/thab/algo/abstractdatastructures/CustomLinkedList.java:37-51 | removes exactly the value at the index, or fails with nothing changed; an emptied list has no head or tail |
| CustomLinkedLists.CustomLinkedList.UnlinkHead | src/main/java/de/thab/algo/abstractdatastructures/CustomLinkedList.java:39-41 | the first value is removed |
| CustomLinkedLists.CustomLinkedList.UnlinkAfter | src/main/java/de/thab/algo/abstractdatastructures/CustomLinkedList.java:42-49 | the value at the index is removed |
| CustomLinkedLists.CustomLinkedList.Size | src/main/java/de/thab/algo/abstractdatastructures/CustomLinkedList.java:53-55 | the number of values |
| LinkedLists.Node.constructor | src/main/java/de/thab/algo/abstractdatastructures/list/LinkedList.java:12-15 | a node with the element and no successor |
| LinkedLists.IndexOf | src/main/java/de/thab/algo/abstractdatastructures/list/LinkedList.java:63-94 | the first position of the element, or -1 exactly when it is absent |
| LinkedLists.LinkedList.constructor | src/main/java/de/thab/algo/abstractdatastructures/list/LinkedList.java:5-7 | an empty list |
| LinkedLists.LinkedList.Add | src/main/java/de/thab/algo/abstractdatastructures/list/LinkedList.java:20-32 | appends the element |
| LinkedLists.LinkedList.Get | src/main/java/de/thab/algo/abstractdatastructures/list/LinkedList.java:35-44 | the element at the index, or an error outside the list |
| LinkedLists.LinkedList.Remove | src/main/java/de/thab/algo/abstractdatastructures/list/LinkedList.java:47-61 | removes exactly the element at the index, or fails with nothing changed |
| LinkedLists.LinkedList.DeleteByKey | src/main/java/de/thab/algo/abstractdatastructures/list/LinkedList.java:63-94 | removes the first occurrence of the key, and nothing when it is absent |
| LinkedLists.LinkedList.Contains | src/main/java/de/thab/algo/abstractdatastructures/list/LinkedList.java:95-104 | true exactly when the element is in the list |
| LinkedLists.LinkedList.Size | src/main/java/de/thab/algo/abstractdatastructures/list/LinkedList.java:106-109 | the number of elements |
| LinkedLists.LinkedList.IsEmpty | src/main/java/de/thab/algo/abstractdatastructures/list/LinkedList.java:111-114 | true exactly when there are no elements |
| LinkedLists.LinkedList.UnlinkHead | src/main/java/de/thab/algo/abstractdatastructures/list/LinkedList.java:51-52 | the first element is removed |
| LinkedLists.LinkedList.UnlinkAfter | src/main/java/de/thab/algo/abstractdatastructures/list/LinkedList.java:53-59 | the element at the index is removed |

## Left out

- Printing is not modelled, only the values it reports. This covers `printMST`'s
  headers, `printShortestPaths`, `printEvacuationRoutes`, `printGraph`,
  `printNetwork`, `displayClusters`, `LinkedList.print`, `ArrayList.print`,
  `ArrayQueue.printQueue` and the messages of `deleteByKey`.
- Paths are vertex sequences, not the name strings `getPath` and
  `getEvacuationPath` build. The vertex-name arrays, the `names` constructor
  parameters, `getNumberOfNodes` and `getNodeName` are not part of this model.
- Menu and input code (`App`, `functionThree/Main`, `EvacuationSystem`, the
  helper classes of functions one and two, `GraphReader`) is not part of this
  model. It only reads input and calls the modelled operations.
- `EmergencyRoutePlanning` calls methods that `Graph` does not define, so its
  behaviour is not part of this model.
- Java `int` overflow is not modelled. Integers are unbounded, and
  `Integer.MAX_VALUE` is only the "infinity" sentinel `INF`. Distance and
  cost sums near it do not wrap.
- `hashCode` is a function parameter of the hash map and hash set.
- The random choice of the initial medoids is a parameter of `KMedoids`.
- Mst.Prim: states the least-key order, the tree links and the set of vertices
  the tree spans, but not that no other spanning tree of those vertices weighs
  less. The exchange argument over all spanning trees is not part of this model.
- Graphs.Graph.PrimMST: carries the same contract as `Mst.Prim`. It states the
  tree links, the total weight and the vertices spanned, but not that no
  lighter spanning tree of those vertices exists.
- Clustering.ClusteringHelper.KMedoids: requires `k` distinct starting
  vertices. For `k` greater than the number of vertices the drawing loop
  `while (medoidSet.size() < k)` never ends in the source, so that case has no
  result to model.
- TeamAllocation.AssignTeams: takes `nat` team and node counts, so negative
  counts typed at the menu are not modelled. The source passes them on
  unchecked. With `teamCount = -1` and `nodeCount = 2`, the sink is vertex 2,
  the sink loop adds the edge 0→2 of capacity 1 from the source, and the
  maximum flow is 1, which is more than the team count. With `teamCount = -2`
  and `nodeCount = 0` the network has no vertex and `bfs` throws at
  `visited[source]`.
- TeamAllocation.NewNetwork: takes `nat` counts for the same reason as
  `TeamAllocation.AssignTeams`, so the network with a negative count is not
  modelled.
- TeamAllocation.FunctionFiveHelper.constructor: takes `nat` counts, so a
  negative count is not modelled. The range requires of
  `TeamAllocation.FunctionFiveHelper.AddEdge` holds for `buildGraph`'s edges
  only because the counts are not negative.
- `ShortestPaths.Dijkstra`, `Mst.Prim` and `Evacuation.EvacuationGraph.CalculateEvacuationRoutes`
  run on a value snapshot of the adjacency lists. The evacuation snapshot drops
  blocked entries, which has the same effect as the loop's `continue`.
- The hash map's bucket chains are sequences, not `CustomLinkedList` objects.
  Entries are values, so changes through the objects `entrySet` returns are not
  modelled.
- `Graph`'s lists are sequences, not `ArrayList` objects.
- `FunctionFiveHelper`'s index lists are a sequence indexed by vertex, not a
  `CustomHashMap`, and its allocation is a Dafny `map`.
- Skills and requirements are Dafny sets of strings, not `CustomSet` objects.
- The breadth-first queue of `bfs` is a local sequence.
- Null keys, values and elements are not modelled. Every container holds
  non-null values, and `null` appears only as a result (`Option`).
- HashSets.CustomHashSet.ContainsAll: the argument must be a `CustomHashSet`.
  The inherited `containsAll` iterates its argument through `iterator()` and
  asks `contains`, both of which `CustomHashSet` overrides. A plain `CustomSet`
  argument is not modelled for a hash set.
- The iterators of `CustomSet` and `CustomHashSet` are `Sets.CustomSet.Iterate`
  and `HashSets.CustomHashSet.ToList`: the sequence they yield, not the
  iterator objects.
- Stacks.ArrayStack.constructor: takes a `nat` size, as do
  `ArrayQueues.ArrayQueue.constructor`, `Heap.MinHeap.constructor` and
  `PriorityQueue.CustomPriorityQueue.constructor`, so the `NegativeArraySizeException` of a negative size is not
  modelled. `ArrayLists.NewArrayList` does model the negative-capacity check.
- Heap.MinHeap.InsertKey: requires a vertex in range not to be in the heap
  already when there is room, and so does
  `PriorityQueue.CustomPriorityQueue.Enqueue`. Inserting a vertex twice
  breaks the side table in the source, and the callers never do it.
- ArrayLists.ArrayList.Add: after the failing add on a zero-length array the
  list claims one element over an empty array. That list is outside
  `Valid()`, so what later calls on it do (`size()` returning 1, `get(0)`
  passing the range check and then throwing) is not modelled.
- Heap.MinHeap.DecreaseKey: the source checks `vertexToIndex` twice. The model
  checks it once; the outcome is the same.
- LinkedLists.LinkedList.Add: allocates the new node after the walk, not
  before. Nothing can observe the difference.
- ShortestPaths.GetPath: a parent chain that breaks above the target gives
  `None`. The source then returns "No path available" followed by the names
  appended on the way back. `ShortestPaths.PathOfReached` shows that the
  parents `dijkstra` computes never break that way.
- Graphs.Graph.AddEdge, Graphs.Graph.AddEdgeDijkstra,
  Evacuation.EvacuationGraph.AddEdge, Heap.MinHeap.DecreaseKey and
  PriorityQueue.CustomPriorityQueue.DecreaseKey require their vertex
  arguments to be vertices. The source accepts any `int`, with these results:
  - `addEdgeDijkstra` and the evacuation `addEdge` append an entry with an
    out-of-range `dest`, and a later `dijkstra` run fails on it.
  - `Graph.addEdge` appends to `src`'s list and then throws at
    `adj.get(dest)`, leaving half an edge.
  - `decreaseKey` throws `ArrayIndexOutOfBoundsException` at
    `vertexToIndex[vertex]`.
  An out-of-range `src` makes `adj.get(src)` throw before any change; in the
  two directed inserts that happens only for a positive weight. The graph reader, `primMST`
  and `dijkstra` pass only vertices.
- Several loops of the source are separate methods in the model. Each is named
  in the table next to the lines it models.
- `EvacuationNode`'s getters are the constant fields `dest` and `weight`.

=== FILE: adjacency.dfy ===
/** The adjacency-list vocabulary shared by `Graph` and `EvacuationGraph`: an
    entry (`Graph.Node`) is a destination and a weight, a graph is one list of
    entries per vertex, and lookups take the FIRST entry with a destination. */
module Adjacency {
  import opened Common

  /** `Graph.Node`: one adjacency entry. */
  datatype Edge = Edge(dest: int, weight: int)

  /** Index of the first entry of `list` leading to `dest`, or -1 if none. */
  function FirstMatch(list: seq<Edge>, dest: int): (k: int)
    ensures -1 <= k < |list|
    ensures k == -1 <==> forall j :: 0 <= j < |list| ==> list[j].dest != dest
    ensures k != -1 ==> list[k].dest == dest && forall j :: 0 <= j < k ==> list[j].dest != dest
  {
    if |list| == 0 then -1
    else if list[0].dest == dest then 0
    else
      var k := FirstMatch(list[1..], dest);
      if k == -1 then -1 else k + 1
  }

  /** The weight `getWeight` reports: that of the first entry to `dest`, or 0
      if there is none. */
  function Weight(adj: seq<seq<Edge>>, src: int, dest: int): int
    requires 0 <= src < |adj|
  {
    var k := FirstMatch(adj[src], dest);
    if k == -1 then 0 else adj[src][k].weight
  }

  /** Every entry leads to a vertex of the graph. */
  ghost predicate WellFormed(adj: seq<seq<Edge>>) {
    forall u, j :: 0 <= u < |adj| && 0 <= j < |adj[u]| ==> 0 <= adj[u][j].dest < |adj|
  }

  /** No entry has a negative weight. */
  ghost predicate NonNegative(adj: seq<seq<Edge>>) {
    forall u, j :: 0 <= u < |adj| && 0 <= j < |adj[u]| ==> adj[u][j].weight >= 0
  }

  /** A walk: vertices `vs` and, for each step, the index of the entry of
      `vs[i]` that leads to `vs[i+1]`. */
  ghost predicate IsWalk(adj: seq<seq<Edge>>, vs: seq<int>, js: seq<int>) {
    && |vs| >= 1
    && |js| == |vs| - 1
    && (forall i :: 0 <= i < |vs| ==> 0 <= vs[i] < |adj|)
    && (forall i :: 0 <= i < |js| ==> 0 <= js[i] < |adj[vs[i]]| && adj[vs[i]][js[i]].dest == vs[i + 1])
  }

  /** The total weight of the entries a walk uses. */
  ghost function WalkWeight(adj: seq<seq<Edge>>, vs: seq<int>, js: seq<int>): int
    requires IsWalk(adj, vs, js)
    decreases |js|
  {
    if |js| == 0 then 0
    else WalkWeight(adj, vs[..|vs| - 1], js[..|js| - 1]) + adj[vs[|js| - 1]][js[|js| - 1]].weight
  }

  /** Appending an entry of the last vertex to a walk gives a walk that
      weighs that entry's weight more. */
  lemma ExtendWalk(adj: seq<seq<Edge>>, vs: seq<int>, js: seq<int>, j: int, v: int)
    requires IsWalk(adj, vs, js)
    requires 0 <= j < |adj[vs[|vs| - 1]]| && adj[vs[|vs| - 1]][j].dest == v && 0 <= v < |adj|
    ensures IsWalk(adj, vs + [v], js + [j])
    ensures WalkWeight(adj, vs + [v], js + [j]) == WalkWeight(adj, vs, js) + adj[vs[|vs| - 1]][j].weight
  {
    var vs', js' := vs + [v], js + [j];
    assert IsWalk(adj, vs', js');
    assert vs'[..|vs'| - 1] == vs && js'[..|js'| - 1] == js;
  }

  /** Following parent links always ends: every link goes to a vertex of
      smaller rank. */
  ghost predicate RankedParents(parent: seq<int>, rank: seq<nat>) {
    && |rank| == |parent|
    && forall v :: 0 <= v < |parent| && parent[v] != -1 ==> 0 <= parent[v] < |parent| && rank[parent[v]] < rank[v]
  }
}

=== FILE: array_list.dfy ===
/** `list.ArrayList`: a growable list over an array that doubles when full;
    slots past `size` hold `null`. */
module ArrayLists {
  import opened Common

  class ArrayList<T(==)> {
    var elements: array<Option<T>>
    var size: nat
    /** The elements in list order. */
    ghost var Contents: seq<T>
    ghost var Repr: set<object>

    ghost predicate Valid()
      reads this, Repr
    {
      && Repr == {this, elements}
      && size == |Contents| <= elements.Length
      && (forall i :: 0 <= i < size ==> elements[i] == Some(Contents[i]))
      && (forall i :: size <= i < elements.Length ==> elements[i] == None)
    }

    /** `ArrayList(initialCapacity)` for a capacity already known to be
        non-negative; `NewArrayList` has the check. */
    constructor (initialCapacity: nat)
      ensures Valid() && fresh(Repr)
      ensures Contents == [] && elements.Length == initialCapacity
    {
      elements := new Option<T>[initialCapacity](_ => None);
      size := 0;
      Contents := [];
      Repr := {this, elements};
    }

    /** `resize`: a backing array twice as long holding the same elements. */
    method Resize()
      requires Valid()
      modifies this
      ensures Valid() && fresh(elements) && fresh(Repr - old(Repr)) && Contents == old(Contents)
      ensures elements.Length == 2 * old(elements.Length)
    {
      var newElements := new Option<T>[2 * elements.Length](_ => None);
      var i := 0;
      while i < size
        invariant 0 <= i <= size
        invariant Valid() && elements == old(elements) && Contents == old(Contents)
        invariant newElements.Length == 2 * elements.Length
        invariant forall j :: 0 <= j < i ==> newElements[j] == elements[j]
        invariant forall j :: i <= j < newElements.Length ==> newElements[j] == None
      {
        newElements[i] := elements[i];
        i := i + 1;
      }
      elements := newElements;
      Repr := {this, elements};
    }

    /** `add`: appends, doubling a full backing array first. A backing array
        of length 0 stays 0 long when doubled; `size` is raised before the
        write past its end throws, so the list is left claiming one element
        over an empty array, outside `Valid()`. */
    method Add(element: T) returns (outcome: Outcome)
      requires Valid()
      modifies Repr
      ensures fresh(Repr - old(Repr))
      ensures old(elements.Length) == 0 ==>
                && outcome == Fail(IndexOutOfRange) && Contents == old(Contents)
                && elements.Length == 0 && size == old(size) + 1 == 1
      ensures old(elements.Length) > 0 ==> Valid() && outcome == Pass && Contents == old(Contents) + [element]
      ensures old(size) < old(elements.Length) ==> elements == old(elements)
      ensures old(elements.Length) > 0 && old(size) == old(elements.Length) ==> elements.Length == 2 * old(elements.Length)
    {
      if size == elements.Length {
        Resize();
      }
      if size == elements.Length {
        size := size + 1;
        return Fail(IndexOutOfRange);
      }
      elements[size] := Some(element);
      size := size + 1;
      Contents := Contents + [element];
      outcome := Pass;
    }

    /** `get`: `IndexOutOfBoundsException` outside `[0, size)`. */
    method Get(index: int) returns (r: Result<T>)
      requires Valid()
      ensures 0 <= index < |Contents| ==> r == Ok(Contents[index])
      ensures !(0 <= index < |Contents|) ==> r == Err(IndexOutOfRange)
    {
      if index < 0 || index >= size {
        return Err(IndexOutOfRange);
      }
      r := Ok(elements[index].value);
    }

    /** `remove(index)`: shifts the later elements one slot left and clears
        the slot that frees up. */
    method Remove(index: int) returns (outcome: Outcome)
      requires Valid()
      modifies Repr
      ensures Valid() && Repr == old(Repr)
      ensures !(0 <= index < old(|Contents|)) ==> outcome == Fail(IndexOutOfRange) && Contents == old(Contents)
      ensures 0 <= index < old(|Contents|) ==>
                outcome == Pass && Contents == old(Contents)[..index] + old(Contents)[index + 1..]
    {
      if index < 0 || index >= size {
        return Fail(IndexOutOfRange);
      }
      var i := index;
      while i < size - 1
        invariant index <= i <= size - 1
        invariant elements == old(elements) && size == old(size) && Contents == old(Contents) && Repr == old(Repr)
        invariant Repr == {this, elements} && size == |Contents| <= elements.Length
        invariant forall j :: 0 <= j < index ==> elements[j] == Some(Contents[j])
        invariant forall j :: index <= j < i ==> elements[j] == Some(Contents[j + 1])
        invariant forall j :: i <= j < size ==> elements[j] == Some(Contents[j])
        invariant forall j :: size <= j < elements.Length ==> elements[j] == None
      {
        elements[i] := elements[i + 1];
        i := i + 1;
      }
      size := size - 1;
      elements[size] := None;
      Contents := Contents[..index] + Contents[index + 1..];
      outcome := Pass;
    }

    /** `contains`: whether some element of the list equals `element`. */
    method Contains(element: T) returns (found: bool)
      requires Valid()
      ensures found <==> element in Contents
    {
      var i := 0;
      while i < size
        invariant 0 <= i <= size
        invariant element !in Contents[..i]
      {
        if elements[i] == Some(element) {
          assert Contents[i] == element;
          return true;
        }
        assert Contents[..i + 1] == Contents[..i] + [Contents[i]];
        i := i + 1;
      }
      assert Contents[..size] == Contents;
      found := false;
    }

    /** `size`. */
    method Size() returns (n: nat)
      requires Valid()
      ensures n == |Contents|
    {
      n := size;
    }

    /** `isEmpty`: `size == 0`. */
    method IsEmpty() returns (empty: bool)
      requires Valid()
      ensures empty <==> Contents == []
    {
      empty := size == 0;
    }
  }

  /** `ArrayList(initialCapacity)`: `IllegalArgumentException` for a negative
      capacity, otherwise an empty list with that much room. */
  method NewArrayList<T(==)>(initialCapacity: int) returns (r: Result<ArrayList<T>>)
    ensures initialCapacity < 0 ==> r == Err(IllegalArgument)
    ensures initialCapacity >= 0 ==> r.Ok? && fresh(r.value.Repr) && r.value.Valid()
                                     && r.value.Contents == [] && r.value.elements.Length == initialCapacity
  {
    if initialCapacity < 0 {
      return Err(IllegalArgument);
    }
    var list := new ArrayList<T>(initialCapacity);
    r := Ok(list);
  }

  /** Each successful `add` keeps the elements before it and puts the new
      one last: adding `xs` one by one to a list of non-zero capacity gives
      its old contents followed by `xs`. */
  method AddAll<T(==)>(list: ArrayList<T>, xs: seq<T>)
    requires list.Valid() && list.elements.Length > 0
    modifies list.Repr
    ensures list.Valid() && fresh(list.Repr - old(list.Repr))
    ensures list.Contents == old(list.Contents) + xs
  {
    var i := 0;
    while i < |xs|
      invariant 0 <= i <= |xs|
      invariant list.Valid() && fresh(list.Repr - old(list.Repr)) && list.elements.Length > 0
      invariant list.Contents == old(list.Contents) + xs[..i]
    {
      var o := list.Add(xs[i]);
      assert xs[..i + 1] == xs[..i] + [xs[i]];
      i := i + 1;
    }
    assert xs[..|xs|] == xs;
  }
}

=== FILE: array_queue.dfy ===
/** `ArrayQueue`: a circular queue over an array, modelled with its index
    arithmetic exactly as written: `isEmpty` compares `head > tail` without
    regard to wrap-around, and `isFull` compares with `head - 1`. */
module ArrayQueues {
  import opened Common

  class ArrayQueue<T> {
    var head: int
    var tail: int
    const size: nat
    const queue: array<Option<T>>

    ghost predicate Valid()
      reads this
    {
      && queue.Length == size
      && (size == 0 ==> head == 0 && tail == -1)
      && (size > 0 ==> 0 <= head < size && -1 <= tail < size)
    }

    /** `ArrayQueue(size)`: `head == 0`, `tail == -1`. */
    constructor (size: nat)
      ensures Valid() && fresh(queue)
      ensures this.size == size && head == 0 && tail == -1
      ensures IsEmpty()
    {
      this.size := size;
      head := 0;
      tail := -1;
      queue := new Option<T>[size](_ => None);
    }

    /** `isEmpty`: `head > tail`. */
    predicate IsEmpty()
      reads this
    {
      head > tail
    }

    /** `isFull`: `(tail + 1) % size == head - 1`; `tail + 1` is never
        negative, so Java's remainder is the one Dafny computes. */
    function IsFull(): (r: Result<bool>)
      reads this
      requires Valid()
      ensures r.Err? <==> size == 0
      ensures r.Ok? ==> (r.value <==> (tail + 1) % size == head - 1)
    {
      if size == 0 then Err(DivisionByZero) else Ok((tail + 1) % size == head - 1)
    }

    /** `enqueue`: throws when full (or, with capacity 0, on the division in
        `isFull`); otherwise `tail` moves one slot on, modulo `size`, and the
        element is written there, whatever that slot held. */
    method Enqueue(element: T) returns (outcome: Outcome)
      requires Valid()
      modifies this, queue
      ensures Valid() && head == old(head)
      ensures size == 0 ==> outcome == Fail(DivisionByZero) && tail == old(tail)
      ensures size > 0 && (old(tail) + 1) % size == old(head) - 1 ==>
                outcome == Fail(CapacityExceeded) && tail == old(tail) && queue[..] == old(queue[..])
      ensures size > 0 && (old(tail) + 1) % size != old(head) - 1 ==>
                && outcome == Pass && tail == (old(tail) + 1) % size
                && queue[..] == old(queue[..])[tail := Some(element)]
    {
      var full := IsFull();
      if full.Err? {
        return Fail(full.error);
      }
      if full.value {
        return Fail(CapacityExceeded);
      }
      tail := tail + 1;
      tail := tail % size;
      queue[tail] := Some(element);
      outcome := Pass;
    }

    /** `dequeue`: throws when `head > tail`; otherwise returns the slot at
        `head`, and `head` moves exactly one slot on, modulo `size` (the
        statement `head = head++` changes nothing). */
    method Dequeue() returns (r: Result<Option<T>>)
      requires Valid()
      modifies this
      ensures Valid() && tail == old(tail)
      ensures old(head) > old(tail) ==> r == Err(EmptyCollection) && head == old(head)
      ensures old(head) <= old(tail) ==> r == Ok(queue[old(head)]) && head == (old(head) + 1) % size
    {
      if IsEmpty() {
        return Err(EmptyCollection);
      }
      var temp := head;
      head := head + 1;
      head := head % size;
      r := Ok(queue[temp]);
    }
  }

  /** `isFull` can only hold when `head` is at least 1: with `head == 0` the
      right-hand side is -1 and a remainder is never negative. Together with
      `tail` wrapping round, this lets `enqueue` overwrite a slot not yet
      dequeued. */
  lemma NeverFullAtHeadZero<T>(q: ArrayQueue<T>)
    requires q.Valid() && q.head == 0
    ensures q.IsFull() != Ok(true)
  {
  }

  /** Two elements in a queue of size 2 leave it not full: a third
      `enqueue` is accepted and overwrites the first. */
  method OverwriteWhenHeadIsZero(a: int, b: int, c: int) returns (first: Result<Option<int>>)
    ensures first == Ok(Some(c))
  {
    var q := new ArrayQueue<int>(2);
    var o1 := q.Enqueue(a);
    var o2 := q.Enqueue(b);
    var o3 := q.Enqueue(c);
    assert o3 == Pass;
    first := q.Dequeue();
  }
}

=== FILE: array_stack.dfy ===
/** `ArrayStack`: a stack of fixed capacity over an array, `top` the index of
    the most recent element (-1 when empty). */
module Stacks {
  import opened Common

  class ArrayStack<T> {
    var top: int
    const size: nat
    const stack: array<Option<T>>
    /** The elements from the bottom of the stack to its top. */
    ghost var Contents: seq<T>

    ghost predicate Valid()
      reads this, stack
    {
      && stack.Length == size
      && -1 <= top < size
      && |Contents| == top + 1
      && forall i :: 0 <= i < |Contents| ==> stack[i] == Some(Contents[i])
    }

    /** `ArrayStack(size)`: an empty stack with room for `size` elements. */
    constructor (size: nat)
      ensures Valid() && fresh(stack)
      ensures this.size == size && top == -1 && Contents == []
    {
      this.size := size;
      top := -1;
      stack := new Option<T>[size](_ => None);
      Contents := [];
    }

    /** `push`: `StackOverflowError` when `top == size - 1`, otherwise the
        element goes on top. */
    method Push(element: T) returns (outcome: Outcome)
      requires Valid()
      modifies this, stack
      ensures Valid()
      ensures old(top) == size - 1 ==> outcome == Fail(CapacityExceeded) && Contents == old(Contents) && top == old(top)
      ensures old(top) != size - 1 ==> outcome == Pass && Contents == old(Contents) + [element] && top == old(top) + 1
    {
      if top == size - 1 {
        return Fail(CapacityExceeded);
      }
      top := top + 1;
      stack[top] := Some(element);
      Contents := Contents + [element];
      outcome := Pass;
    }

    /** `pop`: `IllegalStateException` when empty, otherwise the most recent
        element, which leaves the stack. */
    method Pop() returns (r: Result<T>)
      requires Valid()
      modifies this
      ensures Valid()
      ensures old(Contents) == [] ==> r == Err(EmptyCollection) && Contents == old(Contents) && top == old(top)
      ensures old(Contents) != [] ==>
                && r == Ok(old(Contents)[|old(Contents)| - 1])
                && Contents == old(Contents)[..|old(Contents)| - 1] && top == old(top) - 1
    {
      var empty := IsEmpty();
      if empty {
        return Err(EmptyCollection);
      }
      top := top - 1;
      r := Ok(stack[top + 1].value);
      Contents := Contents[..|Contents| - 1];
    }

    /** `peek`: `IllegalStateException` when empty, otherwise the top element;
        the stack does not change. */
    method Peek() returns (r: Result<T>)
      requires Valid()
      ensures Contents == [] ==> r == Err(EmptyCollection)
      ensures Contents != [] ==> r == Ok(Contents[|Contents| - 1])
    {
      var empty := IsEmpty();
      if empty {
        return Err(EmptyCollection);
      }
      r := Ok(stack[top].value);
    }

    /** `isEmpty`: `top == -1`. */
    method IsEmpty() returns (empty: bool)
      requires Valid()
      ensures empty <==> Contents == []
    {
      empty := top == -1;
    }
  }

  /** A `push` that succeeds followed by a `pop` gives back the pushed element
      and the stack it started from. */
  method PushThenPop<T>(s: ArrayStack<T>, x: T) returns (outcome: Outcome, r: Result<T>)
    requires s.Valid() && |s.Contents| < s.size
    modifies s, s.stack
    ensures s.Valid() && outcome == Pass && r == Ok(x)
    ensures s.Contents == old(s.Contents) && s.top == old(s.top)
  {
    outcome := s.Push(x);
    r := s.Pop();
  }
}

=== FILE: clustering.dfy ===
/** `ClusteringHelper.kMedoids`: k-medoids clustering of the vertices of a
    `Graph`, with `getWeight` as the distance. The random choice of the
    first medoids is replaced by a parameter. */
module Clustering {
  import opened Common
  import opened Adjacency
  import opened Graphs

  /** The running minimum a selection loop holds after choosing index `k`
      of `costs` (-1: nothing chosen yet, minimum still `Integer.MAX_VALUE`). */
  function Least(costs: seq<int>, k: int): int
    requires -1 <= k < |costs|
  {
    if k == -1 then INF else costs[k]
  }

  /** The index both selection loops of `kMedoids` end on: scanning left to
      right, a value replaces the running minimum only when it is strictly
      smaller; -1 when no value is below `Integer.MAX_VALUE`. */
  function FirstMin(costs: seq<int>): (k: int)
    ensures -1 <= k < |costs|
  {
    if |costs| == 0 then -1
    else
      var k := FirstMin(costs[..|costs| - 1]);
      if costs[|costs| - 1] < Least(costs[..|costs| - 1], k) then |costs| - 1 else k
  }

  /** `FirstMin` picks the first smallest value, and only one below
      `Integer.MAX_VALUE`. */
  lemma {:induction false} FirstMinIsFirstSmallest(costs: seq<int>)
    ensures FirstMin(costs) == -1 <==> forall j :: 0 <= j < |costs| ==> costs[j] >= INF
    ensures FirstMin(costs) != -1 ==>
              && costs[FirstMin(costs)] < INF
              && (forall j :: 0 <= j < FirstMin(costs) ==> costs[j] > costs[FirstMin(costs)])
              && (forall j :: 0 <= j < |costs| ==> costs[j] >= costs[FirstMin(costs)])
    decreases |costs|
  {
    if |costs| > 0 {
      var init := costs[..|costs| - 1];
      FirstMinIsFirstSmallest(init);
      assert forall j :: 0 <= j < |init| ==> init[j] == costs[j];
    }
  }

  /** One step of a selection loop: the value at `j` takes over exactly when
      it is below the running minimum of the values before it. */
  lemma FirstMinStep(costs: seq<int>, j: int)
    requires 0 <= j < |costs|
    ensures var k := FirstMin(costs[..j]);
            var least := Least(costs[..j], k);
            && FirstMin(costs[..j + 1]) == (if costs[j] < least then j else k)
            && Least(costs[..j + 1], FirstMin(costs[..j + 1])) == (if costs[j] < least then costs[j] else least)
  {
    assert costs[..j + 1][..j] == costs[..j];
  }

  /** The distances `getWeight(i, medoid)` from vertex `i` to the medoids, in
      list order. */
  function Distances(adj: seq<seq<Edge>>, i: int, medoids: seq<int>): (r: seq<int>)
    requires 0 <= i < |adj|
    ensures |r| == |medoids|
  {
    seq(|medoids|, j requires 0 <= j < |medoids| => Weight(adj, i, medoids[j]))
  }

  /** The medoid the assignment step gives vertex `i` (`nearestMedoid`). */
  function Nearest(adj: seq<seq<Edge>>, i: int, medoids: seq<int>): (r: int)
    requires 0 <= i < |adj|
    ensures r == -1 || r in medoids
  {
    var j := FirstMin(Distances(adj, i, medoids));
    if j == -1 then -1 else medoids[j]
  }

  /** Vertex `i` joins the first medoid in list order with the strictly
      smallest distance, or -1 when every distance is at least
      `Integer.MAX_VALUE` (a missing edge counts as distance 0). */
  lemma NearestIsFirstClosest(adj: seq<seq<Edge>>, i: int, medoids: seq<int>)
    requires 0 <= i < |adj|
    requires forall j :: 0 <= j < |medoids| ==> medoids[j] >= 0
    ensures Nearest(adj, i, medoids) == -1 <==> forall j :: 0 <= j < |medoids| ==> Weight(adj, i, medoids[j]) >= INF
    ensures Nearest(adj, i, medoids) != -1 ==>
              exists j :: 0 <= j < |medoids| && medoids[j] == Nearest(adj, i, medoids)
                && Weight(adj, i, medoids[j]) < INF
                && (forall j' :: 0 <= j' < j ==> Weight(adj, i, medoids[j']) > Weight(adj, i, medoids[j]))
                && (forall j' :: 0 <= j' < |medoids| ==> Weight(adj, i, medoids[j']) >= Weight(adj, i, medoids[j]))
  {
    var d := Distances(adj, i, medoids);
    FirstMinIsFirstSmallest(d);
    assert forall x :: 0 <= x < |medoids| ==> d[x] == Weight(adj, i, medoids[x]);
    var j := FirstMin(d);
    if j != -1 {
      assert medoids[j] == Nearest(adj, i, medoids) && Weight(adj, i, medoids[j]) < INF;
      assert forall j' :: 0 <= j' < j ==> Weight(adj, i, medoids[j']) > Weight(adj, i, medoids[j]);
      assert forall j' :: 0 <= j' < |medoids| ==> Weight(adj, i, medoids[j']) >= Weight(adj, i, medoids[j]);
    }
  }

  /** The list `clusters.get(m)` holds, empty when there is none. */
  function Members(clusters: map<int, seq<int>>, m: int): seq<int>
  {
    if m in clusters then clusters[m] else []
  }

  /** The medoid each vertex of the graph joins, vertex by vertex. */
  function Labels(adj: seq<seq<Edge>>, medoids: seq<int>): (r: seq<int>)
    ensures |r| == |adj|
  {
    seq(|adj|, i requires 0 <= i < |adj| => Nearest(adj, i, medoids))
  }

  /** The clusters once vertices `0..|labels|-1` have each joined the list
      keyed by their label, in that order (`computeIfAbsent(m, ..).add(i)`). */
  function Group(labels: seq<int>): (r: map<int, seq<int>>)
    ensures forall m :: m in r ==> m in labels
  {
    if |labels| == 0 then map[]
    else
      var clusters := Group(labels[..|labels| - 1]);
      var m := labels[|labels| - 1];
      clusters[m := Members(clusters, m) + [|labels| - 1]]
  }

  /** The clusters of the assignment step. */
  function Assign(adj: seq<seq<Edge>>, medoids: seq<int>): map<int, seq<int>>
  {
    Group(Labels(adj, medoids))
  }

  /** Every entry of `s` is a vertex of a graph with `n` vertices. */
  ghost predicate Vertices(s: seq<int>, n: int) {
    forall j :: 0 <= j < |s| ==> 0 <= s[j] < n
  }

  ghost predicate Increasing(s: seq<int>) {
    forall a, b :: 0 <= a < b < |s| ==> s[a] < s[b]
  }

  /** Every member of every cluster is a vertex below `n`. */
  ghost predicate MembersBelow(clusters: map<int, seq<int>>, n: int) {
    forall m :: m in clusters ==> Vertices(clusters[m], n)
  }

  /** Grouping puts every vertex into the list keyed by its label. */
  lemma {:induction false} GroupCovers(labels: seq<int>)
    ensures forall i :: 0 <= i < |labels| ==> labels[i] in Group(labels) && i in Group(labels)[labels[i]]
  {
    if |labels| > 0 {
      var init := labels[..|labels| - 1];
      GroupCovers(init);
      assert forall i :: 0 <= i < |init| ==> init[i] == labels[i];
    }
  }

  /** Grouping places only vertices below `|labels|`, each in the list keyed
      by its label and so in no other. */
  lemma {:induction false} GroupMembers(labels: seq<int>)
    ensures forall m, x :: m in Group(labels) && x in Group(labels)[m] ==> 0 <= x < |labels| && labels[x] == m
    ensures MembersBelow(Group(labels), |labels|)
  {
    if |labels| > 0 {
      var init := labels[..|labels| - 1];
      var before := Group(init);
      GroupMembers(init);
      var m := labels[|labels| - 1];
      var after := Group(labels);
      forall k, x | k in after && x in after[k]
        ensures 0 <= x < |labels| && labels[x] == k
      {
        if k == m && x !in Members(before, m) {
          assert x == |labels| - 1;
        } else {
          assert x in before[k];
          assert init[x] == k;
        }
      }
      forall k | k in after
        ensures Vertices(after[k], |labels|)
      {
        forall j | 0 <= j < |after[k]|
          ensures 0 <= after[k][j] < |labels|
        {
          assert after[k][j] in after[k];
        }
      }
    } else {
      assert Group(labels) == map[];
    }
  }

  lemma AppendIncreasing(s: seq<int>, x: int)
    requires Increasing(s) && forall a :: 0 <= a < |s| ==> s[a] < x
    ensures Increasing(s + [x])
  {
  }

  /** Every list grouping builds is non-empty and in increasing order. */
  lemma {:induction false} GroupIncreasing(labels: seq<int>)
    ensures forall m :: m in Group(labels) ==> |Group(labels)[m]| > 0 && Increasing(Group(labels)[m])
  {
    if |labels| > 0 {
      var init := labels[..|labels| - 1];
      var before := Group(init);
      GroupIncreasing(init);
      GroupMembers(init);
      var m := labels[|labels| - 1];
      var s := Members(before, m);
      forall a | 0 <= a < |s|
        ensures s[a] < |labels| - 1
      {
        assert s[a] in before[m];
      }
      AppendIncreasing(s, |labels| - 1);
    }
  }

  /** Every vertex is labelled with one of the medoids, or with -1 when no
      medoid is closer than `Integer.MAX_VALUE`; so every cluster of the
      assignment step is keyed by a medoid or by -1. */
  lemma AssignKeys(adj: seq<seq<Edge>>, medoids: seq<int>)
    ensures forall i :: 0 <= i < |adj| ==> Labels(adj, medoids)[i] == -1 || Labels(adj, medoids)[i] in medoids
    ensures forall m :: m in Assign(adj, medoids) ==> m == -1 || m in medoids
  {
    var labels := Labels(adj, medoids);
    forall i | 0 <= i < |adj|
      ensures labels[i] == -1 || labels[i] in medoids
    {
      var j := FirstMin(Distances(adj, i, medoids));
      if j != -1 {
        assert labels[i] == medoids[j];
      }
    }
    GroupMembers(labels);
    GroupIncreasing(labels);
    forall m | m in Group(labels)
      ensures m == -1 || m in medoids
    {
      var x := Group(labels)[m][0];
      assert x in Group(labels)[m];
      assert labels[x] == m;
    }
  }

  /** `cost` in the update step: the distances from `candidate` to every
      member of `cluster`, summed in list order. */
  function Cost(adj: seq<seq<Edge>>, candidate: int, cluster: seq<int>): int
    requires 0 <= candidate < |adj|
  {
    if |cluster| == 0 then 0
    else Cost(adj, candidate, cluster[..|cluster| - 1]) + Weight(adj, candidate, cluster[|cluster| - 1])
  }

  /** A candidate's cost is never negative when none of its distances is:
      the sum only adds the distances. */
  lemma {:induction false} CostNonNegative(adj: seq<seq<Edge>>, candidate: int, cluster: seq<int>)
    requires 0 <= candidate < |adj|
    requires forall j :: 0 <= j < |cluster| ==> Weight(adj, candidate, cluster[j]) >= 0
    ensures Cost(adj, candidate, cluster) >= 0
  {
    if |cluster| > 0 {
      CostNonNegative(adj, candidate, cluster[..|cluster| - 1]);
    }
  }

  /** The cost of each member of `cluster` as the candidate medoid. */
  function Costs(adj: seq<seq<Edge>>, cluster: seq<int>): (r: seq<int>)
    requires Vertices(cluster, |adj|)
    ensures |r| == |cluster|
  {
    seq(|cluster|, j requires 0 <= j < |cluster| => Cost(adj, cluster[j], cluster))
  }

  /** The medoid the update step puts in place of `medoid` (`bestMedoid`). */
  function NewMedoid(adj: seq<seq<Edge>>, clusters: map<int, seq<int>>, medoid: int): (r: int)
    requires MembersBelow(clusters, |adj|)
    ensures r == medoid || r in Members(clusters, medoid)
  {
    var cluster := Members(clusters, medoid);
    if |cluster| == 0 then medoid
    else
      var j := FirstMin(Costs(adj, cluster));
      if j == -1 then medoid else cluster[j]
  }

  /** `NewMedoid` on a present, non-empty cluster. */
  lemma NewMedoidOfCluster(adj: seq<seq<Edge>>, clusters: map<int, seq<int>>, medoid: int)
    requires MembersBelow(clusters, |adj|) && medoid in clusters && |clusters[medoid]| > 0
    ensures Vertices(clusters[medoid], |adj|)
    ensures var j := FirstMin(Costs(adj, clusters[medoid]));
            NewMedoid(adj, clusters, medoid) == if j == -1 then medoid else clusters[medoid][j]
  {
  }

  /** A medoid whose cluster is missing, empty or has no member of cost
      below `Integer.MAX_VALUE` is kept; otherwise the replacement is the
      first member of the cluster with the strictly smallest cost. */
  lemma NewMedoidIsFirstCheapest(adj: seq<seq<Edge>>, clusters: map<int, seq<int>>, medoid: int, cluster: seq<int>)
    requires MembersBelow(clusters, |adj|) && cluster == Members(clusters, medoid)
    ensures (forall j :: 0 <= j < |cluster| ==> Cost(adj, cluster[j], cluster) >= INF) ==> NewMedoid(adj, clusters, medoid) == medoid
    ensures (exists j :: 0 <= j < |cluster| && Cost(adj, cluster[j], cluster) < INF) ==>
              exists j :: 0 <= j < |cluster| && cluster[j] == NewMedoid(adj, clusters, medoid)
                && Cost(adj, cluster[j], cluster) < INF
                && (forall j' :: 0 <= j' < j ==> Cost(adj, cluster[j'], cluster) > Cost(adj, cluster[j], cluster))
                && (forall j' :: 0 <= j' < |cluster| ==> Cost(adj, cluster[j'], cluster) >= Cost(adj, cluster[j], cluster))
  {
    if |cluster| > 0 {
      var costs := Costs(adj, cluster);
      FirstMinIsFirstSmallest(costs);
      var j := FirstMin(costs);
      assert NewMedoid(adj, clusters, medoid) == if j == -1 then medoid else cluster[j];
      forall x | 0 <= x < |cluster|
        ensures Cost(adj, cluster[x], cluster) == costs[x]
      {
      }
      if j != -1 {
        assert cluster[j] == NewMedoid(adj, clusters, medoid);
      }
    }
  }

  /** Extending two prefixes of equal-length lists by one position. */
  lemma PrefixStep(t: seq<int>, m: seq<int>, j: int)
    requires 0 <= j < |t| == |m|
    ensures t[..j + 1] == t[..j] + [t[j]]
    ensures t[..j + 1] != m[..j + 1] <==> t[..j] != m[..j] || t[j] != m[j]
  {
    assert m[..j + 1] == m[..j] + [m[j]];
    if t[..j + 1] == m[..j + 1] {
      assert t[..j + 1][..j] == t[..j] && m[..j + 1][..j] == m[..j];
    }
  }

  /** The medoid list after the update step: one new medoid per old one, in
      the same order. */
  function Update(adj: seq<seq<Edge>>, medoids: seq<int>, clusters: map<int, seq<int>>): (r: seq<int>)
    requires MembersBelow(clusters, |adj|)
    ensures |r| == |medoids|
  {
    seq(|medoids|, j requires 0 <= j < |medoids| => NewMedoid(adj, clusters, medoids[j]))
  }


  /** The update step keeps the number of medoids and keeps them vertices. */
  lemma UpdateKeepsVertices(adj: seq<seq<Edge>>, medoids: seq<int>, clusters: map<int, seq<int>>)
    requires MembersBelow(clusters, |adj|) && Vertices(medoids, |adj|)
    ensures |Update(adj, medoids, clusters)| == |medoids| && Vertices(Update(adj, medoids, clusters), |adj|)
  {
    var next := Update(adj, medoids, clusters);
    forall j | 0 <= j < |medoids|
      ensures 0 <= next[j] < |adj|
    {
      var cluster := Members(clusters, medoids[j]);
      if |cluster| > 0 {
        var k := FirstMin(Costs(adj, cluster));
        if k != -1 {
          assert cluster[k] in clusters[medoids[j]];
        }
      }
    }
  }

  /** What `kMedoids` returns when `fuel` iterations remain, the medoids are
      `medoids` and the last assignment is `clusters`: stop when no medoid
      changes, or when the iterations run out. */
  function Run(adj: seq<seq<Edge>>, medoids: seq<int>, fuel: int, clusters: map<int, seq<int>>): (r: map<int, seq<int>>)
    ensures fuel > 0 ==> MembersBelow(r, |adj|)
    decreases fuel
  {
    if fuel <= 0 then clusters
    else
      var grouped := Assign(adj, medoids);
      GroupMembers(Labels(adj, medoids));
      var next := Update(adj, medoids, grouped);
      if next == medoids then grouped else Run(adj, next, fuel - 1, grouped)
  }

  /** After at least one iteration, the result is the assignment of every
      vertex to some list of medoids that has as many entries as the first
      one and consists of vertices. */
  lemma {:induction false} RunEndsWithAssignment(adj: seq<seq<Edge>>, medoids: seq<int>, fuel: int, clusters: map<int, seq<int>>)
    requires Vertices(medoids, |adj|)
    ensures fuel <= 0 ==> Run(adj, medoids, fuel, clusters) == clusters
    ensures fuel > 0 ==> exists last :: |last| == |medoids| && Vertices(last, |adj|)
                                       && Run(adj, medoids, fuel, clusters) == Assign(adj, last)
    decreases fuel
  {
    if fuel > 0 {
      var grouped := Assign(adj, medoids);
      GroupMembers(Labels(adj, medoids));
      var next := Update(adj, medoids, grouped);
      if next != medoids {
        UpdateKeepsVertices(adj, medoids, grouped);
        RunEndsWithAssignment(adj, next, fuel - 1, grouped);
        if fuel - 1 <= 0 {
          assert Run(adj, medoids, fuel, clusters) == Assign(adj, medoids);
        }
      } else {
        assert Run(adj, medoids, fuel, clusters) == Assign(adj, medoids);
      }
    }
  }

  ghost predicate Distinct(s: seq<int>) {
    forall a, b :: 0 <= a < b < |s| ==> s[a] != s[b]
  }

  /** Distinct vertices of a graph with `n` vertices are at most `n`: the
      sampling loop of `kMedoids` can only finish when `k <= n`. */
  lemma {:induction false} DistinctVerticesAtMostN(s: seq<int>, n: nat)
    requires Vertices(s, n) && Distinct(s)
    ensures |s| <= n
    decreases n
  {
    if |s| > 0 {
      assert 0 <= s[0] < n;
      // the last vertex leaves; the one numbered n - 1, if still there, takes its number
      var x := s[|s| - 1];
      var rest := s[..|s| - 1];
      var moved := seq(|rest|, j requires 0 <= j < |rest| => if rest[j] == n - 1 then x else rest[j]);
      forall j | 0 <= j < |moved|
        ensures 0 <= moved[j] < n - 1
      {
        assert rest[j] == s[j] && s[j] != s[|s| - 1];
      }
      forall a, b | 0 <= a < b < |moved|
        ensures moved[a] != moved[b]
      {
        assert rest[a] == s[a] && rest[b] == s[b];
        assert s[a] != s[|s| - 1] && s[b] != s[|s| - 1];
      }
      DistinctVerticesAtMostN(moved, n - 1);
    }
  }

  /** The number of medoids the drawing loop of `kMedoids` picks for
      `k`: none for a negative `k`. */
  function MedoidCount(k: int): (c: nat)
    ensures k >= 0 ==> c == k
    ensures k < 0 ==> c == 0
  {
    if k < 0 then 0 else k
  }

  /** `ClusteringHelper`: the clustering function on a graph. */
  class ClusteringHelper {
    const graph: Graph

    constructor (graph: Graph)
      ensures this.graph == graph
    {
      this.graph := graph;
    }

    /** `kMedoids(k, maxIterations)` with the `k` distinct starting medoids
        given as `initial`. A negative `k` stops the drawing loop at once, so
        it starts from no medoid at all. The drawing loop ends only when `k`
        distinct vertices exist, so `k` is at most the number of vertices
        here; for a larger `k` the source never returns. */
    method KMedoids(k: int, maxIterations: int, initial: seq<int>) returns (clusters: map<int, seq<int>>)
      requires graph.Valid()
      requires |initial| == MedoidCount(k) && Vertices(initial, graph.numberOfNodes) && Distinct(initial)
      ensures clusters == Run(graph.adj, initial, maxIterations, map[])
      ensures k <= graph.numberOfNodes
      ensures maxIterations <= 0 ==> clusters == map[]
      ensures maxIterations > 0 ==> exists last ::
                |last| == MedoidCount(k) && Vertices(last, |graph.adj|) && clusters == Assign(graph.adj, last)
    {
      DistinctVerticesAtMostN(initial, graph.numberOfNodes);
      ghost var target := Run(graph.adj, initial, maxIterations, map[]);
      ghost var fuel := maxIterations;
      var medoids := initial;
      clusters := map[];
      var iteration := 0;
      while iteration < maxIterations
        invariant fuel == maxIterations - iteration
        invariant Vertices(medoids, |graph.adj|)
        invariant Run(graph.adj, medoids, fuel, clusters) == target
        decreases maxIterations - iteration
      {
        clusters := AssignClusters(medoids);
        var newMedoids, medoidsChanged := UpdateMedoids(medoids, clusters);
        UpdateKeepsVertices(graph.adj, medoids, clusters);
        medoids := newMedoids;
        if !medoidsChanged {
          assert clusters == target;
          break;
        }
        iteration := iteration + 1;
        fuel := fuel - 1;
      }
      RunEndsWithAssignment(graph.adj, initial, maxIterations, map[]);
    }

    /** Step 2 of `kMedoids`: every vertex, in increasing order, joins the
        list of its nearest medoid. */
    method AssignClusters(medoids: seq<int>) returns (clusters: map<int, seq<int>>)
      requires graph.Valid()
      ensures clusters == Assign(graph.adj, medoids)
      ensures MembersBelow(clusters, |graph.adj|)
    {
      ghost var labels := Labels(graph.adj, medoids);
      clusters := map[];
      var n := graph.numberOfNodes;
      var i := 0;
      while i < n
        invariant 0 <= i <= n
        invariant clusters == Group(labels[..i])
      {
        var nearestMedoid := NearestMedoid(i, medoids);
        assert labels[..i + 1][..i] == labels[..i];
        clusters := clusters[nearestMedoid := Members(clusters, nearestMedoid) + [i]];
        i := i + 1;
      }
      assert labels[..n] == labels;
      GroupMembers(labels);
    }

    /** The inner loop of step 2: the medoid vertex `i` joins. */
    method NearestMedoid(i: int, medoids: seq<int>) returns (nearestMedoid: int)
      requires graph.Valid() && 0 <= i < graph.numberOfNodes
      ensures nearestMedoid == Nearest(graph.adj, i, medoids)
    {
      ghost var d := Distances(graph.adj, i, medoids);
      ghost var k := -1;
      nearestMedoid := -1;
      var minDistance := INF;
      var j := 0;
      while j < |medoids|
        invariant 0 <= j <= |medoids|
        invariant k == FirstMin(d[..j])
        invariant minDistance == Least(d[..j], k)
        invariant nearestMedoid == (if k == -1 then -1 else medoids[k])
      {
        var distance := graph.GetWeight(i, medoids[j]);
        assert distance == d[j];
        FirstMinStep(d, j);
        if distance < minDistance {
          minDistance := distance;
          nearestMedoid := medoids[j];
          k := j;
        }
        j := j + 1;
      }
      assert d[..|medoids|] == d;
    }

    /** Step 3 of `kMedoids`: a new medoid for each old one, and whether any
        of them differs. */
    method UpdateMedoids(medoids: seq<int>, clusters: map<int, seq<int>>) returns (newMedoids: seq<int>, medoidsChanged: bool)
      requires graph.Valid() && MembersBelow(clusters, |graph.adj|)
      ensures newMedoids == Update(graph.adj, medoids, clusters)
      ensures medoidsChanged <==> newMedoids != medoids
    {
      ghost var target := Update(graph.adj, medoids, clusters);
      medoidsChanged := false;
      newMedoids := [];
      var j := 0;
      while j < |medoids|
        invariant 0 <= j <= |medoids|
        invariant newMedoids == target[..j]
        invariant medoidsChanged <==> target[..j] != medoids[..j]
      {
        var medoid := medoids[j];
        var bestMedoid := BestCandidate(clusters, medoid);
        if bestMedoid != medoid {
          medoidsChanged := true;
        }
        assert target[j] == bestMedoid;
        PrefixStep(target, medoids, j);
        newMedoids := newMedoids + [bestMedoid];
        j := j + 1;
      }
      assert target[..j] == target && medoids[..j] == medoids;
    }

    /** The body of step 3 for one medoid: a missing or empty cluster keeps
        it, otherwise the candidate loop runs over the cluster. */
    method BestCandidate(clusters: map<int, seq<int>>, medoid: int) returns (bestMedoid: int)
      requires graph.Valid() && MembersBelow(clusters, |graph.adj|)
      ensures bestMedoid == NewMedoid(graph.adj, clusters, medoid)
    {
      if medoid !in clusters || |clusters[medoid]| == 0 {
        return medoid;
      }
      NewMedoidOfCluster(graph.adj, clusters, medoid);
      bestMedoid := CheapestMember(clusters[medoid], medoid);
    }

    /** The candidate loop of step 3 on a non-empty cluster: `bestMedoid`
        moves to each candidate whose cost is below the least so far. */
    method CheapestMember(cluster: seq<int>, medoid: int) returns (bestMedoid: int)
      requires graph.Valid() && Vertices(cluster, |graph.adj|)
      ensures var j := FirstMin(Costs(graph.adj, cluster)); bestMedoid == if j == -1 then medoid else cluster[j]
    {
      ghost var costs := Costs(graph.adj, cluster);
      ghost var k := -1;
      bestMedoid := medoid;
      var minCost := INF;
      var j := 0;
      while j < |cluster|
        invariant 0 <= j <= |cluster|
        invariant k == FirstMin(costs[..j])
        invariant minCost == Least(costs[..j], k)
        invariant bestMedoid == (if k == -1 then medoid else cluster[k])
      {
        var candidate := cluster[j];
        var cost := ClusterCost(candidate, cluster);
        assert cost == costs[j];
        FirstMinStep(costs, j);
        if cost < minCost {
          minCost := cost;
          bestMedoid := candidate;
          k := j;
        }
        j := j + 1;
      }
      assert costs[..|cluster|] == costs;
    }

    /** The innermost loop of step 3: the cost of `candidate` for `cluster`. */
    method ClusterCost(candidate: int, cluster: seq<int>) returns (cost: int)
      requires graph.Valid() && 0 <= candidate < |graph.adj|
      ensures cost == Cost(graph.adj, candidate, cluster)
    {
      cost := 0;
      var j := 0;
      while j < |cluster|
        invariant 0 <= j <= |cluster|
        invariant cost == Cost(graph.adj, candidate, cluster[..j])
      {
        var w := graph.GetWeight(candidate, cluster[j]);
        assert cluster[..j + 1][..j] == cluster[..j];
        cost := cost + w;
        j := j + 1;
      }
      assert cluster[..|cluster|] == cluster;
    }
  }
}

=== FILE: common.dfy ===
/** Values shared by every part of the model: Java's `null`, the exceptions the
    containers throw, and the `Integer.MAX_VALUE` sentinel the graph algorithms
    use for "unreached". */
module Common {

  /** A Java reference that may be `null`. */
  datatype Option<+T> = None | Some(value: T)

  /** The exceptions the containers and algorithms throw, by kind. */
  datatype Error =
    | CapacityExceeded   // heap, queue, stack or set insert beyond a fixed capacity
    | EmptyCollection    // extract, peek, pop or dequeue on an empty container
    | IndexOutOfRange    // container index outside [0, size)
    | InvalidKeyUpdate   // decrease-key with a larger key
    | IllegalArgument    // a negative initial capacity
    | DivisionByZero     // `%` by a capacity of 0

  /** Either normal completion of a `void` method or the exception it throws. */
  datatype Outcome = Pass | Fail(error: Error)

  /** Either a value or the exception the Java code throws instead. */
  datatype Result<+T> = Ok(value: T) | Err(error: Error)

  /** `Integer.MAX_VALUE`, used by the graph algorithms as "infinity". */
  const INF: int := 0x7fff_ffff

  /** Java's `int` range. */
  predicate IsInt32(x: int) {
    -0x8000_0000 <= x <= 0x7fff_ffff
  }
}

=== FILE: custom_hash_map.dfy ===
/** `CustomHashMap`: 100 buckets with separate chaining. An entry lives in
    the bucket `|hashCode(key)| % 100`, each chain holds a key at most once,
    and `size` counts the entries of all chains. */
module HashMaps {
  import opened Common
  import Sets

  /** `SIZE`: the number of buckets. */
  const BUCKETS: nat := 100

  /** Java's `int`, the type of `hashCode()`. */
  newtype Int32 = x: int | IsInt32(x)

  /** `hash`: `Math.abs(code) % SIZE`. `Math.abs(Integer.MIN_VALUE)` is
      `Integer.MIN_VALUE` itself and Java's `%` truncates toward zero, so that
      one hash code gives a negative index and every access to `buckets`
      with it throws. */
  function Hash(code: Int32): (index: int)
    ensures -(BUCKETS as int) < index < BUCKETS
    ensures index < 0 <==> code == -0x8000_0000
  {
    var magnitude := if code == -0x8000_0000 then code as int else if code < 0 then -(code as int) else code as int;
    if magnitude < 0 then -((-magnitude) % BUCKETS) else magnitude % BUCKETS
  }

  /** `CustomMap.Entry`: a key and its value. */
  datatype Entry<K, V> = Entry(key: K, value: V)

  /** No key occurs twice in `chain`. */
  ghost predicate UniqueKeys<K, V>(chain: seq<Entry<K, V>>) {
    forall i, j :: 0 <= i < j < |chain| ==> chain[i].key != chain[j].key
  }

  /** Every key of `chain` hashes to bucket `b`. */
  ghost predicate InBucket<K, V>(chain: seq<Entry<K, V>>, b: int, hashCode: K -> Int32) {
    forall i :: 0 <= i < |chain| ==> Hash(hashCode(chain[i].key)) == b
  }

  /** Every bucket keeps its keys unique and holds only keys of its own
      hash. */
  ghost predicate Chained<K, V>(s: seq<seq<Entry<K, V>>>, hashCode: K -> Int32) {
    forall b :: 0 <= b < |s| ==> UniqueKeys(s[b]) && InBucket(s[b], b, hashCode)
  }

  /** The index the scans of `put`, `get`, `containsKey` and `remove` stop
      at: the first entry with `key`, or -1 when the scan runs to the end. */
  function Position<K(==), V>(chain: seq<Entry<K, V>>, key: K): (p: int)
    ensures -1 <= p < |chain|
    ensures p == -1 <==> forall j :: 0 <= j < |chain| ==> chain[j].key != key
    ensures p >= 0 ==> chain[p].key == key && forall j :: 0 <= j < p ==> chain[j].key != key
  {
    if |chain| == 0 then -1
    else if chain[0].key == key then 0
    else
      var p := Position(chain[1..], key);
      if p == -1 then -1 else p + 1
  }

  /** What `get` returns from a chain: the value of the first entry with
      `key`, or `null`. */
  function Find<K(==), V>(chain: seq<Entry<K, V>>, key: K): (r: Option<V>)
    ensures r.Some? ==> Entry(key, r.value) in chain
    ensures r.None? <==> forall e :: e in chain ==> e.key != key
  {
    var p := Position(chain, key);
    if p < 0 then None else Some(chain[p].value)
  }

  /** The chain after `put`: the first entry with `key` gets the new value,
      or a new entry is appended when there is none. */
  function PutChain<K(==), V>(chain: seq<Entry<K, V>>, key: K, value: V): (r: seq<Entry<K, V>>)
    ensures Entry(key, value) in r
    ensures forall e :: e in chain && e.key != key ==> e in r
  {
    var p := Position(chain, key);
    if p < 0 then
      var r := chain + [Entry(key, value)];
      assert r[|chain|] == Entry(key, value);
      r
    else
      var r := chain[p := Entry(key, value)];
      assert r[p] == Entry(key, value);
      assert forall j :: 0 <= j < |chain| && j != p ==> r[j] == chain[j];
      r
  }

  /** The chain after `remove`: the first entry with `key` is unlinked. */
  function RemoveChain<K(==), V>(chain: seq<Entry<K, V>>, key: K): (r: seq<Entry<K, V>>)
    ensures |r| <= |chain| && forall e :: e in r ==> e in chain
  {
    var p := Position(chain, key);
    if p < 0 then chain else chain[..p] + chain[p + 1..]
  }

  /** After `put`, the key maps to the new value and every other key to
      what it mapped to before. */
  lemma PutChainFind<K, V>(chain: seq<Entry<K, V>>, key: K, value: V, other: K)
    ensures Find(PutChain(chain, key, value), other) == if other == key then Some(value) else Find(chain, other)
  {
    var r := PutChain(chain, key, value);
    var p := Position(chain, key);
    if other == key {
      var q := if p < 0 then |chain| else p;
      assert r[q].key == key;
      assert Position(r, key) == q;
    } else {
      var q := Position(chain, other);
      if q < 0 {
        assert forall j :: 0 <= j < |r| ==> r[j].key != other;
      } else {
        assert r[q] == chain[q];
        assert Position(r, other) == q;
      }
    }
  }

  /** `put` keeps the chain free of duplicate keys and in its bucket. */
  lemma PutChainValid<K, V>(chain: seq<Entry<K, V>>, key: K, value: V, b: int, hashCode: K -> Int32)
    requires UniqueKeys(chain) && InBucket(chain, b, hashCode) && Hash(hashCode(key)) == b
    ensures UniqueKeys(PutChain(chain, key, value)) && InBucket(PutChain(chain, key, value), b, hashCode)
    ensures |PutChain(chain, key, value)| == |chain| + (if Find(chain, key).None? then 1 else 0)
  {
    var r := PutChain(chain, key, value);
    assert forall j :: 0 <= j < |r| ==> r[j].key == key || r[j].key == chain[j].key;
  }

  /** After `remove`, the key is absent and every other key maps to what
      it mapped to before. */
  lemma RemoveChainFind<K, V>(chain: seq<Entry<K, V>>, key: K, other: K)
    requires UniqueKeys(chain)
    ensures Find(RemoveChain(chain, key), other) == if other == key then None else Find(chain, other)
  {
    var r := RemoveChain(chain, key);
    var p := Position(chain, key);
    if p >= 0 {
      assert forall j :: 0 <= j < |r| ==> r[j] == (if j < p then chain[j] else chain[j + 1]);
      if other == key {
        assert forall j :: 0 <= j < |r| ==> r[j].key != key;
      } else {
        var q := Position(chain, other);
        if q < 0 {
          assert forall j :: 0 <= j < |r| ==> r[j].key != other;
        } else if q < p {
          assert r[q] == chain[q];
          assert Position(r, other) == q;
        } else {
          assert r[q - 1] == chain[q];
          assert Position(r, other) == q - 1;
        }
      }
    }
  }

  /** `remove` keeps the chain free of duplicate keys and in its bucket,
      and shortens it by one exactly when the key was there. */
  lemma RemoveChainValid<K, V>(chain: seq<Entry<K, V>>, key: K, b: int, hashCode: K -> Int32)
    requires UniqueKeys(chain) && InBucket(chain, b, hashCode)
    ensures UniqueKeys(RemoveChain(chain, key)) && InBucket(RemoveChain(chain, key), b, hashCode)
    ensures |RemoveChain(chain, key)| == |chain| - (if Find(chain, key).Some? then 1 else 0)
  {
    var r := RemoveChain(chain, key);
    var p := Position(chain, key);
    if p >= 0 {
      assert forall j :: 0 <= j < |r| ==> r[j] == (if j < p then chain[j] else chain[j + 1]);
    }
  }

  /** The entries of all buckets, bucket by bucket and each chain in order:
      the order in which `entrySet` and `getKeyAtIndex` visit them. */
  function Flatten<T>(s: seq<seq<T>>): seq<T> {
    if |s| == 0 then [] else Flatten(s[..|s| - 1]) + s[|s| - 1]
  }

  /** The flattening of a prefix of the buckets is a prefix of the whole. */
  lemma {:induction false} FlattenSplit<T>(s: seq<seq<T>>, b: nat)
    requires b <= |s|
    ensures Flatten(s) == Flatten(s[..b]) + Flatten(s[b..])
    decreases |s|
  {
    if b < |s| {
      var n := |s| - 1;
      FlattenSplit(s[..n], b);
      assert s[..n][..b] == s[..b];
      assert s[b..][..|s[b..]| - 1] == s[..n][b..];
      assert s[b..][|s[b..]| - 1] == s[n];
    } else {
      assert s[..b] == s;
      assert s[b..] == [];
    }
  }

  /** Replacing one bucket changes the total by the change of that bucket. */
  lemma {:induction false} FlattenUpdateLength<T>(s: seq<seq<T>>, b: nat, chain: seq<T>)
    requires b < |s|
    ensures |Flatten(s[b := chain])| + |s[b]| == |Flatten(s)| + |chain|
    decreases |s|
  {
    var n := |s| - 1;
    if b < n {
      FlattenUpdateLength(s[..n], b, chain);
      assert s[b := chain][..n] == s[..n][b := chain];
    } else {
      assert s[b := chain][..n] == s[..n];
    }
  }

  /** Buckets that are all empty flatten to nothing. */
  lemma {:induction false} FlattenAllEmpty<T>(s: seq<seq<T>>)
    requires forall b :: 0 <= b < |s| ==> s[b] == []
    ensures Flatten(s) == []
    decreases |s|
  {
    if |s| > 0 {
      FlattenAllEmpty(s[..|s| - 1]);
    }
  }

  /** An element of the flattening is an element of some bucket, and back. */
  lemma {:induction false} FlattenMember<T>(s: seq<seq<T>>, x: T)
    ensures x in Flatten(s) <==> exists b, i :: 0 <= b < |s| && 0 <= i < |s[b]| && s[b][i] == x
    decreases |s|
  {
    if |s| > 0 {
      var n := |s| - 1;
      FlattenMember(s[..n], x);
      if x in Flatten(s) && x !in Flatten(s[..n]) {
        var i :| 0 <= i < |s[n]| && s[n][i] == x;
        assert s[n][i] == x;
      }
      if exists b, i :: 0 <= b < |s| && 0 <= i < |s[b]| && s[b][i] == x {
        var b, i :| 0 <= b < |s| && 0 <= i < |s[b]| && s[b][i] == x;
        if b < n {
          assert s[..n][b][i] == x;
        } else {
          assert s[n][i] == x;
        }
      }
    }
  }

  /** Buckets that each keep their own hash and have no duplicate key
      together have no duplicate key. */
  lemma {:induction false} FlattenUniqueKeys<K, V>(s: seq<seq<Entry<K, V>>>, hashCode: K -> Int32)
    requires Chained(s, hashCode)
    ensures UniqueKeys(Flatten(s))
    decreases |s|
  {
    if |s| > 0 {
      var n := |s| - 1;
      var front := Flatten(s[..n]);
      FlattenUniqueKeys(s[..n], hashCode);
      forall i, j | 0 <= i < |front| && 0 <= j < |s[n]|
        ensures front[i].key != s[n][j].key
      {
        FlattenMember(s[..n], front[i]);
        var b, k :| 0 <= b < n && 0 <= k < |s[..n][b]| && s[..n][b][k] == front[i];
        assert Hash(hashCode(front[i].key)) == b;
      }
      assert Flatten(s) == front + s[n];
    }
  }

  /** Maps every key the way `get` does: through the bucket of its hash. */
  function LookupIn<K(==), V>(s: seq<seq<Entry<K, V>>>, hashCode: K -> Int32, key: K): Option<V> {
    var h := Hash(hashCode(key));
    if 0 <= h < |s| then Find(s[h], key) else None
  }

  /** In a well-formed table, `get` finds a key's value exactly when that
      key and value form one of the entries. */
  lemma LookupIsEntry<K, V>(s: seq<seq<Entry<K, V>>>, hashCode: K -> Int32, key: K, value: V)
    requires Chained(s, hashCode)
    ensures LookupIn(s, hashCode, key) == Some(value) <==> Entry(key, value) in Flatten(s)
  {
    FlattenMember(s, Entry(key, value));
    var h := Hash(hashCode(key));
    if Entry(key, value) in Flatten(s) {
      var b, i :| 0 <= b < |s| && 0 <= i < |s[b]| && s[b][i] == Entry(key, value);
      assert h == b;
      assert Position(s[b], key) == i;
    }
    if LookupIn(s, hashCode, key) == Some(value) {
      assert s[h][Position(s[h], key)] == Entry(key, value);
    }
  }

  class CustomHashMap<K(==), V(==)> {
    /** `key.hashCode()` for every key. */
    const hashCode: K -> Int32
    const buckets: array<seq<Entry<K, V>>>
    var size: nat

    ghost predicate Valid()
      reads this, buckets
    {
      && buckets.Length == BUCKETS
      && Chained(buckets[..], hashCode)
      && size == |Flatten(buckets[..])|
    }

    /** All entries, in bucket order. */
    ghost function Entries(): seq<Entry<K, V>>
      reads this, buckets
    {
      Flatten(buckets[..])
    }

    /** What `get` returns for `key` (`null` as `None`). */
    ghost function Lookup(key: K): Option<V>
      reads this, buckets
    {
      LookupIn(buckets[..], hashCode, key)
    }

    /** `CustomHashMap()`: 100 empty buckets. */
    constructor (hashCode: K -> Int32)
      ensures Valid() && fresh(buckets) && this.hashCode == hashCode
      ensures Entries() == [] && forall key :: Lookup(key) == None
    {
      this.hashCode := hashCode;
      buckets := new seq<Entry<K, V>>[BUCKETS](_ => []);
      size := 0;
      new;
      FlattenAllEmpty(buckets[..]);
    }

    /** `hash(key)`. */
    function HashIndex(key: K): (index: int)
      ensures -(BUCKETS as int) < index < BUCKETS
      ensures index < 0 <==> hashCode(key) == -0x8000_0000
    {
      Hash(hashCode(key))
    }

    /** The chain scan shared by `put`, `get`, `containsKey` and `remove`:
        the index of the first entry with `key`, or -1. */
    method Scan(bucket: seq<Entry<K, V>>, key: K) returns (p: int)
      ensures p == Position(bucket, key)
    {
      var i := 0;
      while i < |bucket|
        invariant 0 <= i <= |bucket|
        invariant forall j :: 0 <= j < i ==> bucket[j].key != key
      {
        if bucket[i].key == key {
          return i;
        }
        i := i + 1;
      }
      p := -1;
    }

    /** `put`: overwrites the value of an existing key, or appends a new
        entry to the key's bucket and counts it. */
    method Put(key: K, value: V) returns (outcome: Outcome)
      requires Valid()
      modifies this, buckets
      ensures Valid()
      ensures HashIndex(key) < 0 ==> outcome == Fail(IndexOutOfRange) && buckets[..] == old(buckets[..]) && size == old(size)
      ensures HashIndex(key) >= 0 ==>
                && outcome == Pass
                && buckets[..] == old(buckets[..])[HashIndex(key) := PutChain(old(buckets[HashIndex(key)]), key, value)]
                && size == old(size) + (if old(Lookup(key)).None? then 1 else 0)
      ensures forall k :: Lookup(k) == if k == key && HashIndex(key) >= 0 then Some(value) else LookupIn(old(buckets[..]), hashCode, k)
    {
      var index := HashIndex(key);
      if index < 0 {
        return Fail(IndexOutOfRange);
      }
      var bucket := buckets[index];
      ghost var before := buckets[..];
      PutChainValid(bucket, key, value, index, hashCode);
      FlattenUpdateLength(before, index, PutChain(bucket, key, value));
      var i := Scan(bucket, key);
      if i >= 0 {
        buckets[index] := bucket[i := Entry(key, value)];
      } else {
        buckets[index] := bucket + [Entry(key, value)];
        size := size + 1;
      }
      assert buckets[..] == before[index := PutChain(bucket, key, value)];
      forall k
        ensures Lookup(k) == if k == key then Some(value) else LookupIn(before, hashCode, k)
      {
        PutChainFind(bucket, key, value, k);
      }
      outcome := Pass;
    }

    /** `get`: the value stored for `key`, or `null`. */
    method Get(key: K) returns (r: Result<Option<V>>)
      requires Valid()
      ensures HashIndex(key) < 0 ==> r == Err(IndexOutOfRange)
      ensures HashIndex(key) >= 0 ==> r == Ok(Lookup(key))
    {
      var index := HashIndex(key);
      if index < 0 {
        return Err(IndexOutOfRange);
      }
      var bucket := buckets[index];
      var i := Scan(bucket, key);
      if i >= 0 {
        return Ok(Some(bucket[i].value));
      }
      r := Ok(None);
    }

    /** `containsKey`: whether some entry has `key`. */
    method ContainsKey(key: K) returns (r: Result<bool>)
      requires Valid()
      ensures HashIndex(key) < 0 ==> r == Err(IndexOutOfRange)
      ensures HashIndex(key) >= 0 ==> r == Ok(Lookup(key).Some?)
    {
      var index := HashIndex(key);
      if index < 0 {
        return Err(IndexOutOfRange);
      }
      var i := Scan(buckets[index], key);
      r := Ok(i >= 0);
    }

    /** `remove`: unlinks the entry with `key` and reports whether there
        was one. */
    method Remove(key: K) returns (r: Result<bool>)
      requires Valid()
      modifies this, buckets
      ensures Valid()
      ensures HashIndex(key) < 0 ==> r == Err(IndexOutOfRange) && buckets[..] == old(buckets[..]) && size == old(size)
      ensures HashIndex(key) >= 0 ==>
                && r == Ok(old(Lookup(key)).Some?)
                && buckets[..] == old(buckets[..])[HashIndex(key) := RemoveChain(old(buckets[HashIndex(key)]), key)]
                && size == old(size) - (if old(Lookup(key)).Some? then 1 else 0)
      ensures forall k :: Lookup(k) == if k == key then None else LookupIn(old(buckets[..]), hashCode, k)
    {
      var index := HashIndex(key);
      if index < 0 {
        return Err(IndexOutOfRange);
      }
      var bucket := buckets[index];
      ghost var before := buckets[..];
      RemoveChainValid(bucket, key, index, hashCode);
      FlattenUpdateLength(before, index, RemoveChain(bucket, key));
      var i := Scan(bucket, key);
      if i >= 0 {
        buckets[index] := bucket[..i] + bucket[i + 1..];
        size := size - 1;
      }
      assert buckets[..] == before[index := RemoveChain(bucket, key)];
      forall k
        ensures Lookup(k) == if k == key then None else LookupIn(before, hashCode, k)
      {
        RemoveChainFind(bucket, key, k);
      }
      r := Ok(i >= 0);
    }

    /** `size`: the number of entries. */
    method Size() returns (n: nat)
      requires Valid()
      ensures n == |Entries()|
    {
      n := size;
    }

    /** `clear`: every bucket becomes an empty chain. */
    method Clear()
      requires Valid()
      modifies this, buckets
      ensures Valid() && size == 0
      ensures forall b :: 0 <= b < BUCKETS ==> buckets[b] == []
      ensures Entries() == [] && forall key :: Lookup(key) == None
    {
      var i := 0;
      while i < BUCKETS
        invariant 0 <= i <= BUCKETS
        invariant forall b :: 0 <= b < i ==> buckets[b] == []
      {
        buckets[i] := [];
        i := i + 1;
      }
      size := 0;
      FlattenAllEmpty(buckets[..]);
    }

    /** `computeIfAbsent`: the stored value of `key`, or else
        `mappingFunction(key)`, which is then stored. Values are never
        `null` here, so "absent" means the key has no entry. */
    method ComputeIfAbsent(key: K, mappingFunction: K -> V) returns (r: Result<V>)
      requires Valid()
      modifies this, buckets
      ensures Valid()
      ensures HashIndex(key) < 0 ==> r == Err(IndexOutOfRange) && buckets[..] == old(buckets[..]) && size == old(size)
      ensures HashIndex(key) >= 0 && old(Lookup(key)).Some? ==>
                r == Ok(old(Lookup(key)).value) && buckets[..] == old(buckets[..]) && size == old(size)
      ensures HashIndex(key) >= 0 && old(Lookup(key)).None? ==>
                r == Ok(mappingFunction(key)) && size == old(size) + 1
      ensures HashIndex(key) >= 0 ==> Lookup(key) == Some(r.value)
      ensures forall k :: k != key ==> Lookup(k) == LookupIn(old(buckets[..]), hashCode, k)
    {
      var got := Get(key);
      if got.Err? {
        return Err(got.error);
      }
      if got.value.Some? {
        return Ok(got.value.value);
      }
      var value := mappingFunction(key);
      var outcome := Put(key, value);
      r := Ok(value);
    }

    /** `getKeyAtIndex`: the key of the `index`-th entry in bucket order;
        `IndexOutOfBoundsException` outside `[0, size)`. */
    method GetKeyAtIndex(index: int) returns (r: Result<K>)
      requires Valid()
      ensures 0 <= index < |Entries()| ==> r == Ok(Entries()[index].key)
      ensures !(0 <= index < |Entries()|) ==> r == Err(IndexOutOfRange)
    {
      if index < 0 || index >= size {
        return Err(IndexOutOfRange);
      }
      assert buckets[..BUCKETS] == buckets[..];
      var currentIndex := 0;
      var b := 0;
      while b < BUCKETS
        invariant 0 <= b <= BUCKETS
        invariant currentIndex == |Flatten(buckets[..b])| <= index
      {
        var bucket := buckets[b];
        var i := 0;
        assert buckets[..b + 1] == buckets[..b] + [bucket];
        assert buckets[..b + 1][..b] == buckets[..b];
        assert Flatten(buckets[..b + 1]) == Flatten(buckets[..b]) + bucket;
        while i < |bucket|
          invariant 0 <= i <= |bucket|
          invariant currentIndex == |Flatten(buckets[..b])| + i <= index
        {
          if currentIndex == index {
            FlattenSplit(buckets[..], b + 1);
            assert Flatten(buckets[..b + 1])[index] == bucket[i];
            return Ok(bucket[i].key);
          }
          currentIndex := currentIndex + 1;
          i := i + 1;
        }
        b := b + 1;
      }
      assert false;
    }

    /** `entrySet`: a `CustomSet` of all entries, added in bucket order. That
        set holds at most 100 elements, so a map with more entries throws. */
    method EntrySet() returns (r: Result<Sets.CustomSet<Entry<K, V>>>)
      requires Valid()
      ensures |Entries()| > Sets.CAPACITY ==> r == Err(CapacityExceeded)
      ensures |Entries()| <= Sets.CAPACITY ==> r.Ok? && fresh(r.value.elements) && r.value.Valid() && r.value.Contents == Entries()
    {
      var entries := new Sets.CustomSet<Entry<K, V>>();
      FlattenUniqueKeys(buckets[..], hashCode);
      var b := 0;
      while b < BUCKETS
        invariant 0 <= b <= BUCKETS
        invariant fresh(entries.elements) && entries.Valid()
        invariant entries.Contents == Flatten(buckets[..b])
      {
        var bucket := buckets[b];
        assert buckets[..b + 1] == buckets[..b] + [bucket];
        assert buckets[..b + 1][..b] == buckets[..b];
        assert Flatten(buckets[..b + 1]) == Flatten(buckets[..b]) + bucket;
        FlattenSplit(buckets[..], b + 1);
        var i := 0;
        while i < |bucket|
          invariant 0 <= i <= |bucket|
          invariant fresh(entries.elements) && entries.Valid()
          invariant entries.Contents == Flatten(buckets[..b]) + bucket[..i]
        {
          PrefixFresh(Entries(), Flatten(buckets[..b]) + bucket[..i], bucket[i]);
          var added := entries.Add(bucket[i]);
          if added.Err? {
            return Err(added.error);
          }
          assert bucket[..i + 1] == bucket[..i] + [bucket[i]];
          i := i + 1;
        }
        assert bucket[..i] == bucket;
        b := b + 1;
      }
      assert buckets[..BUCKETS] == buckets[..];
      r := Ok(entries);
    }
  }

  /** In a sequence without duplicate keys, the element right after a prefix
      does not occur in that prefix, and the sequence is longer than it. */
  lemma PrefixFresh<K, V>(all: seq<Entry<K, V>>, prefix: seq<Entry<K, V>>, next: Entry<K, V>)
    requires UniqueKeys(all) && prefix + [next] <= all
    ensures next !in prefix && |prefix| < |all|
  {
    forall j | 0 <= j < |prefix|
      ensures prefix[j] != next
    {
      assert all[j] == prefix[j] && all[|prefix|] == next;
    }
  }
}

=== FILE: custom_hash_set.dfy ===
/** `CustomHashSet`: a set whose elements are the keys of a `CustomHashMap`
    holding one placeholder value for each of them. */
module HashSets {
  import opened Common
  import opened HashMaps

  /** `DUMMY_VALUE`: the value stored with every element. */
  datatype Placeholder = Dummy

  /** The keys of `entries`, in order. */
  function Keys<K, V>(entries: seq<Entry<K, V>>): seq<K> {
    seq(|entries|, i requires 0 <= i < |entries| => entries[i].key)
  }

  /** The elements of `s`, as a set. */
  function Members<T>(s: seq<T>): set<T> {
    set x | x in s
  }

  /** No element occurs twice. */
  ghost predicate Distinct<T>(s: seq<T>) {
    forall i, j :: 0 <= i < j < |s| ==> s[i] != s[j]
  }

  /** With the placeholder value, an element is a key of `entries` exactly
      when its entry is one of them. */
  lemma KeyIsEntry<T>(entries: seq<Entry<T, Placeholder>>, x: T)
    ensures x in Keys(entries) <==> Entry(x, Dummy) in entries
  {
    if x in Keys(entries) {
      var i :| 0 <= i < |entries| && Keys(entries)[i] == x;
      assert entries[i].value.Dummy?;
      assert entries[i] == Entry(x, Dummy);
    }
    if Entry(x, Dummy) in entries {
      var i :| 0 <= i < |entries| && entries[i] == Entry(x, Dummy);
      assert Keys(entries)[i] == x;
    }
  }

  /** In a well-formed table with the placeholder value, an element is a key
      of some entry exactly when `containsKey` finds it, and then its hash
      index is a real bucket. */
  lemma MemberIsKey<T>(s: seq<seq<Entry<T, Placeholder>>>, hashCode: T -> Int32, x: T)
    requires Chained(s, hashCode)
    ensures x in Keys(Flatten(s)) <==> LookupIn(s, hashCode, x).Some?
    ensures x in Keys(Flatten(s)) ==> Hash(hashCode(x)) >= 0
  {
    LookupIsEntry(s, hashCode, x, Dummy);
    KeyIsEntry(Flatten(s), x);
    var found := LookupIn(s, hashCode, x);
    if found.Some? {
      assert found.value.Dummy?;
      assert found == Some(Dummy);
    }
  }

  /** A well-formed table lists no key twice. */
  lemma KeysDistinct<K, V>(s: seq<seq<Entry<K, V>>>, hashCode: K -> Int32)
    requires Chained(s, hashCode)
    ensures Distinct(Keys(Flatten(s)))
  {
    FlattenUniqueKeys(s, hashCode);
  }

  /** Two well-formed tables that agree on every key but `value` list the
      same elements apart from `value`. */
  lemma OthersUnchanged<T>(before: seq<seq<Entry<T, Placeholder>>>, after: seq<seq<Entry<T, Placeholder>>>,
                           hashCode: T -> Int32, value: T)
    requires Chained(before, hashCode) && Chained(after, hashCode)
    requires forall k :: k != value ==> LookupIn(after, hashCode, k) == LookupIn(before, hashCode, k)
    ensures forall x :: x != value ==> (x in Keys(Flatten(after)) <==> x in Keys(Flatten(before)))
    ensures Distinct(Keys(Flatten(after)))
  {
    forall x | x != value
      ensures x in Keys(Flatten(after)) <==> x in Keys(Flatten(before))
    {
      MemberIsKey(before, hashCode, x);
      MemberIsKey(after, hashCode, x);
    }
    KeysDistinct(after, hashCode);
  }

  class CustomHashSet<T(==)> {
    const hashMap: CustomHashMap<T, Placeholder>

    ghost predicate Valid()
      reads this, hashMap, hashMap.buckets
    {
      hashMap.Valid()
    }

    /** The elements, in the order `toList` and the iterator give them. */
    ghost function Elements(): seq<T>
      reads this, hashMap, hashMap.buckets
    {
      Keys(hashMap.Entries())
    }

    /** `CustomHashSet()`: an empty set over a fresh map. */
    constructor (hashCode: T -> Int32)
      ensures Valid() && fresh(hashMap) && fresh(hashMap.buckets) && hashMap.hashCode == hashCode
      ensures Elements() == []
    {
      hashMap := new CustomHashMap(hashCode);
    }

    /** `add`: `false` for an element already present, otherwise the element
        is stored and `true` returned. */
    method Add(value: T) returns (r: Result<bool>)
      requires Valid()
      modifies hashMap, hashMap.buckets
      ensures Valid() && Distinct(Elements())
      ensures hashMap.HashIndex(value) < 0 ==> r == Err(IndexOutOfRange) && Elements() == old(Elements())
      ensures hashMap.HashIndex(value) >= 0 ==> r == Ok(value !in old(Elements()))
      ensures Members(Elements()) == Members(old(Elements())) + (if r.Ok? then {value} else {})
      ensures |Elements()| == |old(Elements())| + (if r == Ok(true) then 1 else 0)
    {
      ghost var before := hashMap.buckets[..];
      MemberIsKey(before, hashMap.hashCode, value);
      var present := hashMap.ContainsKey(value);
      if present.Err? {
        r := Err(present.error);
      } else if present.value {
        r := Ok(false);
      } else {
        var outcome := hashMap.Put(value, Dummy);
        r := Ok(true);
      }
      MemberIsKey(hashMap.buckets[..], hashMap.hashCode, value);
      OthersUnchanged(before, hashMap.buckets[..], hashMap.hashCode, value);
      assert Members(Elements()) == Members(old(Elements())) + (if r.Ok? then {value} else {});
    }

    /** `contains`: the map's `containsKey`. */
    method Contains(value: T) returns (r: Result<bool>)
      requires Valid()
      ensures hashMap.HashIndex(value) < 0 ==> r == Err(IndexOutOfRange)
      ensures hashMap.HashIndex(value) >= 0 ==> r == Ok(value in Elements())
    {
      MemberIsKey(hashMap.buckets[..], hashMap.hashCode, value);
      r := hashMap.ContainsKey(value);
    }

    /** `remove`: the map's `remove`; `true` when the element was there. */
    method Remove(value: T) returns (r: Result<bool>)
      requires Valid()
      modifies hashMap, hashMap.buckets
      ensures Valid() && Distinct(Elements())
      ensures hashMap.HashIndex(value) < 0 ==> r == Err(IndexOutOfRange) && Elements() == old(Elements())
      ensures hashMap.HashIndex(value) >= 0 ==> r == Ok(value in old(Elements()))
      ensures Members(Elements()) == Members(old(Elements())) - {value}
      ensures |Elements()| == |old(Elements())| - (if r == Ok(true) then 1 else 0)
    {
      ghost var before := hashMap.buckets[..];
      MemberIsKey(before, hashMap.hashCode, value);
      r := hashMap.Remove(value);
      MemberIsKey(hashMap.buckets[..], hashMap.hashCode, value);
      OthersUnchanged(before, hashMap.buckets[..], hashMap.hashCode, value);
      assert Members(Elements()) == Members(old(Elements())) - {value};
    }

    /** `size`: the map's `size`. */
    method Size() returns (n: nat)
      requires Valid()
      ensures n == |Elements()|
    {
      n := hashMap.Size();
    }

    /** `clear`: the map's `clear`. */
    method Clear()
      requires Valid()
      modifies hashMap, hashMap.buckets
      ensures Valid() && Elements() == []
    {
      hashMap.Clear();
    }

    /** `toList`: `getKeyAtIndex(i)` for every `i` below `size()`. */
    method ToList() returns (list: seq<T>)
      requires Valid()
      ensures list == Elements() && Distinct(list)
    {
      KeysDistinct(hashMap.buckets[..], hashMap.hashCode);
      list := [];
      var n := hashMap.Size();
      var i := 0;
      while i < n
        invariant 0 <= i <= n
        invariant list == Elements()[..i]
      {
        var key := hashMap.GetKeyAtIndex(i);
        list := list + [key.value];
        i := i + 1;
      }
    }

    /** `containsAll`, inherited from `CustomSet`: walks `other`'s elements
        with its iterator and asks this set's `contains` for each. */
    method ContainsAll(other: CustomHashSet<T>) returns (all: bool)
      requires Valid() && other.Valid() && other.hashMap.hashCode == hashMap.hashCode
      ensures all <==> Members(other.Elements()) <= Members(Elements())
    {
      var items := other.ToList();
      var i := 0;
      while i < |items|
        invariant 0 <= i <= |items|
        invariant forall k :: 0 <= k < i ==> items[k] in Elements()
      {
        MemberIsKey(other.hashMap.buckets[..], other.hashMap.hashCode, items[i]);
        var present := Contains(items[i]);
        if !present.value {
          assert items[i] in Members(other.Elements());
          return false;
        }
        i := i + 1;
      }
      all := true;
    }
  }

  /** `CustomHashSet(collection)`: adds the elements of `xs` one by one; the
      first element whose hash index is negative throws. */
  method FromCollection<T(==)>(hashCode: T -> Int32, xs: seq<T>) returns (r: Result<CustomHashSet<T>>)
    ensures (exists x :: x in xs && Hash(hashCode(x)) < 0) ==> r == Err(IndexOutOfRange)
    ensures (forall x :: x in xs ==> Hash(hashCode(x)) >= 0) ==>
              && r.Ok? && fresh(r.value.hashMap) && fresh(r.value.hashMap.buckets) && r.value.Valid()
              && r.value.hashMap.hashCode == hashCode
              && Distinct(r.value.Elements())
              && Members(r.value.Elements()) == Members(xs)
  {
    var result := new CustomHashSet(hashCode);
    var i := 0;
    while i < |xs|
      invariant 0 <= i <= |xs|
      invariant fresh(result.hashMap) && fresh(result.hashMap.buckets) && result.Valid() && result.hashMap.hashCode == hashCode
      invariant forall k :: 0 <= k < i ==> Hash(hashCode(xs[k])) >= 0
      invariant Members(result.Elements()) == Members(xs[..i])
    {
      var added := result.Add(xs[i]);
      if added.Err? {
        return Err(added.error);
      }
      assert xs[..i + 1] == xs[..i] + [xs[i]];
      i := i + 1;
    }
    assert xs[..i] == xs;
    KeysDistinct(result.hashMap.buckets[..], hashCode);
    r := Ok(result);
  }
}

=== FILE: custom_linked_list.dfy ===
/** `CustomLinkedList`: a singly linked list with `head` and `tail`
    pointers, used for the bucket chains of the hash map. */
module CustomLinkedLists {
  import opened Common

  class Node<T> {
    var value: T
    var next: Node?<T>

    constructor (value: T)
      ensures this.value == value && next == null
    {
      this.value := value;
      next := null;
    }
  }

  class CustomLinkedList<T> {
    var head: Node?<T>
    var tail: Node?<T>
    var size: nat
    /** The nodes reachable from `head`, in link order. */
    ghost var nodes: seq<Node<T>>
    /** The values, in list order. */
    ghost var Contents: seq<T>
    ghost var Repr: set<object>

    ghost predicate Valid()
      reads this, Repr
    {
      && this in Repr
      && (forall i :: 0 <= i < |nodes| ==> nodes[i] in Repr)
      && size == |nodes| == |Contents|
      && (forall i :: 0 <= i < |nodes| ==> nodes[i].value == Contents[i])
      && (forall i :: 0 <= i < |nodes| - 1 ==> nodes[i].next == nodes[i + 1])
      && (forall i, j :: 0 <= i < j < |nodes| ==> nodes[i] != nodes[j])
      && (if nodes == [] then head == null && tail == null
          else head == nodes[0] && tail == nodes[|nodes| - 1] && tail.next == null)
    }

    /** A new list: no nodes. */
    constructor ()
      ensures Valid() && fresh(Repr) && Contents == []
    {
      head := null;
      tail := null;
      size := 0;
      nodes := [];
      Contents := [];
      Repr := {this};
    }

    /** `add`: links a new node after `tail`, or makes it the only node. */
    method Add(value: T)
      requires Valid()
      modifies Repr
      ensures Valid() && fresh(Repr - old(Repr))
      ensures Contents == old(Contents) + [value]
    {
      var newNode := new Node(value);
      if head == null {
        head, tail := newNode, newNode;
      } else {
        tail.next := newNode;
        tail := newNode;
      }
      size := size + 1;
      nodes := nodes + [newNode];
      Contents := Contents + [value];
      Repr := Repr + {newNode};
    }

    /** `get`: follows `next` `index` times from `head`;
        `IndexOutOfBoundsException` outside `[0, size)`. */
    method Get(index: int) returns (r: Result<T>)
      requires Valid()
      ensures 0 <= index < |Contents| ==> r == Ok(Contents[index])
      ensures !(0 <= index < |Contents|) ==> r == Err(IndexOutOfRange)
    {
      if index < 0 || index >= size {
        return Err(IndexOutOfRange);
      }
      var current := head;
      var i := 0;
      while i < index
        invariant 0 <= i <= index && current == nodes[i]
      {
        current := current.next;
        i := i + 1;
      }
      r := Ok(current.value);
    }

    /** `remove(index)`: unlinks the node at `index`, moving `head` for the
        first one and `tail` back when the last one goes;
        `IndexOutOfBoundsException` outside `[0, size)`. */
    method Remove(index: int) returns (outcome: Outcome)
      requires Valid()
      modifies Repr
      ensures Valid() && Repr == old(Repr)
      ensures !(0 <= index < old(|Contents|)) ==> outcome == Fail(IndexOutOfRange) && Contents == old(Contents)
      ensures 0 <= index < old(|Contents|) ==>
                outcome == Pass && Contents == old(Contents)[..index] + old(Contents)[index + 1..]
      ensures Contents == [] ==> head == null && tail == null
    {
      if index < 0 || index >= size {
        return Fail(IndexOutOfRange);
      }
      if index == 0 {
        UnlinkHead();
      } else {
        var current := head;
        var i := 0;
        while i < index - 1
          invariant 0 <= i <= index - 1 && current == nodes[i]
        {
          current := current.next;
          i := i + 1;
        }
        UnlinkAfter(current, index);
      }
      outcome := Pass;
    }

    /** The `index == 0` branch of `remove`: `head` moves to its successor,
        and `tail` is cleared when that is `null`. */
    method UnlinkHead()
      requires Valid() && nodes != []
      modifies this
      ensures Valid() && Repr == old(Repr)
      ensures Contents == old(Contents)[1..]
      ensures Contents == [] ==> head == null && tail == null
    {
      head := head.next;
      if head == null {
        tail := null;
      }
      size := size - 1;
      nodes := nodes[1..];
      Contents := Contents[1..];
    }

    /** The other branch of `remove`: `current`, the node before `index`,
        skips the node at `index`; if nothing follows, `current` becomes
        `tail`. */
    method UnlinkAfter(current: Node<T>, ghost index: nat)
      requires Valid() && 0 < index < |nodes| && current == nodes[index - 1]
      modifies Repr
      ensures Valid() && Repr == old(Repr)
      ensures Contents == old(Contents)[..index] + old(Contents)[index + 1..]
    {
      ghost var before := nodes;
      ghost var after := nodes[..index] + nodes[index + 1..];
      assert forall j :: 0 <= j < |after| ==> after[j] == before[if j < index then j else j + 1];
      assert current.next == nodes[index];
      assert current.next.next == if index == |before| - 1 then null else before[index + 1];
      current.next := current.next.next;
      if current.next == null {
        tail := current;
      }
      size := size - 1;
      nodes := after;
      Contents := Contents[..index] + Contents[index + 1..];
    }

    /** `size`. */
    method Size() returns (n: nat)
      requires Valid()
      ensures n == |Contents|
    {
      n := size;
    }
  }
}

=== FILE: custom_queue.dfy ===
/** `CustomQueue`: a FIFO queue of linked nodes with `head` and `tail`
    pointers; `add` links a node after `tail`, `poll` unlinks `head`. */
module LinkedQueues {
  import opened Common

  class Node<T> {
    var value: T
    var next: Node?<T>

    constructor (value: T)
      ensures this.value == value && next == null
    {
      this.value := value;
      next := null;
    }
  }

  class CustomQueue<T> {
    var head: Node?<T>
    var tail: Node?<T>
    var size: nat
    /** The nodes from `head` to `tail`, in link order. */
    ghost var nodes: seq<Node<T>>
    /** The queued values, oldest first. */
    ghost var Contents: seq<T>
    ghost var Repr: set<object>

    ghost predicate Valid()
      reads this, Repr
    {
      && this in Repr
      && (forall i :: 0 <= i < |nodes| ==> nodes[i] in Repr)
      && size == |nodes| == |Contents|
      && (forall i :: 0 <= i < |nodes| ==> nodes[i].value == Contents[i])
      && (forall i :: 0 <= i < |nodes| - 1 ==> nodes[i].next == nodes[i + 1])
      && (forall i, j :: 0 <= i < j < |nodes| ==> nodes[i] != nodes[j])
      && (if nodes == [] then head == null && tail == null
          else head == nodes[0] && tail == nodes[|nodes| - 1] && tail.next == null)
    }

    /** `CustomQueue()`: no nodes. */
    constructor ()
      ensures Valid() && fresh(Repr) && Contents == []
    {
      head := null;
      tail := null;
      size := 0;
      nodes := [];
      Contents := [];
      Repr := {this};
    }

    /** `add`: links a new node after `tail` (or makes it the only node) and
        always returns `true`. */
    method Add(value: T) returns (added: bool)
      requires Valid()
      modifies Repr
      ensures Valid() && fresh(Repr - old(Repr))
      ensures added && Contents == old(Contents) + [value]
    {
      var newNode := new Node(value);
      if tail == null {
        head, tail := newNode, newNode;
      } else {
        tail.next := newNode;
        tail := newNode;
      }
      size := size + 1;
      nodes := nodes + [newNode];
      Contents := Contents + [value];
      Repr := Repr + {newNode};
      added := true;
    }

    /** `poll`: `null` on an empty queue; otherwise unlinks `head` and
        returns its value, clearing `tail` when the queue empties. */
    method Poll() returns (r: Option<T>)
      requires Valid()
      modifies this
      ensures Valid() && Repr == old(Repr)
      ensures old(Contents) == [] ==> r == None && Contents == []
      ensures old(Contents) != [] ==> r == Some(old(Contents)[0]) && Contents == old(Contents)[1..]
      ensures Contents == [] ==> head == null && tail == null
    {
      if head == null {
        return None;
      }
      var value := head.value;
      head := head.next;
      if head == null {
        tail := null;
      }
      size := size - 1;
      nodes := nodes[1..];
      Contents := Contents[1..];
      r := Some(value);
    }

    /** `isEmpty`: `size == 0`. */
    method IsEmpty() returns (empty: bool)
      requires Valid()
      ensures empty <==> Contents == []
    {
      empty := size == 0;
    }

    /** `size`. */
    method Size() returns (n: nat)
      requires Valid()
      ensures n == |Contents|
    {
      n := size;
    }
  }

  /** FIFO order: values added to an empty queue come back out of `poll` in
      the order they went in. */
  method AddThenPoll<T>(q: CustomQueue<T>, x: T, y: T) returns (first: Option<T>, second: Option<T>, third: Option<T>)
    requires q.Valid() && q.Contents == []
    modifies q.Repr
    ensures first == Some(x) && second == Some(y) && third == None
  {
    var added := q.Add(x);
    added := q.Add(y);
    first := q.Poll();
    second := q.Poll();
    third := q.Poll();
  }
}

=== FILE: custom_set.dfy ===
/** `CustomSet`: a set of at most 100 elements kept in the first `count`
    slots of an array, without duplicates, in insertion order except where
    a removal moved the last element into the freed slot. */
module Sets {
  import opened Common

  /** `SIZE`: the capacity of every `CustomSet`. */
  const CAPACITY: nat := 100

  /** No element occurs twice. */
  ghost predicate NoDuplicates<T>(s: seq<T>) {
    forall i, j :: 0 <= i < j < |s| ==> s[i] != s[j]
  }

  /** What `remove` does to the stored sequence: the last element takes the
      place of the one at `i`. */
  function SwapRemove<T>(s: seq<T>, i: nat): (r: seq<T>)
    requires i < |s|
    ensures |r| == |s| - 1
  {
    s[..i] + (if i == |s| - 1 then [] else [s[|s| - 1]] + s[i + 1..|s| - 1])
  }

  /** Removing by swapping in the last element takes out exactly the element
      at `i` and keeps every other one, without creating duplicates. */
  lemma SwapRemoveElements<T>(s: seq<T>, i: nat)
    requires i < |s| && NoDuplicates(s)
    ensures NoDuplicates(SwapRemove(s, i))
    ensures forall x :: x in SwapRemove(s, i) <==> x in s && x != s[i]
    ensures multiset(SwapRemove(s, i)) == multiset(s) - multiset{s[i]}
  {
    var r := SwapRemove(s, i);
    var last := |s| - 1;
    assert forall k :: 0 <= k < |r| ==> r[k] == (if k == i then s[last] else s[k]);
    if i == last {
      assert s == r + [s[i]];
    } else {
      assert s == s[..i] + [s[i]] + s[i + 1..last] + [s[last]];
      assert r == s[..i] + [s[last]] + s[i + 1..last];
    }
    forall x | x in s && x != s[i]
      ensures x in r
    {
      var k :| 0 <= k < |s| && s[k] == x;
      if k == last {
        assert r[i] == x;
      } else {
        assert r[k] == x;
      }
    }
  }

  class CustomSet<T(==)> {
    const elements: array<Option<T>>
    var count: nat
    /** The stored elements, in slot order. */
    ghost var Contents: seq<T>

    ghost predicate Valid()
      reads this, elements
    {
      && elements.Length == CAPACITY
      && count == |Contents| <= CAPACITY
      && (forall i :: 0 <= i < count ==> elements[i] == Some(Contents[i]))
      && (forall i :: count <= i < CAPACITY ==> elements[i] == None)
      && NoDuplicates(Contents)
    }

    constructor ()
      ensures Valid() && fresh(elements) && Contents == []
    {
      elements := new Option<T>[CAPACITY](_ => None);
      count := 0;
      Contents := [];
    }

    /** `contains`: some stored element equals `value`. */
    method Contains(value: T) returns (found: bool)
      requires Valid()
      ensures found <==> value in Contents
    {
      var i := 0;
      while i < count
        invariant 0 <= i <= count
        invariant value !in Contents[..i]
      {
        if elements[i] == Some(value) {
          assert Contents[i] == value;
          return true;
        }
        assert Contents[..i + 1] == Contents[..i] + [Contents[i]];
        i := i + 1;
      }
      assert Contents[..count] == Contents;
      found := false;
    }

    /** `add`: `false` for an element already present; `IllegalStateException`
        when 100 elements are stored; otherwise the element goes last. */
    method Add(value: T) returns (r: Result<bool>)
      requires Valid()
      modifies this, elements
      ensures Valid()
      ensures value in old(Contents) ==> r == Ok(false) && Contents == old(Contents)
      ensures value !in old(Contents) && |old(Contents)| >= CAPACITY ==> r == Err(CapacityExceeded) && Contents == old(Contents)
      ensures value !in old(Contents) && |old(Contents)| < CAPACITY ==> r == Ok(true) && Contents == old(Contents) + [value]
    {
      var present := Contains(value);
      if present {
        return Ok(false);
      }
      if count >= CAPACITY {
        return Err(CapacityExceeded);
      }
      elements[count] := Some(value);
      count := count + 1;
      Contents := Contents + [value];
      r := Ok(true);
    }

    /** `containsAll(other)`: every element `other`'s iterator yields is
        contained in this set. */
    method ContainsAll(other: CustomSet<T>) returns (all: bool)
      requires Valid() && other.Valid()
      ensures all <==> forall x :: x in other.Contents ==> x in Contents
    {
      var items := other.Iterate();
      var i := 0;
      while i < |items|
        invariant 0 <= i <= |items|
        invariant forall k :: 0 <= k < i ==> items[k] in Contents
      {
        var present := Contains(items[i]);
        if !present {
          return false;
        }
        i := i + 1;
      }
      all := true;
    }

    /** `remove`: `false` when absent; otherwise the last element moves into
        the slot of the removed one, and that last slot is cleared. */
    method Remove(value: T) returns (removed: bool)
      requires Valid()
      modifies this, elements
      ensures Valid()
      ensures removed <==> value in old(Contents)
      ensures !removed ==> Contents == old(Contents)
      ensures removed ==> exists i :: 0 <= i < |old(Contents)| && old(Contents)[i] == value
                                     && Contents == SwapRemove(old(Contents), i)
      ensures forall x :: x in Contents <==> x in old(Contents) && x != value
    {
      var i := 0;
      while i < count
        invariant 0 <= i <= count
        invariant value !in Contents[..i]
      {
        if elements[i] == Some(value) {
          ghost var before := Contents;
          count := count - 1;
          elements[i] := elements[count];
          elements[count] := None;
          Contents := SwapRemove(Contents, i);
          SwapRemoveElements(before, i);
          assert forall k :: 0 <= k < count ==> Contents[k] == (if k == i then before[count] else before[k]);
          return true;
        }
        assert Contents[..i + 1] == Contents[..i] + [Contents[i]];
        i := i + 1;
      }
      assert Contents[..count] == Contents;
      removed := false;
    }

    /** `size`: the number of stored elements. */
    method Size() returns (n: nat)
      requires Valid()
      ensures n == |Contents|
    {
      n := count;
    }

    /** The sequence the iterator yields: `elements[0..count)` in slot
        order. */
    method Iterate() returns (items: seq<T>)
      requires Valid()
      ensures items == Contents
    {
      items := [];
      var index := 0;
      while index < count
        invariant 0 <= index <= count
        invariant items == Contents[..index]
      {
        items := items + [elements[index].value];
        index := index + 1;
      }
    }
  }
}

=== FILE: evacuation.dfy ===
/** `EvacuationGraph` and its entry record `EvacuationNode`: a directed road
    network whose entries can be blocked and unblocked in place, with
    Dijkstra's algorithm run over the roads that are open. */
module Evacuation {
  import opened Common
  import opened Adjacency
  import opened ShortestPaths
  import Graphs

  /** `EvacuationNode`: destination and weight fixed at construction (there
      are no setters), and a blocked flag that starts cleared. */
  class EvacuationNode {
    const dest: int
    const weight: int
    var isBlocked: bool

    constructor (dest: int, weight: int)
      ensures this.dest == dest && this.weight == weight && !isBlocked
    {
      this.dest := dest;
      this.weight := weight;
      isBlocked := false;
    }

    /** `setBlocked`: only the flag changes. */
    method SetBlocked(blocked: bool)
      modifies this
      ensures isBlocked == blocked
    {
      isBlocked := blocked;
    }
  }

  /** The value of one entry: what an `EvacuationNode` holds at a moment. */
  datatype Road = Road(dest: int, weight: int, blocked: bool)

  /** The entries of a list of roads, flags dropped. */
  function Plain(list: seq<Road>): (r: seq<Edge>)
    ensures |r| == |list| && forall j :: 0 <= j < |list| ==> r[j] == Edge(list[j].dest, list[j].weight)
  {
    seq(|list|, j requires 0 <= j < |list| => Edge(list[j].dest, list[j].weight))
  }

  /** The entries of the open roads of a list, in list order: what the loop of
      `calculateEvacuationRoutes` does not skip. */
  function Open(list: seq<Road>): (r: seq<Edge>)
    ensures |r| <= |list|
  {
    if |list| == 0 then []
    else if list[0].blocked then Open(list[1..])
    else [Edge(list[0].dest, list[0].weight)] + Open(list[1..])
  }

  /** `Open` keeps exactly the open roads: every entry it keeps comes from an
      open road, and every open road is kept. */
  lemma {:induction false} OpenKeepsOpenRoads(list: seq<Road>)
    ensures forall i :: 0 <= i < |Open(list)| ==>
              exists j :: 0 <= j < |list| && !list[j].blocked && Open(list)[i] == Edge(list[j].dest, list[j].weight)
    ensures forall j :: 0 <= j < |list| && !list[j].blocked ==> Edge(list[j].dest, list[j].weight) in Open(list)
  {
    if |list| > 0 {
      var tail := list[1..];
      OpenKeepsOpenRoads(tail);
      var r := Open(list);
      forall i | 0 <= i < |r|
        ensures exists j :: 0 <= j < |list| && !list[j].blocked && Open(list)[i] == Edge(list[j].dest, list[j].weight)
      {
        if list[0].blocked || i > 0 {
          var i' := if list[0].blocked then i else i - 1;
          assert r[i] == Open(tail)[i'];
          var j' :| 0 <= j' < |tail| && !tail[j'].blocked && Open(tail)[i'] == Edge(tail[j'].dest, tail[j'].weight);
          assert list[j' + 1] == tail[j'];
        } else {
          assert r[i] == Edge(list[0].dest, list[0].weight);
        }
      }
      forall j | 0 <= j < |list| && !list[j].blocked
        ensures Edge(list[j].dest, list[j].weight) in r
      {
        if j > 0 {
          assert list[j] == tail[j - 1];
        }
      }
    } else {
      assert Open(list) == [];
    }
  }

  /** The graph Dijkstra's algorithm sees: every list restricted to its open
      roads. */
  function OpenGraph(roads: seq<seq<Road>>): (r: seq<seq<Edge>>)
    ensures |r| == |roads| && forall u :: 0 <= u < |roads| ==> r[u] == Open(roads[u])
  {
    seq(|roads|, u requires 0 <= u < |roads| => Open(roads[u]))
  }

  /** Roads that lead to vertices and weigh more than 0 give an open graph
      that is fit for Dijkstra's algorithm. */
  lemma OpenGraphSound(roads: seq<seq<Road>>)
    requires forall u, j :: 0 <= u < |roads| && 0 <= j < |roads[u]| ==> 0 <= roads[u][j].dest < |roads| && roads[u][j].weight > 0
    ensures WellFormed(OpenGraph(roads)) && NonNegative(OpenGraph(roads))
  {
    var open: seq<seq<Edge>> := OpenGraph(roads);
    forall u, i | 0 <= u < |open| && 0 <= i < |open[u]|
      ensures 0 <= open[u][i].dest < |open| && open[u][i].weight >= 0
    {
      OpenKeepsOpenRoads(roads[u]);
    }
  }

  /** The list of `src` after `addEdge`: the rule of `Graph.addEdgeDijkstra`,
      the new entry unblocked. */
  function AddRoad(list: seq<Road>, dest: int, weight: int): (r: seq<Road>)
    ensures weight > 0 ==> exists j :: 0 <= j < |r| && r[j].dest == dest && r[j].weight <= weight
  {
    if weight <= 0 then list
    else
      var k := FirstMatch(Plain(list), dest);
      if k == -1 || weight < list[k].weight then
        var r := list + [Road(dest, weight, false)];
        assert r[|list|].dest == dest;
        r
      else
        assert Plain(list)[k].dest == list[k].dest == dest;
        list
  }

  /** `addEdge` inserts exactly as `Graph.addEdgeDijkstra` does, and what it
      adds is open. */
  lemma AddRoadIsDirectedInsert(list: seq<Road>, dest: int, weight: int)
    ensures Plain(AddRoad(list, dest, weight)) == Graphs.WithDirected(Plain(list), dest, weight)
    ensures AddRoad(list, dest, weight) == list ||
            AddRoad(list, dest, weight) == list + [Road(dest, weight, false)]
  {
    var r := AddRoad(list, dest, weight);
    if r != list {
      assert Plain(r) == Plain(list) + [Edge(dest, weight)];
    }
  }

  /** The first entry of `list` leading to `dest` gets flag `b`; nothing else
      changes. */
  function SetFirst(list: seq<Road>, dest: int, b: bool): (r: seq<Road>)
    ensures |r| == |list| && Plain(r) == Plain(list)
    ensures forall j :: 0 <= j < |list| && j != FirstMatch(Plain(list), dest) ==> r[j] == list[j]
    ensures FirstMatch(Plain(list), dest) != -1 ==> r[FirstMatch(Plain(list), dest)].blocked == b
  {
    var k := FirstMatch(Plain(list), dest);
    if k == -1 then list else list[k := list[k].(blocked := b)]
  }

  /** No entry of a list whose destinations are vertices leads to a number
      outside the graph, so flagging such a number changes nothing. */
  lemma NoRoadOutside(list: seq<Road>, dest: int, n: int)
    requires forall j :: 0 <= j < |list| ==> 0 <= list[j].dest < n
    requires dest < 0 || dest >= n
    ensures FirstMatch(Plain(list), dest) == -1 && SetFirst(list, dest, true) == list && SetFirst(list, dest, false) == list
  {
    assert forall j :: 0 <= j < |list| ==> Plain(list)[j].dest == list[j].dest;
  }

  /** The roads after `blockRoad(src, dest)` (`b` true) or
      `unblockRoad(src, dest)` (`b` false): the first entry from `src` to
      `dest`, then the first from `dest` to `src`, get the flag. */
  function Flagged(roads: seq<seq<Road>>, src: int, dest: int, b: bool): (r: seq<seq<Road>>)
    requires 0 <= src < |roads| && 0 <= dest < |roads|
    ensures |r| == |roads| && forall u :: 0 <= u < |roads| && u != src && u != dest ==> r[u] == roads[u]
  {
    var a := roads[src := SetFirst(roads[src], dest, b)];
    a[dest := SetFirst(a[dest], src, b)]
  }

  /** What `blockRoad` and `unblockRoad` return: an entry for the pair exists
      in either direction. */
  predicate HasRoad(roads: seq<seq<Road>>, src: int, dest: int)
    requires 0 <= src < |roads| && 0 <= dest < |roads|
  {
    FirstMatch(Plain(roads[src]), dest) != -1 || FirstMatch(Plain(roads[dest]), src) != -1
  }

  /** Blocking or unblocking changes flags only: every list keeps its
      destinations and weights, in order. */
  lemma FlaggedKeepsEntries(roads: seq<seq<Road>>, src: int, dest: int, b: bool)
    requires 0 <= src < |roads| && 0 <= dest < |roads|
    ensures var r := Flagged(roads, src, dest, b);
            |r| == |roads| && forall u :: 0 <= u < |roads| ==> Plain(r[u]) == Plain(roads[u])
  {
  }

  /** Unblocking after blocking is the same as unblocking: the flags of the
      two first matches end cleared, and nothing else has moved. */
  lemma UnblockAfterBlock(roads: seq<seq<Road>>, src: int, dest: int)
    requires 0 <= src < |roads| && 0 <= dest < |roads|
    ensures Flagged(Flagged(roads, src, dest, true), src, dest, false) == Flagged(roads, src, dest, false)
  {
    var a := roads[src := SetFirst(roads[src], dest, true)];
    var b := a[dest := SetFirst(a[dest], src, true)];
    var c := roads[src := SetFirst(roads[src], dest, false)];
    var d := c[dest := SetFirst(c[dest], src, false)];
    var e := b[src := SetFirst(b[src], dest, false)];
    var f := e[dest := SetFirst(e[dest], src, false)];
    if src == dest {
      var l := roads[src];
      var k := FirstMatch(Plain(l), dest);
      if k != -1 {
        assert f[src] == d[src];
      }
    } else {
      assert f[src] == d[src];
      assert f[dest] == d[dest];
    }
  }

  /** After a duplicate entry lighter than the first one was appended,
      blocking the pair blocks the first entry only: the lighter one stays
      open and Dijkstra's algorithm still uses it. */
  lemma DuplicateSurvivesBlock(list: seq<Road>, dest: int, weight: int)
    requires weight > 0 && FirstMatch(Plain(list), dest) != -1
    requires weight < list[FirstMatch(Plain(list), dest)].weight
    ensures Edge(dest, weight) in Open(SetFirst(AddRoad(list, dest, weight), dest, true))
  {
    var r := AddRoad(list, dest, weight);
    assert r == list + [Road(dest, weight, false)];
    Graphs.FirstMatchAppend(Plain(list), [Edge(dest, weight)], dest);
    assert Plain(r) == Plain(list) + [Edge(dest, weight)];
    var s := SetFirst(r, dest, true);
    assert s[|list|] == Road(dest, weight, false);
    OpenKeepsOpenRoads(s);
  }

  /** With every entry into `v` blocked, `v` (other than the start) is
      unreachable: infinite distance and no parent. */
  lemma BlockedIsUnreached(roads: seq<seq<Road>>, start: int, dist: seq<int>, parent: seq<int>, rank: seq<nat>, v: int)
    requires WellFormed(OpenGraph(roads)) && ShortestPathTree(OpenGraph(roads), start, dist, parent, rank)
    requires 0 <= v < |roads| && v != start
    requires forall u, j :: 0 <= u < |roads| && 0 <= j < |roads[u]| && roads[u][j].dest == v ==> roads[u][j].blocked
    ensures dist[v] == INF && parent[v] == -1
  {
    var g: seq<seq<Edge>> := OpenGraph(roads);
    if parent[v] != -1 {
      var u := parent[v];
      var i :| 0 <= i < |g[u]| && g[u][i].dest == v && dist[v] == dist[u] + g[u][i].weight;
      OpenKeepsOpenRoads(roads[u]);
      assert false;
    }
  }

  /** The search loop of `addEdge`, `blockRoad` and `unblockRoad`: the index
      of the first entry leading to `dest`, or -1. */
  method FindNode(list: seq<EvacuationNode>, dest: int) returns (k: int)
    ensures k == FirstMatch(Plain(RoadsOf(list)), dest)
  {
    var i := 0;
    while i < |list|
      invariant 0 <= i <= |list|
      invariant forall j :: 0 <= j < i ==> list[j].dest != dest
    {
      if list[i].dest == dest {
        assert FirstMatch(Plain(RoadsOf(list)), dest) == i;
        return i;
      }
      i := i + 1;
    }
    return -1;
  }

  /** The roads a list of nodes holds now. */
  ghost function RoadsOf(list: seq<EvacuationNode>): (r: seq<Road>)
    reads list
    ensures |r| == |list|
    ensures forall j :: 0 <= j < |list| ==> r[j] == Road(list[j].dest, list[j].weight, list[j].isBlocked)
  {
    seq(|list|, j requires 0 <= j < |list| reads list => Road(list[j].dest, list[j].weight, list[j].isBlocked))
  }

  /** No entry object sits in two places of the lists. */
  ghost predicate Unshared(adj: seq<seq<EvacuationNode>>) {
    forall u, j, u', j' ::
      0 <= u < |adj| && 0 <= j < |adj[u]| && 0 <= u' < |adj| && 0 <= j' < |adj[u']| && adj[u][j] == adj[u'][j']
      ==> u == u' && j == j'
  }

  /** Appending an object found nowhere in the lists keeps them unshared. */
  lemma AppendUnshared(adj: seq<seq<EvacuationNode>>, src: int, node: EvacuationNode)
    requires Unshared(adj) && 0 <= src < |adj|
    requires forall u, j :: 0 <= u < |adj| && 0 <= j < |adj[u]| ==> adj[u][j] != node
    ensures Unshared(adj[src := adj[src] + [node]])
  {
    var a := adj[src := adj[src] + [node]];
    assert forall u, j :: 0 <= u < |a| && 0 <= j < |a[u]| ==>
      if u == src && j == |adj[src]| then a[u][j] == node else j < |adj[u]| && a[u][j] == adj[u][j];
  }

  class EvacuationGraph {
    const numberOfNodes: nat
    var adj: seq<seq<EvacuationNode>>
    ghost var Repr: set<EvacuationNode>

    /** Every node leads to a vertex, weighs more than 0 (`addEdge` drops
        other weights), belongs to `Repr`, and sits in one place only (each
        was created by its own `new`). */
    ghost predicate Valid()
      reads this
    {
      && |adj| == numberOfNodes
      && (forall u, j :: 0 <= u < |adj| && 0 <= j < |adj[u]| ==>
            adj[u][j] in Repr && 0 <= adj[u][j].dest < |adj| && adj[u][j].weight > 0)
      && Unshared(adj)
    }

    /** The abstract value: every list as the roads its nodes hold now. */
    ghost function Roads(): (r: seq<seq<Road>>)
      reads this, Repr
      requires Valid()
      ensures |r| == |adj|
      ensures forall u :: 0 <= u < |adj| ==> |r[u]| == |adj[u]|
      ensures forall u, j :: 0 <= u < |adj| && 0 <= j < |adj[u]| ==>
                r[u][j] == Road(adj[u][j].dest, adj[u][j].weight, adj[u][j].isBlocked)
    {
      seq(|adj|, u requires 0 <= u < |adj| && Valid() reads this, Repr => RoadsOf(adj[u]))
    }

    /** `EvacuationGraph(V, names)`: `V` vertices, each with an empty list. */
    constructor (V: nat)
      ensures Valid() && numberOfNodes == V && Roads() == seq(V, _ => [])
    {
      var lists: seq<seq<EvacuationNode>> := [];
      var i := 0;
      while i < V
        invariant 0 <= i <= V && |lists| == i
        invariant forall x :: 0 <= x < i ==> lists[x] == []
      {
        lists := lists + [[]];
        i := i + 1;
      }
      numberOfNodes := V;
      adj := lists;
      Repr := {};
      new;
      assert Roads() == seq(V, _ => []);
    }

    /** `addEdge`: the insert rule of `Graph.addEdgeDijkstra`, with a new
        unblocked node. */
    method AddEdge(src: int, dest: int, weight: int)
      requires Valid() && 0 <= src < numberOfNodes && 0 <= dest < numberOfNodes
      modifies this
      ensures Valid() && Roads() == old(Roads())[src := AddRoad(old(Roads())[src], dest, weight)]
    {
      ghost var before := Roads();
      if weight > 0 {
        var edgeExists := false;
        var srcList := adj[src];
        assert RoadsOf(srcList) == before[src];
        var i := FindNode(srcList, dest);
        if i != -1 {
          if weight < srcList[i].weight {
            Append(src, dest, weight);
          }
          edgeExists := true;
        }
        if !edgeExists {
          Append(src, dest, weight);
        }
      }
    }

    /** Appends a new node `(dest, weight)` to the list of `src`. */
    method Append(src: int, dest: int, weight: int)
      requires Valid() && 0 <= src < numberOfNodes && 0 <= dest < numberOfNodes && weight > 0
      modifies this
      ensures Valid() && Roads() == old(Roads())[src := old(Roads())[src] + [Road(dest, weight, false)]]
    {
      ghost var before := Roads();
      var node := new EvacuationNode(dest, weight);
      ghost var target := before[src := before[src] + [Road(dest, weight, false)]];
      AppendUnshared(adj, src, node);
      adj := adj[src := adj[src] + [node]];
      Repr := Repr + {node};
      ghost var now := Roads();
      forall x | 0 <= x < |now|
        ensures now[x] == target[x]
      {
        if x == src {
          assert now[x] == before[x] + [Road(dest, weight, false)];
        }
      }
    }

    /** `blockRoad`: flags the first entry from `src` to `dest` and the first
        from `dest` to `src`; true when there was either. A vertex number
        outside the graph makes `adj.get` throw `IndexOutOfBoundsException`
        with no flag changed. */
    method BlockRoad(src: int, dest: int) returns (blocked: Result<bool>)
      requires Valid()
      modifies Repr
      ensures Valid()
      ensures !(0 <= src < numberOfNodes && 0 <= dest < numberOfNodes) ==>
                blocked == Err(IndexOutOfRange) && Roads() == old(Roads())
      ensures 0 <= src < numberOfNodes && 0 <= dest < numberOfNodes ==>
                blocked == Ok(HasRoad(old(Roads()), src, dest)) && Roads() == Flagged(old(Roads()), src, dest, true)
    {
      blocked := SetRoad(src, dest, true);
    }

    /** `unblockRoad`: clears the same two flags; true when there was either
        entry. Out-of-range vertex numbers throw as in `blockRoad`. */
    method UnblockRoad(src: int, dest: int) returns (unblocked: Result<bool>)
      requires Valid()
      modifies Repr
      ensures Valid()
      ensures !(0 <= src < numberOfNodes && 0 <= dest < numberOfNodes) ==>
                unblocked == Err(IndexOutOfRange) && Roads() == old(Roads())
      ensures 0 <= src < numberOfNodes && 0 <= dest < numberOfNodes ==>
                unblocked == Ok(HasRoad(old(Roads()), src, dest)) && Roads() == Flagged(old(Roads()), src, dest, false)
    {
      unblocked := SetRoad(src, dest, false);
    }

    /** The two loops `blockRoad` and `unblockRoad` share, with the flag
        value as a parameter. `adj.get(src)` throws before the first loop,
        `adj.get(dest)` between the two; in the second case the first loop
        has flagged nothing, since no entry leads outside the graph. */
    method SetRoad(src: int, dest: int, b: bool) returns (found: Result<bool>)
      requires Valid()
      modifies Repr
      ensures Valid()
      ensures !(0 <= src < numberOfNodes && 0 <= dest < numberOfNodes) ==>
                found == Err(IndexOutOfRange) && Roads() == old(Roads())
      ensures 0 <= src < numberOfNodes && 0 <= dest < numberOfNodes ==>
                found == Ok(HasRoad(old(Roads()), src, dest)) && Roads() == Flagged(old(Roads()), src, dest, b)
    {
      if src < 0 || src >= |adj| {
        return Err(IndexOutOfRange);
      }
      ghost var r0 := Roads();
      var inSrc := SetFirstFlag(src, dest, b);
      if dest < 0 || dest >= |adj| {
        NoRoadOutside(r0[src], dest, |adj|);
        assert r0[src := r0[src]] == r0;
        return Err(IndexOutOfRange);
      }
      var inDest := SetFirstFlag(dest, src, b);
      found := Ok(inSrc || inDest);
    }

    /** One of the two loops: flags the first node of the list of `u` that
        leads to `dest`, if there is one. */
    method SetFirstFlag(u: int, dest: int, b: bool) returns (found: bool)
      requires Valid() && 0 <= u < numberOfNodes
      modifies Repr
      ensures Valid() && found == (FirstMatch(Plain(old(Roads())[u]), dest) != -1)
      ensures Roads() == old(Roads())[u := SetFirst(old(Roads())[u], dest, b)]
    {
      ghost var r0 := Roads();
      var nodes := adj[u];
      assert RoadsOf(nodes) == r0[u];
      var k := FindNode(nodes, dest);
      if k != -1 {
        assert SetFirst(r0[u], dest, b) == r0[u][k := r0[u][k].(blocked := b)];
        SetFlag(u, k, b);
        found := true;
      } else {
        assert r0[u := SetFirst(r0[u], dest, b)] == r0;
        found := false;
      }
    }

    /** Sets the flag of entry `j` of the list of `u`; no other entry
        changes, because no node sits in two places. */
    method SetFlag(u: int, j: int, b: bool)
      requires Valid() && 0 <= u < numberOfNodes && 0 <= j < |adj[u]|
      modifies Repr
      ensures Valid() && Roads() == old(Roads())[u := old(Roads())[u][j := old(Roads())[u][j].(blocked := b)]]
    {
      ghost var before: seq<seq<Road>> := Roads();
      ghost var target := before[u := before[u][j := before[u][j].(blocked := b)]];
      adj[u][j].SetBlocked(b);
      ghost var now := Roads();
      forall x | 0 <= x < |now|
        ensures now[x] == target[x]
      {
        forall i | 0 <= i < |now[x]|
          ensures now[x][i] == target[x][i]
        {
          if x != u || i != j {
            assert adj[x][i] != adj[u][j];
          }
        }
      }
    }

    /** The open roads as plain entries, in list order: a snapshot the
        routing loop reads in place of skipping blocked entries. */
    method OpenSnapshot() returns (open: seq<seq<Edge>>)
      requires Valid()
      ensures open == OpenGraph(Roads())
    {
      ghost var roads := Roads();
      open := [];
      var u := 0;
      while u < |adj|
        invariant 0 <= u <= |adj| && |open| == u
        invariant forall x :: 0 <= x < u ==> open[x] == Open(roads[x])
      {
        var list := adj[u];
        var entries := [];
        var j := |list|;
        while j > 0
          invariant 0 <= j <= |list|
          invariant entries == Open(roads[u][j..])
        {
          j := j - 1;
          assert roads[u][j..][1..] == roads[u][j + 1..];
          if !list[j].isBlocked {
            entries := [Edge(list[j].dest, list[j].weight)] + entries;
          }
        }
        assert roads[u][0..] == roads[u];
        open := open + [entries];
        u := u + 1;
      }
    }

    /** The open roads lead to vertices and weigh more than 0. */
    lemma OpenRoadsSound()
      requires Valid()
      ensures WellFormed(OpenGraph(Roads())) && NonNegative(OpenGraph(Roads()))
    {
      var roads: seq<seq<Road>> := Roads();
      assert forall u, j :: 0 <= u < |roads| && 0 <= j < |roads[u]| ==>
        roads[u][j].dest == adj[u][j].dest && roads[u][j].weight == adj[u][j].weight;
      OpenGraphSound(roads);
    }

    /** `calculateEvacuationRoutes(startNode)` without the printing: Dijkstra's
        algorithm over the open roads only. */
    method CalculateEvacuationRoutes(startNode: int) returns (distances: seq<int>, parent: seq<int>, ghost rank: seq<nat>)
      requires Valid() && 0 <= startNode < numberOfNodes
      ensures WellFormed(OpenGraph(Roads())) && NonNegative(OpenGraph(Roads()))
      ensures ShortestPathTree(OpenGraph(Roads()), startNode, distances, parent, rank)
    {
      var open: seq<seq<Edge>> := OpenSnapshot();
      OpenRoadsSound();
      distances, parent, rank := Dijkstra(open, startNode);
    }
  }
}

=== FILE: flow_network.dfy ===
/** The residual network of `FunctionFiveHelper` as values: the edge list with
    each forward edge at an even index and its reverse edge right after it,
    augmentation along a path, and the flow sums at a vertex. */
module FlowNetwork {
  import opened Common

  /** `FunctionFiveHelper.Edge`. */
  datatype FlowEdge = FlowEdge(from: int, to: int, capacity: int, flow: int)

  /** `e ^ 1` on a non-negative index: the other edge of the same pair. */
  function Partner(e: nat): nat
  {
    if e % 2 == 0 then e + 1 else e - 1
  }

  function Residual(x: FlowEdge): int
  {
    x.capacity - x.flow
  }

  /** The most an edge can carry: its capacity, or nothing when that is
      negative. */
  function Limit(c: int): nat
  {
    if c < 0 then 0 else c
  }

  function Min(a: int, b: int): int
  {
    if a <= b then a else b
  }

  /** Even length, and each edge runs opposite to its partner. */
  ghost predicate Paired(edges: seq<FlowEdge>)
  {
    && |edges| % 2 == 0
    && forall e {:trigger Partner(e)} :: 0 <= e < |edges| ==>
         edges[Partner(e)].from == edges[e].to && edges[Partner(e)].to == edges[e].from
  }

  /** Flow on an edge is the negation of the flow on its partner. */
  ghost predicate Antisymmetric(edges: seq<FlowEdge>)
  {
    && Paired(edges)
    && forall e {:trigger Partner(e)} :: 0 <= e < |edges| ==> edges[e].flow == -edges[Partner(e)].flow
  }

  /** No edge carries more than its capacity allows. */
  ghost predicate Feasible(edges: seq<FlowEdge>)
  {
    forall e :: 0 <= e < |edges| ==> edges[e].flow <= Limit(edges[e].capacity)
  }

  /** The same edges with possibly different flows. */
  ghost predicate SameShape(a: seq<FlowEdge>, b: seq<FlowEdge>)
  {
    && |a| == |b|
    && forall e :: 0 <= e < |a| ==> a[e].from == b[e].from && a[e].to == b[e].to && a[e].capacity == b[e].capacity
  }

  ghost predicate InRange(edges: seq<FlowEdge>, path: seq<int>)
  {
    forall i :: 0 <= i < |path| ==> 0 <= path[i] < |edges|
  }

  /** One step of the update loop of `maxFlow`: `f` more on edge `e`, `f`
      less on its partner. */
  function Push(edges: seq<FlowEdge>, e: nat, f: int): (r: seq<FlowEdge>)
    requires Paired(edges) && e < |edges|
    ensures SameShape(r, edges) && Paired(r)
    ensures r[e].flow == edges[e].flow + f && r[Partner(e)].flow == edges[Partner(e)].flow - f
    ensures forall x :: 0 <= x < |r| && x != e && x != Partner(e) ==> r[x] == edges[x]
  {
    var raised := edges[e := edges[e].(flow := edges[e].flow + f)];
    var p := Partner(e);
    raised[p := raised[p].(flow := raised[p].flow - f)]
  }

  /** The update loop of `maxFlow`: pushes `f` along the edges of `path` in
      order. */
  function Augment(edges: seq<FlowEdge>, path: seq<int>, f: int): (r: seq<FlowEdge>)
    requires Paired(edges) && InRange(edges, path)
    ensures SameShape(r, edges) && Paired(r)
    decreases |path|
  {
    if |path| == 0 then edges
    else Push(Augment(edges, path[..|path| - 1], f), path[|path| - 1], f)
  }

  /** The loop of `maxFlow` that finds the bottleneck: the smallest residual
      capacity on the path, starting from `Integer.MAX_VALUE`. */
  function Bottleneck(edges: seq<FlowEdge>, path: seq<int>): (r: int)
    requires InRange(edges, path)
    ensures r <= INF && forall i :: 0 <= i < |path| ==> r <= Residual(edges[path[i]])
    ensures r == INF || exists i :: 0 <= i < |path| && r == Residual(edges[path[i]])
    ensures (forall i :: 0 <= i < |path| ==> Residual(edges[path[i]]) > 0) ==> r > 0
  {
    if |path| == 0 then INF
    else
      var rest := Bottleneck(edges, path[1..]);
      assert forall i :: 1 <= i < |path| ==> path[i] == path[1..][i - 1];
      Min(Residual(edges[path[0]]), rest)
  }

  /** The vertex an edge leaves (`outgoing`) or enters. */
  function End(x: FlowEdge, outgoing: bool): int
  {
    if outgoing then x.from else x.to
  }

  /** The total flow on the edges leaving (`outgoing`) or entering `w`. */
  function FlowAt(edges: seq<FlowEdge>, w: int, outgoing: bool): int
  {
    if |edges| == 0 then 0
    else
      var x := edges[|edges| - 1];
      FlowAt(edges[..|edges| - 1], w, outgoing) + (if End(x, outgoing) == w then x.flow else 0)
  }

  /** The total of `Limit(capacity)` on the edges leaving or entering `w`. */
  function LimitAt(edges: seq<FlowEdge>, w: int, outgoing: bool): nat
  {
    if |edges| == 0 then 0
    else
      var x := edges[|edges| - 1];
      LimitAt(edges[..|edges| - 1], w, outgoing) + (if End(x, outgoing) == w then Limit(x.capacity) else 0)
  }

  /** Every vertex other than `source` and `sink` sends out as much as it
      receives. */
  ghost predicate Conserved(edges: seq<FlowEdge>, n: int, source: int, sink: int)
  {
    forall v :: 0 <= v < n && v != source && v != sink ==> FlowAt(edges, v, true) == 0
  }

  function Sign(outgoing: bool, f: int): int
  {
    if outgoing then f else -f
  }

  /** Changing the flow of one edge changes the sum at its end by the same
      amount and no other sum. */
  lemma {:induction false} FlowAtUpdate(edges: seq<FlowEdge>, x: int, a: int, w: int, outgoing: bool)
    requires 0 <= x < |edges|
    ensures FlowAt(edges[x := edges[x].(flow := a)], w, outgoing) ==
            FlowAt(edges, w, outgoing) + (if End(edges[x], outgoing) == w then a - edges[x].flow else 0)
  {
    var r := edges[x := edges[x].(flow := a)];
    var n := |edges| - 1;
    if x == n {
      assert r[..n] == edges[..n];
    } else {
      assert r[..n] == edges[..n][x := edges[x].(flow := a)];
      FlowAtUpdate(edges[..n], x, a, w, outgoing);
    }
  }

  /** A push moves `f` from one end of the edge to the other. */
  lemma PushShift(edges: seq<FlowEdge>, e: nat, f: int, w: int, outgoing: bool)
    requires Paired(edges) && e < |edges|
    ensures FlowAt(Push(edges, e, f), w, outgoing) == FlowAt(edges, w, outgoing)
              + (if edges[e].from == w then Sign(outgoing, f) else 0)
              - (if edges[e].to == w then Sign(outgoing, f) else 0)
  {
    var p := Partner(e);
    var mid := edges[e := edges[e].(flow := edges[e].flow + f)];
    FlowAtUpdate(edges, e, edges[e].flow + f, w, outgoing);
    FlowAtUpdate(mid, p, edges[p].flow - f, w, outgoing);
  }

  /** A path whose consecutive edges meet: edge `i` starts where edge
      `i + 1` ends (the loops of `maxFlow` walk from the sink back). */
  ghost predicate Walk(edges: seq<FlowEdge>, path: seq<int>)
  {
    && InRange(edges, path)
    && forall i :: 0 <= i < |path| - 1 ==> edges[path[i]].from == edges[path[i + 1]].to
  }

  /** Augmenting along a walk moves `f` from its first vertex to its last
      one; every vertex in between sends out what it receives. */
  lemma {:induction false} AugmentShift(edges: seq<FlowEdge>, path: seq<int>, f: int, w: int, outgoing: bool)
    requires Paired(edges) && Walk(edges, path) && |path| > 0
    ensures FlowAt(Augment(edges, path, f), w, outgoing) == FlowAt(edges, w, outgoing)
              + (if edges[path[|path| - 1]].from == w then Sign(outgoing, f) else 0)
              - (if edges[path[0]].to == w then Sign(outgoing, f) else 0)
  {
    var m := |path|;
    var prefix := path[..m - 1];
    var before := Augment(edges, prefix, f);
    PushShift(before, path[m - 1], f, w, outgoing);
    if m > 1 {
      assert prefix[0] == path[0] && prefix[m - 2] == path[m - 2];
      AugmentShift(edges, prefix, f, w, outgoing);
    }
  }

  /** A push keeps flows antisymmetric. */
  lemma PushAntisymmetric(edges: seq<FlowEdge>, e: nat, f: int)
    requires Antisymmetric(edges) && e < |edges|
    ensures Antisymmetric(Push(edges, e, f))
  {
    var r := Push(edges, e, f);
    forall x | 0 <= x < |r|
      ensures r[x].flow == -r[Partner(x)].flow
    {
      assert Partner(Partner(x)) == x;
      if x != e && x != Partner(e) {
        assert Partner(x) != e && Partner(x) != Partner(e);
      }
    }
  }

  /** Augmenting keeps flows antisymmetric. */
  lemma {:induction false} AugmentAntisymmetric(edges: seq<FlowEdge>, path: seq<int>, f: int)
    requires Antisymmetric(edges) && InRange(edges, path)
    ensures Antisymmetric(Augment(edges, path, f))
  {
    if |path| > 0 {
      AugmentAntisymmetric(edges, path[..|path| - 1], f);
      PushAntisymmetric(Augment(edges, path[..|path| - 1], f), path[|path| - 1], f);
    }
  }

  /** An edge off the path ends with no more flow than it had. */
  lemma {:induction false} AugmentBelow(edges: seq<FlowEdge>, path: seq<int>, f: int, x: int)
    requires Paired(edges) && InRange(edges, path) && f >= 0 && 0 <= x < |edges| && x !in path
    ensures Augment(edges, path, f)[x].flow <= edges[x].flow
  {
    if |path| > 0 {
      var prefix := path[..|path| - 1];
      assert x !in prefix by {
        assert forall i :: 0 <= i < |prefix| ==> prefix[i] == path[i];
      }
      AugmentBelow(edges, prefix, f, x);
    }
  }

  /** Pushing at most the residual capacity of each edge of a path that uses
      no edge twice keeps every flow within its capacity. */
  lemma {:induction false} AugmentFeasible(edges: seq<FlowEdge>, path: seq<int>, f: int)
    requires Paired(edges) && Feasible(edges) && InRange(edges, path) && f >= 0
    requires forall i, j :: 0 <= i < j < |path| ==> path[i] != path[j]
    requires forall i :: 0 <= i < |path| ==> f <= Residual(edges[path[i]])
    ensures Feasible(Augment(edges, path, f))
  {
    if |path| > 0 {
      var m := |path|;
      var prefix := path[..m - 1];
      var e := path[m - 1];
      AugmentFeasible(edges, prefix, f);
      assert e !in prefix by {
        forall i | 0 <= i < |prefix|
          ensures prefix[i] != e
        {
          assert prefix[i] == path[i];
        }
      }
      AugmentBelow(edges, prefix, f, e);
    }
  }

  /** A feasible flow sends out of (or into) a vertex at most the capacity
      there. */
  lemma {:induction false} FlowWithinLimit(edges: seq<FlowEdge>, w: int, outgoing: bool)
    requires Feasible(edges)
    ensures FlowAt(edges, w, outgoing) <= LimitAt(edges, w, outgoing)
  {
    if |edges| > 0 {
      FlowWithinLimit(edges[..|edges| - 1], w, outgoing);
    }
  }

  /** Two distinct edges leaving `w` whose flows fall short of their
      capacities lower the bound of `FlowWithinLimit` by the shortfall. */
  lemma {:induction false} FlowBelowLimit(edges: seq<FlowEdge>, w: int, a: int, b: int)
    requires Feasible(edges) && 0 <= a < |edges| && 0 <= b < |edges| && a != b
    requires edges[a].from == w && edges[b].from == w
    ensures FlowAt(edges, w, true) + (Limit(edges[a].capacity) - edges[a].flow) + (Limit(edges[b].capacity) - edges[b].flow)
            <= LimitAt(edges, w, true)
  {
    var n := |edges| - 1;
    var prefix := edges[..n];
    if a == n || b == n {
      var c := if a == n then b else a;
      assert prefix[c] == edges[c];
      OneBelowLimit(prefix, w, c);
    } else {
      assert prefix[a] == edges[a] && prefix[b] == edges[b];
      FlowBelowLimit(prefix, w, a, b);
    }
  }

  /** `FlowBelowLimit` for one edge. */
  lemma {:induction false} OneBelowLimit(edges: seq<FlowEdge>, w: int, a: int)
    requires Feasible(edges) && 0 <= a < |edges| && edges[a].from == w
    ensures FlowAt(edges, w, true) + (Limit(edges[a].capacity) - edges[a].flow) <= LimitAt(edges, w, true)
  {
    var n := |edges| - 1;
    var prefix := edges[..n];
    if a == n {
      FlowWithinLimit(prefix, w, true);
    } else {
      assert prefix[a] == edges[a];
      OneBelowLimit(prefix, w, a);
    }
  }

  /** Two distinct edges into a vertex that passes on everything it receives
      and can send at most one unit, whose partners have no capacity, carry
      at most one unit between them. */
  lemma IntoUnitVertex(edges: seq<FlowEdge>, v: int, e1: nat, e2: nat)
    requires Antisymmetric(edges) && Feasible(edges)
    requires FlowAt(edges, v, true) == 0 && LimitAt(edges, v, true) <= 1
    requires e1 < |edges| && e2 < |edges| && e1 != e2 && edges[e1].to == v && edges[e2].to == v
    requires Partner(e1) < |edges| && Partner(e2) < |edges|
    requires edges[Partner(e1)].capacity <= 0 && edges[Partner(e2)].capacity <= 0
    ensures edges[e1].flow + edges[e2].flow <= 1
  {
    var a1 := Partner(e1);
    var a2 := Partner(e2);
    assert Partner(a1) == e1 && Partner(a2) == e2;
    FlowBelowLimit(edges, v, a1, a2);
  }

  /** The sums of limits depend on the shape only. */
  lemma {:induction false} LimitAtShape(a: seq<FlowEdge>, b: seq<FlowEdge>, w: int, outgoing: bool)
    requires SameShape(a, b)
    ensures LimitAt(a, w, outgoing) == LimitAt(b, w, outgoing)
  {
    if |a| > 0 {
      LimitAtShape(a[..|a| - 1], b[..|b| - 1], w, outgoing);
    }
  }

  lemma {:induction false} LimitAtConcat(a: seq<FlowEdge>, b: seq<FlowEdge>, w: int, outgoing: bool)
    ensures LimitAt(a + b, w, outgoing) == LimitAt(a, w, outgoing) + LimitAt(b, w, outgoing)
  {
    if |b| > 0 {
      assert (a + b)[..|a + b| - 1] == a + b[..|b| - 1];
      LimitAtConcat(a, b[..|b| - 1], w, outgoing);
    } else {
      assert a + b == a;
    }
  }

  /** No edge at `w` with a positive capacity: the limit there is 0. */
  lemma {:induction false} LimitAtNone(edges: seq<FlowEdge>, w: int, outgoing: bool)
    requires forall x :: x in edges && End(x, outgoing) == w ==> x.capacity <= 0
    ensures LimitAt(edges, w, outgoing) == 0
  {
    if |edges| > 0 {
      assert edges[|edges| - 1] in edges;
      LimitAtNone(edges[..|edges| - 1], w, outgoing);
    }
  }

  /** With no flow anywhere, every sum is 0. */
  lemma {:induction false} FlowAtZero(edges: seq<FlowEdge>, w: int, outgoing: bool)
    requires forall x :: x in edges ==> x.flow == 0
    ensures FlowAt(edges, w, outgoing) == 0
  {
    if |edges| > 0 {
      assert edges[|edges| - 1] in edges;
      FlowAtZero(edges[..|edges| - 1], w, outgoing);
    }
  }

  /** The parent links a breadth-first search leaves: every reached vertex
      other than `source` has, in `par`, an edge with spare capacity leading
      to it from a vertex reached earlier (smaller `rank`). */
  ghost predicate Tree(edges: seq<FlowEdge>, par: seq<int>, reached: seq<bool>, rank: seq<nat>, source: int)
  {
    && |par| == |reached| && |rank| == |reached| && 0 <= source < |reached| && reached[source]
    && forall v :: 0 <= v < |reached| && reached[v] && v != source ==>
         && 0 <= par[v] < |edges| && edges[par[v]].to == v && Residual(edges[par[v]]) > 0
         && 0 <= edges[par[v]].from < |reached| && reached[edges[par[v]].from]
         && rank[edges[par[v]].from] < rank[v]
  }

  /** Reaching one more vertex `w` through edge `e` keeps the links. */
  lemma TreeExtend(edges: seq<FlowEdge>, par: seq<int>, reached: seq<bool>, rank: seq<nat>, source: int, w: int, e: int, c: nat)
    requires Tree(edges, par, reached, rank, source)
    requires 0 <= w < |reached| && !reached[w]
    requires 0 <= e < |edges| && edges[e].to == w && Residual(edges[e]) > 0
    requires 0 <= edges[e].from < |reached| && reached[edges[e].from] && rank[edges[e].from] < c
    ensures Tree(edges, par[w := e], reached[w := true], rank[w := c], source)
  {
  }

  /** The edges the loops of `maxFlow` follow from `v` back to `source`
      through the parent links. */
  ghost function Chain(edges: seq<FlowEdge>, par: seq<int>, reached: seq<bool>, rank: seq<nat>, source: int, v: int): (path: seq<int>)
    requires Tree(edges, par, reached, rank, source) && 0 <= v < |reached| && reached[v]
    ensures InRange(edges, path) && (|path| == 0 <==> v == source)
    decreases rank[v]
  {
    if v == source then []
    else [par[v]] + Chain(edges, par, reached, rank, source, edges[par[v]].from)
  }

  /** The chain is a walk from the source to `v` with spare capacity on every
      edge, whose vertices after the source have strictly falling ranks. */
  lemma {:induction false} ChainFacts(edges: seq<FlowEdge>, par: seq<int>, reached: seq<bool>, rank: seq<nat>, source: int, v: int)
    requires Tree(edges, par, reached, rank, source) && 0 <= v < |reached| && reached[v]
    ensures var path := Chain(edges, par, reached, rank, source, v);
            && Walk(edges, path)
            && (|path| > 0 ==> edges[path[0]].to == v && edges[path[|path| - 1]].from == source)
            && (forall i :: 0 <= i < |path| ==>
                  && Residual(edges[path[i]]) > 0 && 0 <= edges[path[i]].to < |reached|
                  && rank[edges[path[i]].to] <= rank[v])
            && (forall i, j :: 0 <= i < j < |path| ==> rank[edges[path[j]].to] < rank[edges[path[i]].to])
    decreases rank[v]
  {
    if v != source {
      var u := edges[par[v]].from;
      var rest := Chain(edges, par, reached, rank, source, u);
      ChainFacts(edges, par, reached, rank, source, u);
      var path := [par[v]] + rest;
      assert path == Chain(edges, par, reached, rank, source, v);
      assert forall i :: 1 <= i < |path| ==> path[i] == rest[i - 1];
      if |rest| > 0 {
        assert path[|path| - 1] == rest[|rest| - 1];
      }
    }
  }

  /** No path from `source` to `sink` whose every edge has spare capacity. */
  ghost predicate NoAugmentingPath(edges: seq<FlowEdge>, source: int, sink: int)
  {
    forall path :: Walk(edges, path) && |path| > 0 && edges[path[0]].to == sink && edges[path[|path| - 1]].from == source
      ==> exists i :: 0 <= i < |path| && Residual(edges[path[i]]) <= 0
  }

  /** A set of vertices that no edge with spare capacity leaves. */
  ghost predicate Closed(edges: seq<FlowEdge>, reached: seq<bool>)
  {
    forall e :: 0 <= e < |edges| && 0 <= edges[e].from < |reached| && reached[edges[e].from] && Residual(edges[e]) > 0
      ==> 0 <= edges[e].to < |reached| && reached[edges[e].to]
  }

  /** A closed set holding the source but not the sink blocks every
      augmenting path. */
  lemma ClosedBlocks(edges: seq<FlowEdge>, reached: seq<bool>, source: int, sink: int)
    requires Closed(edges, reached) && 0 <= source < |reached| && reached[source]
    requires 0 <= sink < |reached| && !reached[sink]
    ensures NoAugmentingPath(edges, source, sink)
  {
    forall path | Walk(edges, path) && |path| > 0 && edges[path[0]].to == sink && edges[path[|path| - 1]].from == source
      ensures exists i :: 0 <= i < |path| && Residual(edges[path[i]]) <= 0
    {
      if forall i :: 0 <= i < |path| ==> Residual(edges[path[i]]) > 0 {
        ReachedAlong(edges, reached, path, source, 0);
      }
    }
  }

  /** Along a path from the source with spare capacity everywhere, a closed
      set holding the source holds every vertex. */
  lemma {:induction false} ReachedAlong(edges: seq<FlowEdge>, reached: seq<bool>, path: seq<int>, source: int, i: nat)
    requires Closed(edges, reached) && 0 <= source < |reached| && reached[source]
    requires Walk(edges, path) && i < |path| && edges[path[|path| - 1]].from == source
    requires forall j :: 0 <= j < |path| ==> Residual(edges[path[j]]) > 0
    ensures 0 <= edges[path[i]].to < |reached| && reached[edges[path[i]].to]
    decreases |path| - i
  {
    if i < |path| - 1 {
      ReachedAlong(edges, reached, path, source, i + 1);
    }
  }

  /** One augmentation by its bottleneck along a path from `source` to
      `sink` with spare capacity on each of its distinct edges: the flow stays
      antisymmetric and feasible, the source sends `f` more, the sink
      receives `f` more, and every other vertex is unchanged. */
  lemma AugmentPath(edges: seq<FlowEdge>, path: seq<int>, source: int, sink: int, f: int)
    requires Antisymmetric(edges) && Feasible(edges) && Walk(edges, path) && |path| > 0
    requires edges[path[0]].to == sink && edges[path[|path| - 1]].from == source && sink != source
    requires forall i, j :: 0 <= i < j < |path| ==> path[i] != path[j]
    requires forall i :: 0 <= i < |path| ==> Residual(edges[path[i]]) > 0
    requires f == Bottleneck(edges, path)
    ensures var r := Augment(edges, path, f);
            && Antisymmetric(r) && Feasible(r) && f >= 1
            && FlowAt(r, source, true) == FlowAt(edges, source, true) + f
            && FlowAt(r, sink, false) == FlowAt(edges, sink, false) + f
            && forall w :: w != source && w != sink ==> FlowAt(r, w, true) == FlowAt(edges, w, true)
  {
    AugmentAntisymmetric(edges, path, f);
    AugmentFeasible(edges, path, f);
    AugmentShift(edges, path, f, source, true);
    AugmentShift(edges, path, f, sink, false);
    forall w | w != source && w != sink
      ensures FlowAt(Augment(edges, path, f), w, true) == FlowAt(edges, w, true)
    {
      AugmentShift(edges, path, f, w, true);
    }
  }

  /** The parent chain of a reached sink is such a path. */
  lemma ChainAugments(edges: seq<FlowEdge>, par: seq<int>, reached: seq<bool>, rank: seq<nat>, source: int, sink: int)
    requires Tree(edges, par, reached, rank, source)
    requires 0 <= sink < |reached| && reached[sink] && sink != source
    ensures var path := Chain(edges, par, reached, rank, source, sink);
            && Walk(edges, path) && |path| > 0
            && edges[path[0]].to == sink && edges[path[|path| - 1]].from == source
            && (forall i, j :: 0 <= i < j < |path| ==> path[i] != path[j])
            && (forall i :: 0 <= i < |path| ==> Residual(edges[path[i]]) > 0)
  {
    var path := Chain(edges, par, reached, rank, source, sink);
    ChainFacts(edges, par, reached, rank, source, sink);
    forall i, j | 0 <= i < j < |path|
      ensures path[i] != path[j]
    {
      assert rank[edges[path[j]].to] < rank[edges[path[i]].to];
    }
  }

  /** Having the same shape is transitive. */
  lemma ShapeTrans(a: seq<FlowEdge>, b: seq<FlowEdge>, c: seq<FlowEdge>)
    requires SameShape(a, b) && SameShape(b, c)
    ensures SameShape(a, c)
  {
  }

  /** Augmenting along a path is a push on its first edge followed by
      augmenting along the rest. */
  lemma {:induction false} AugmentCons(edges: seq<FlowEdge>, e: nat, rest: seq<int>, f: int)
    requires Paired(edges) && e < |edges| && InRange(edges, rest)
    ensures InRange(edges, [e] + rest)
    ensures Augment(edges, [e] + rest, f) == Augment(Push(edges, e, f), rest, f)
    decreases |rest|
  {
    var q := [e] + rest;
    if |rest| == 0 {
      assert q[..0] == [];
    } else {
      var shorter := rest[..|rest| - 1];
      assert q[..|q| - 1] == [e] + shorter;
      AugmentCons(edges, e, shorter, f);
    }
  }

  /** One step of the update loop of `maxFlow`, walking the parent links
      from `v`: pushing along the link into `v` leaves the rest of the chain
      to augment along, from the link's start. */
  lemma AugmentStep(orig: seq<FlowEdge>, edges: seq<FlowEdge>, par: seq<int>, reached: seq<bool>, rank: seq<nat>,
                    source: int, v: int, f: int, target: seq<FlowEdge>)
    requires Tree(orig, par, reached, rank, source) && 0 <= v < |reached| && reached[v] && v != source
    requires Paired(edges) && SameShape(edges, orig)
    requires InRange(edges, Chain(orig, par, reached, rank, source, v))
    requires Augment(edges, Chain(orig, par, reached, rank, source, v), f) == target
    ensures 0 <= par[v] < |edges|
    ensures var u := orig[par[v]].from;
            var next := Push(edges, par[v], f);
            && Paired(next) && SameShape(next, orig) && next[par[v]].from == u
            && 0 <= u < |reached| && reached[u] && rank[u] < rank[v]
            && InRange(next, Chain(orig, par, reached, rank, source, u))
            && Augment(next, Chain(orig, par, reached, rank, source, u), f) == target
  {
    var e := par[v];
    var rest := Chain(orig, par, reached, rank, source, orig[e].from);
    AugmentCons(edges, e, rest, f);
    ShapeTrans(Push(edges, e, f), edges, orig);
  }
}

=== FILE: graph.dfy ===
/** `Graph`: the weighted graph of the infrastructure functions, one list of
    entries per vertex, with the undirected insert used for Prim's
    algorithm, the directed insert used for Dijkstra's, the first-match
    weight lookup, and both algorithms. */
module Graphs {
  import opened Common
  import opened Adjacency
  import opened ShortestPaths
  import opened Mst

  /** The search loop of `getWeight` and `addEdgeDijkstra`: the index of the
      first entry leading to `dest`, or -1. */
  method FindFirst(list: seq<Edge>, dest: int) returns (k: int)
    ensures k == FirstMatch(list, dest)
  {
    var i := 0;
    while i < |list|
      invariant 0 <= i <= |list|
      invariant forall j :: 0 <= j < i ==> list[j].dest != dest
    {
      if list[i].dest == dest {
        assert FirstMatch(list, dest) == i;
        return i;
      }
      i := i + 1;
    }
    return -1;
  }

  /** The adjacency lists after `addEdge(src, dest, weight)`: `(dest, weight)`
      appended to the list of `src`, then `(src, weight)` to the list of
      `dest` (so a loop `src == dest` gets both entries). */
  function WithUndirected(adj: seq<seq<Edge>>, src: int, dest: int, weight: int): (r: seq<seq<Edge>>)
    requires 0 <= src < |adj| && 0 <= dest < |adj|
    ensures |r| == |adj|
    ensures forall x :: 0 <= x < |adj| && x != src && x != dest ==> r[x] == adj[x]
    ensures src != dest ==> r[src] == adj[src] + [Edge(dest, weight)] && r[dest] == adj[dest] + [Edge(src, weight)]
    ensures src == dest ==> r[src] == adj[src] + [Edge(dest, weight), Edge(src, weight)]
  {
    var a := adj[src := adj[src] + [Edge(dest, weight)]];
    a[dest := a[dest] + [Edge(src, weight)]]
  }

  /** The list of `src` after `addEdgeDijkstra(src, dest, weight)`: a
      non-positive weight is dropped; a new destination is appended; an
      existing one gets a second entry only if the new weight is smaller than
      that of its first entry, which stays in place. */
  function WithDirected(list: seq<Edge>, dest: int, weight: int): (r: seq<Edge>)
    ensures r == list || (weight > 0 && r == list + [Edge(dest, weight)])
    ensures weight > 0 && (forall j :: 0 <= j < |list| ==> list[j].dest != dest) ==> r == list + [Edge(dest, weight)]
    ensures forall k :: 0 <= k < |list| && list[k].dest == dest && (forall j :: 0 <= j < k ==> list[j].dest != dest) ==>
              (r == list <==> weight <= 0 || weight >= list[k].weight)
  {
    if weight <= 0 then list
    else
      var k := FirstMatch(list, dest);
      if k == -1 || weight < list[k].weight then list + [Edge(dest, weight)] else list
  }

  /** Undirected inserts keep the lists mirrored: for every pair of vertices
      and weight, `u` has as many entries `(v, w)` as `v` has entries
      `(u, w)`. */
  ghost predicate Symmetric(adj: seq<seq<Edge>>) {
    forall u, v, w :: 0 <= u < |adj| && 0 <= v < |adj| ==>
      multiset(adj[u])[Edge(v, w)] == multiset(adj[v])[Edge(u, w)]
  }

  /** `addEdge` keeps the graph symmetric. */
  lemma UndirectedKeepsSymmetric(adj: seq<seq<Edge>>, src: int, dest: int, weight: int)
    requires 0 <= src < |adj| && 0 <= dest < |adj| && Symmetric(adj)
    ensures Symmetric(WithUndirected(adj, src, dest, weight))
  {
    var r := WithUndirected(adj, src, dest, weight);
    forall u, v, w | 0 <= u < |adj| && 0 <= v < |adj|
      ensures multiset(r[u])[Edge(v, w)] == multiset(r[v])[Edge(u, w)]
    {
      UndirectedCount(adj, src, dest, weight, u, Edge(v, w));
      UndirectedCount(adj, src, dest, weight, v, Edge(u, w));
      assert multiset(adj[u])[Edge(v, w)] == multiset(adj[v])[Edge(u, w)];
    }
  }

  /** How often an entry occurs in a list after `addEdge`. */
  lemma UndirectedCount(adj: seq<seq<Edge>>, src: int, dest: int, weight: int, x: int, e: Edge)
    requires 0 <= src < |adj| && 0 <= dest < |adj| && 0 <= x < |adj|
    ensures multiset(WithUndirected(adj, src, dest, weight)[x])[e] ==
              multiset(adj[x])[e] + (if x == src && e == Edge(dest, weight) then 1 else 0)
                                  + (if x == dest && e == Edge(src, weight) then 1 else 0)
  {
    var r := WithUndirected(adj, src, dest, weight);
    if x == src && x == dest {
      assert r[x] == adj[x] + [Edge(dest, weight)] + [Edge(src, weight)];
    } else if x == src {
      assert r[x] == adj[x] + [Edge(dest, weight)];
    } else if x == dest {
      assert r[x] == adj[x] + [Edge(src, weight)];
    }
  }

  /** After `addEdge` the lookup from `src` to `dest` reports the new weight
      exactly when no entry for that pair existed before; an existing first
      entry keeps being the one reported. */
  lemma UndirectedLookup(adj: seq<seq<Edge>>, src: int, dest: int, weight: int)
    requires 0 <= src < |adj| && 0 <= dest < |adj|
    ensures var r := WithUndirected(adj, src, dest, weight);
            && (FirstMatch(adj[src], dest) == -1 ==> Weight(r, src, dest) == weight)
            && (FirstMatch(adj[src], dest) != -1 ==> Weight(r, src, dest) == Weight(adj, src, dest))
  {
    var r := WithUndirected(adj, src, dest, weight);
    FirstMatchAppend(adj[src], if src == dest then [Edge(dest, weight), Edge(src, weight)] else [Edge(dest, weight)], dest);
  }

  /** Appending entries never changes an existing first match, and a first
      match among the appended entries only counts when the old list has
      none. */
  lemma {:induction false} FirstMatchAppend(list: seq<Edge>, extra: seq<Edge>, dest: int)
    ensures FirstMatch(list, dest) != -1 ==> FirstMatch(list + extra, dest) == FirstMatch(list, dest)
    ensures FirstMatch(list, dest) == -1 && FirstMatch(extra, dest) != -1 ==>
              FirstMatch(list + extra, dest) == |list| + FirstMatch(extra, dest)
  {
    var k := FirstMatch(list + extra, dest);
    if FirstMatch(list, dest) != -1 {
      var f := FirstMatch(list, dest);
      assert (list + extra)[f] == list[f];
    } else if FirstMatch(extra, dest) != -1 {
      var f := FirstMatch(extra, dest);
      assert (list + extra)[|list| + f] == extra[f];
    }
  }

  /** The directed insert adds only entries of positive weight, so it keeps
      the weights non-negative. */
  lemma DirectedKeepsNonNegative(adj: seq<seq<Edge>>, src: int, dest: int, weight: int)
    requires 0 <= src < |adj| && NonNegative(adj)
    ensures NonNegative(adj[src := WithDirected(adj[src], dest, weight)])
  {
  }

  /** After the directed insert with a positive weight some entry from `src`
      to `dest` weighs at most the new weight (the one Dijkstra's algorithm
      will use), while the first-match lookup still reports the weight of
      the first entry whenever one existed: the javadoc's "the weight is
      updated" holds for the algorithm but not for `getWeight`. */
  lemma DirectedLookup(list: seq<Edge>, dest: int, weight: int)
    requires weight > 0
    ensures var r := WithDirected(list, dest, weight);
            && (exists j :: 0 <= j < |r| && r[j].dest == dest && r[j].weight <= weight)
            && (FirstMatch(list, dest) != -1 ==> FirstMatch(r, dest) == FirstMatch(list, dest))
            && (FirstMatch(list, dest) == -1 ==> r[FirstMatch(r, dest)].weight == weight)
  {
    var r := WithDirected(list, dest, weight);
    var k := FirstMatch(list, dest);
    FirstMatchAppend(list, [Edge(dest, weight)], dest);
    if k != -1 && weight >= list[k].weight {
      assert r[k].dest == dest && r[k].weight <= weight;
    } else {
      assert r[|list|].dest == dest && r[|list|].weight <= weight;
    }
  }

  class Graph {
    const numberOfNodes: nat
    var adj: seq<seq<Edge>>

    ghost predicate Valid()
      reads this
    {
      |adj| == numberOfNodes && WellFormed(adj)
    }

    /** `Graph(V, names)`: `V` vertices, each with an empty list. */
    constructor (V: nat)
      ensures Valid() && numberOfNodes == V
      ensures |adj| == V && forall x :: 0 <= x < V ==> adj[x] == []
      ensures Symmetric(adj) && NonNegative(adj)
    {
      var lists: seq<seq<Edge>> := [];
      var i := 0;
      while i < V
        invariant 0 <= i <= V && |lists| == i
        invariant forall x :: 0 <= x < i ==> lists[x] == []
      {
        lists := lists + [[]];
        i := i + 1;
      }
      numberOfNodes := V;
      adj := lists;
    }

    /** `addEdge`: the undirected insert. */
    method AddEdge(src: int, dest: int, weight: int)
      requires Valid() && 0 <= src < numberOfNodes && 0 <= dest < numberOfNodes
      modifies this
      ensures Valid() && adj == WithUndirected(old(adj), src, dest, weight)
    {
      adj := adj[src := adj[src] + [Edge(dest, weight)]];
      adj := adj[dest := adj[dest] + [Edge(src, weight)]];
    }

    /** `addEdgeDijkstra`: the directed insert; only the list of `src` can
        change. */
    method AddEdgeDijkstra(src: int, dest: int, weight: int)
      requires Valid() && 0 <= src < numberOfNodes && 0 <= dest < numberOfNodes
      modifies this
      ensures Valid() && adj == old(adj)[src := WithDirected(old(adj)[src], dest, weight)]
    {
      if weight > 0 {
        var edgeExists := false;
        var srcList := adj[src];
        var i := FindFirst(srcList, dest);
        if i != -1 {
          if weight < srcList[i].weight {
            adj := adj[src := srcList + [Edge(dest, weight)]];
          }
          edgeExists := true;
        }
        if !edgeExists {
          adj := adj[src := adj[src] + [Edge(dest, weight)]];
        }
      }
    }

    /** `getWeight`: the weight of the first entry from `src` to `dest`, or 0
        when there is none. */
    method GetWeight(src: int, dest: int) returns (w: int)
      requires Valid() && 0 <= src < numberOfNodes
      ensures w == Weight(adj, src, dest)
      ensures (forall j :: 0 <= j < |adj[src]| ==> adj[src][j].dest != dest) ==> w == 0
      ensures forall k :: 0 <= k < |adj[src]| && adj[src][k].dest == dest && (forall j :: 0 <= j < k ==> adj[src][j].dest != dest) ==>
                w == adj[src][k].weight
    {
      var adjacentNodes := adj[src];
      var j := FindFirst(adjacentNodes, dest);
      if j != -1 {
        return adjacentNodes[j].weight;
      }
      return 0;
    }

    /** `primMST(startNode)`: Prim's algorithm, then the total weight that
        `printMST` reports for the tree it found. */
    method PrimMST(startNode: int) returns (parent: seq<int>, totalWeight: int, key: seq<int>, ghost rank: seq<nat>, ghost order: seq<int>)
      requires Valid() && 0 <= startNode < numberOfNodes
      ensures PrimTree(adj, startNode, key, parent, rank, order)
      ensures Forest(parent, rank) && totalWeight == SubtreeWeight(adj, parent, rank, startNode)
      ensures forall x :: 0 <= x < numberOfNodes ==> (InSubtree(parent, rank, startNode, x) <==> Reaches(adj, startNode, x))
      ensures totalWeight == EdgeSum(adj, parent, rank, startNode, 0)
    {
      key, parent, rank, order := Prim(adj, startNode);
      totalWeight := PrintMST(parent, startNode, rank);
    }

    /** `printMST` without the printing: the total of the walk over the tree
        below `startNode`, from a fresh all-false `visited` array. */
    method PrintMST(parent: seq<int>, startNode: int, ghost rank: seq<nat>) returns (totalWeight: int)
      requires Valid() && |parent| == numberOfNodes && Forest(parent, rank) && 0 <= startNode < numberOfNodes
      ensures totalWeight == SubtreeWeight(adj, parent, rank, startNode)
      ensures totalWeight == EdgeSum(adj, parent, rank, startNode, 0)
    {
      var visited := new bool[numberOfNodes](_ => false);
      totalWeight := 0;
      totalWeight := PrintMSTRecursive(startNode, parent, visited, totalWeight, rank);
      SubtreeIsEdgeSum(adj, parent, rank, startNode);
    }

    /** `printMSTRecursive`: marks `node` visited, then for each child `i` in
        increasing order adds `getWeight(node, i)` and recurses. Every vertex
        below `node` must be unvisited on entry; on exit exactly those
        vertices have been marked, and the total has grown by the weight of
        the subtree. */
    method PrintMSTRecursive(node: int, parent: seq<int>, visited: array<bool>, totalWeight: int, ghost rank: seq<nat>)
      returns (total: int)
      requires Valid() && |parent| == numberOfNodes && visited.Length == numberOfNodes
      requires Forest(parent, rank) && 0 <= node < numberOfNodes
      requires forall x :: 0 <= x < numberOfNodes && InSubtree(parent, rank, node, x) ==> !visited[x]
      modifies visited
      ensures forall x :: 0 <= x < numberOfNodes ==> visited[x] == (old(visited[x]) || InSubtree(parent, rank, node, x))
      ensures total == totalWeight + SubtreeWeight(adj, parent, rank, node)
      decreases numberOfNodes - rank[node]
    {
      var n := numberOfNodes;
      visited[node] := true;
      total := totalWeight;
      var i := 0;
      while i < n
        invariant 0 <= i <= n
        invariant forall x :: 0 <= x < n ==>
                    visited[x] == (old(visited[x]) || x == node ||
                                   (InSubtree(parent, rank, node, x) && x != node && ChildOnPath(parent, rank, node, x) < i))
        invariant total + ChildrenWeight(adj, parent, rank, node, i) == totalWeight + SubtreeWeight(adj, parent, rank, node)
      {
        if parent[i] == node && !visited[i] {
          var weight := GetWeight(node, i);
          total := total + weight;
          forall x | 0 <= x < n && InSubtree(parent, rank, i, x)
            ensures !visited[x]
          {
            SubtreeOfChild(parent, rank, node, i, x);
          }
          ghost var before := visited[..];
          total := PrintMSTRecursive(i, parent, visited, total, rank);
          forall x | 0 <= x < n
            ensures visited[x] == (old(visited[x]) || x == node ||
                                   (InSubtree(parent, rank, node, x) && x != node && ChildOnPath(parent, rank, node, x) < i + 1))
          {
            SubtreeOfChild(parent, rank, node, i, x);
          }
        } else if parent[i] == node {
          SubtreeOfChild(parent, rank, node, i, i);
          assert false;
        } else {
          forall x | 0 <= x < n && InSubtree(parent, rank, node, x) && x != node
            ensures ChildOnPath(parent, rank, node, x) != i
          {
          }
        }
        i := i + 1;
      }
    }

    /** `dijkstra(startNode)` without the printing. */
    method Dijkstra(startNode: int) returns (distances: seq<int>, parent: seq<int>, ghost rank: seq<nat>)
      requires Valid() && 0 <= startNode < numberOfNodes
      ensures ShortestPathTree(adj, startNode, distances, parent, rank)
    {
      distances, parent, rank := ShortestPaths.Dijkstra(adj, startNode);
    }
  }
}

=== FILE: linked_list.dfy ===
/** `list.LinkedList`: a singly linked list with only a `head` pointer;
    `add` walks to the last node. */
module LinkedLists {
  import opened Common

  class Node<T> {
    var data: T
    var next: Node?<T>

    constructor (data: T)
      ensures this.data == data && next == null
    {
      this.data := data;
      next := null;
    }
  }

  /** The index of the first occurrence of `x` in `s`, or -1. */
  function IndexOf<T(==)>(s: seq<T>, x: T): (p: int)
    ensures -1 <= p < |s|
    ensures p == -1 <==> x !in s
    ensures p >= 0 ==> s[p] == x && x !in s[..p]
  {
    if |s| == 0 then -1
    else if s[0] == x then 0
    else
      var p := IndexOf(s[1..], x);
      assert s[1..][..if p < 0 then 0 else p] == s[..if p < 0 then 1 else p + 1][1..];
      if p == -1 then -1 else p + 1
  }

  class LinkedList<T(==)> {
    var head: Node?<T>
    var size: nat
    /** The nodes reachable from `head`, in link order. */
    ghost var nodes: seq<Node<T>>
    /** The elements, in list order. */
    ghost var Contents: seq<T>
    ghost var Repr: set<object>

    ghost predicate Valid()
      reads this, Repr
    {
      && this in Repr
      && (forall i :: 0 <= i < |nodes| ==> nodes[i] in Repr)
      && size == |nodes| == |Contents|
      && (forall i :: 0 <= i < |nodes| ==> nodes[i].data == Contents[i])
      && (forall i :: 0 <= i < |nodes| - 1 ==> nodes[i].next == nodes[i + 1])
      && (forall i, j :: 0 <= i < j < |nodes| ==> nodes[i] != nodes[j])
      && (if nodes == [] then head == null else head == nodes[0] && nodes[|nodes| - 1].next == null)
    }

    /** A new list: no nodes. */
    constructor ()
      ensures Valid() && fresh(Repr) && Contents == []
    {
      head := null;
      size := 0;
      nodes := [];
      Contents := [];
      Repr := {this};
    }

    /** `add`: walks from `head` to the node whose `next` is `null` and links
        the new node there, or makes it `head` in an empty list. The node is
        allocated after the walk here; nothing observes the difference. */
    method Add(element: T)
      requires Valid()
      modifies Repr
      ensures Valid() && fresh(Repr - old(Repr))
      ensures Contents == old(Contents) + [element]
    {
      var newNode: Node<T>;
      if head == null {
        newNode := new Node(element);
        head := newNode;
      } else {
        var current := head;
        ghost var i := 0;
        while current.next != null
          invariant 0 <= i < |nodes| && current == nodes[i]
          invariant current.next == if i + 1 < |nodes| then nodes[i + 1] else null
          decreases |nodes| - i
        {
          current := current.next;
          i := i + 1;
        }
        newNode := new Node(element);
        current.next := newNode;
      }
      size := size + 1;
      nodes := nodes + [newNode];
      Contents := Contents + [element];
      Repr := Repr + {newNode};
    }

    /** `get`: follows `next` `index` times from `head`;
        `IndexOutOfBoundsException` outside `[0, size)`. */
    method Get(index: int) returns (r: Result<T>)
      requires Valid()
      ensures 0 <= index < |Contents| ==> r == Ok(Contents[index])
      ensures !(0 <= index < |Contents|) ==> r == Err(IndexOutOfRange)
    {
      if index < 0 || index >= size {
        return Err(IndexOutOfRange);
      }
      var current := head;
      var i := 0;
      while i < index
        invariant 0 <= i <= index && current == nodes[i]
      {
        current := current.next;
        i := i + 1;
      }
      r := Ok(current.data);
    }

    /** `remove(index)`: unlinks the node at `index`;
        `IndexOutOfBoundsException` outside `[0, size)`. */
    method Remove(index: int) returns (outcome: Outcome)
      requires Valid()
      modifies Repr
      ensures Valid() && Repr == old(Repr)
      ensures !(0 <= index < old(|Contents|)) ==> outcome == Fail(IndexOutOfRange) && Contents == old(Contents)
      ensures 0 <= index < old(|Contents|) ==>
                outcome == Pass && Contents == old(Contents)[..index] + old(Contents)[index + 1..]
    {
      if index < 0 || index >= size {
        return Fail(IndexOutOfRange);
      }
      if index == 0 {
        UnlinkHead();
      } else {
        var current := head;
        var i := 0;
        while i < index - 1
          invariant 0 <= i <= index - 1 && current == nodes[i]
        {
          current := current.next;
          i := i + 1;
        }
        UnlinkAfter(current, index);
      }
      outcome := Pass;
    }

    /** `deleteByKey`: removes the first element equal to `key`; an empty
        list or an absent key leaves the list as it is. */
    method DeleteByKey(key: T)
      requires Valid()
      modifies Repr
      ensures Valid() && Repr == old(Repr)
      ensures key !in old(Contents) ==> Contents == old(Contents)
      ensures key in old(Contents) ==>
                var p := IndexOf(old(Contents), key);
                Contents == old(Contents)[..p] + old(Contents)[p + 1..]
    {
      var empty := IsEmpty();
      if empty {
        return;
      }
      if head.data == key {
        UnlinkHead();
        return;
      }
      var current := head;
      var prev: Node?<T> := null;
      ghost var i := 0;
      while current != null && current.data != key
        invariant 0 <= i <= |nodes|
        invariant current == if i < |nodes| then nodes[i] else null
        invariant i > 0 ==> prev == nodes[i - 1]
        invariant key !in Contents[..i]
        invariant i == 0 ==> current == head
        decreases |nodes| - i
      {
        assert Contents[..i + 1] == Contents[..i] + [Contents[i]];
        prev := current;
        current := current.next;
        i := i + 1;
      }
      if current == null {
        assert Contents[..i] == Contents;
        return;
      }
      assert Contents[i] == key && i > 0;
      UnlinkAfter(prev, i);
    }

    /** `contains`: walks the nodes looking for an element equal to
        `element`. */
    method Contains(element: T) returns (found: bool)
      requires Valid()
      ensures found <==> element in Contents
    {
      var current := head;
      ghost var i := 0;
      while current != null
        invariant 0 <= i <= |nodes|
        invariant current == if i < |nodes| then nodes[i] else null
        invariant element !in Contents[..i]
        decreases |nodes| - i
      {
        if current.data == element {
          return true;
        }
        assert Contents[..i + 1] == Contents[..i] + [Contents[i]];
        current := current.next;
        i := i + 1;
      }
      assert Contents[..i] == Contents;
      found := false;
    }

    /** `size`. */
    method Size() returns (n: nat)
      requires Valid()
      ensures n == |Contents|
    {
      n := size;
    }

    /** `isEmpty`: `size == 0`. */
    method IsEmpty() returns (empty: bool)
      requires Valid()
      ensures empty <==> Contents == []
    {
      empty := size == 0;
    }

    /** Removing the first node: `head` moves to its successor. */
    method UnlinkHead()
      requires Valid() && nodes != []
      modifies this
      ensures Valid() && Repr == old(Repr)
      ensures Contents == old(Contents)[1..]
    {
      head := head.next;
      size := size - 1;
      nodes := nodes[1..];
      Contents := Contents[1..];
    }

    /** Removing a later node: `prev`, the node before `index`, skips the
        node at `index`. */
    method UnlinkAfter(prev: Node<T>, ghost index: nat)
      requires Valid() && 0 < index < |nodes| && prev == nodes[index - 1]
      modifies Repr
      ensures Valid() && Repr == old(Repr)
      ensures Contents == old(Contents)[..index] + old(Contents)[index + 1..]
    {
      ghost var before := nodes;
      ghost var after := nodes[..index] + nodes[index + 1..];
      assert forall j :: 0 <= j < |after| ==> after[j] == before[if j < index then j else j + 1];
      assert prev.next == nodes[index];
      assert prev.next.next == if index == |before| - 1 then null else before[index + 1];
      prev.next := prev.next.next;
      size := size - 1;
      nodes := after;
      Contents := Contents[..index] + Contents[index + 1..];
    }
  }
}

=== FILE: min_heap.dfy ===
/** The indexed binary min-heap of the graph algorithms: an array of
    (vertex, key) nodes ordered as a binary heap, and a side table from vertex
    to heap slot (-1 when absent) that makes decrease-key possible. */
module Heap {
  import opened Common

  /** One heap entry. */
  datatype HeapNode = HeapNode(vertex: int, key: int)

  /** Slot of the parent of slot `i`; only ever asked for `i != 0`. */
  function Parent(i: int): (p: nat)
    requires i > 0
    ensures p < i && (i == 2 * p + 1 || i == 2 * p + 2)
  {
    (i - 1) / 2
  }

  /** Slot of the left child of slot `i`. */
  function Left(i: nat): (l: nat)
    ensures l > i && Parent(l) == i
  {
    2 * i + 1
  }

  /** Slot of the right child of slot `i`. */
  function Right(i: nat): (r: nat)
    ensures r > i && Parent(r) == i && r == Left(i) + 1
  {
    2 * i + 2
  }

  /** Every slot below `n` except slot `k` has a key no smaller than its
      parent's: the heap property with at most one gap, above `k`. */
  ghost predicate OrderedExceptAt(s: seq<HeapNode>, n: nat, k: int)
    requires n <= |s|
  {
    forall i :: 0 < i < n && i != k ==> s[Parent(i)].key <= s[i].key
  }

  /** Every slot below `n` whose parent is not `k` has a key no smaller than
      its parent's: the heap property with at most one gap, below `k`. */
  ghost predicate OrderedExceptBelow(s: seq<HeapNode>, n: nat, k: int)
    requires n <= |s|
  {
    forall i :: 0 < i < n && Parent(i) != k ==> s[Parent(i)].key <= s[i].key
  }

  /** The parent of `k` is no larger than the children of `k`: the gap at
      `k` can be closed by a swap without opening a new one above. */
  ghost predicate Bridge(s: seq<HeapNode>, n: nat, k: int)
    requires n <= |s|
  {
    forall c :: 0 < c < n && Parent(c) == k && k > 0 ==> s[Parent(k)].key <= s[c].key
  }

  /** The heap property on the first `n` slots. */
  ghost predicate Ordered(s: seq<HeapNode>, n: nat)
    requires n <= |s|
  {
    forall i :: 0 < i < n ==> s[Parent(i)].key <= s[i].key
  }

  /** In a heap the root holds a smallest key. */
  lemma {:induction false} RootIsMinimal(s: seq<HeapNode>, n: nat, i: nat)
    requires n <= |s| && Ordered(s, n) && i < n
    ensures s[0].key <= s[i].key
    decreases i
  {
    if i > 0 {
      RootIsMinimal(s, n, Parent(i));
    }
  }

  /** One step of sift-up: swapping slot `k` with its larger parent moves the
      gap to the parent. */
  lemma SiftUpStep(s: seq<HeapNode>, n: nat, k: nat)
    requires n <= |s| && 0 < k < n
    requires OrderedExceptAt(s, n, k) && Bridge(s, n, k)
    requires s[k].key < s[Parent(k)].key
    ensures var p := Parent(k);
            var t := s[k := s[p]][p := s[k]];
            OrderedExceptAt(t, n, p) && Bridge(t, n, p)
  {
    var p := Parent(k);
    var t := s[k := s[p]][p := s[k]];
    forall i | 0 < i < n && i != p
      ensures t[Parent(i)].key <= t[i].key
    {
      if i == k {
      } else if Parent(i) == k {
      } else if Parent(i) == p {
      }
    }
    forall c | 0 < c < n && Parent(c) == p && p > 0
      ensures t[Parent(p)].key <= t[c].key
    {
    }
  }

  /** One step of sift-down: swapping slot `k` with its smallest child moves
      the gap to that child. */
  lemma SiftDownStep(s: seq<HeapNode>, t: seq<HeapNode>, n: nat, k: nat, m: nat)
    requires n <= |s| && k < m < n && Parent(m) == k
    requires OrderedExceptBelow(s, n, k) && Bridge(s, n, k)
    requires s[m].key < s[k].key
    requires forall c :: 0 < c < n && Parent(c) == k ==> s[m].key <= s[c].key
    requires t == s[k := s[m]][m := s[k]]
    ensures OrderedExceptBelow(t, n, m) && Bridge(t, n, m)
  {
    forall i | 0 < i < n && Parent(i) != m
      ensures t[Parent(i)].key <= t[i].key
    {
      if i == k {
      } else if i == m {
      } else if Parent(i) == k {
      }
    }
  }

  /** Sift-down stops: when no child of `k` is smaller, the gap is closed. */
  lemma SiftDownDone(s: seq<HeapNode>, n: nat, k: nat)
    requires n <= |s| && k < n
    requires OrderedExceptBelow(s, n, k)
    requires forall c :: 0 < c < n && Parent(c) == k ==> s[k].key <= s[c].key
    ensures Ordered(s, n)
  {
  }

  /** The heap, with the fields of the Java class. `Keys` is the abstract
      value: the key of every vertex currently in the heap. */
  class MinHeap {
    const capacity: nat
    const heapArray: array<HeapNode>
    const vertexToIndex: array<int>
    var size: nat
    ghost var Keys: map<int, int>

    /** The side table, the array and `Keys` agree: slot `i` below `size`
        holds vertex `x` exactly when `vertexToIndex[x] == i`, every other
        vertex maps to -1, and `Keys` holds exactly the vertices in the heap,
        each with the key of its node. */
    ghost predicate Indexed()
      reads this, heapArray, vertexToIndex
    {
      && heapArray.Length == capacity
      && vertexToIndex.Length == capacity
      && size <= capacity
      && (forall i :: 0 <= i < size ==>
            0 <= heapArray[i].vertex < capacity && vertexToIndex[heapArray[i].vertex] == i)
      && (forall v :: v in Keys ==> 0 <= v < capacity)
      && (forall v {:trigger vertexToIndex[v]} :: 0 <= v < capacity ==>
            && -1 <= vertexToIndex[v] < size
            && (v in Keys <==> vertexToIndex[v] != -1)
            && (v in Keys ==> heapArray[vertexToIndex[v]] == HeapNode(v, Keys[v])))
    }

    ghost predicate Valid()
      reads this, heapArray, vertexToIndex
    {
      Indexed() && Ordered(heapArray[..], size)
    }

    /** The heap is empty exactly when no vertex has a key. */
    lemma EmptyIff()
      requires Valid()
      ensures size == 0 <==> Keys == map[]
    {
      assert forall v :: v in Keys ==> 0 <= vertexToIndex[v] < size;
      if size > 0 {
        assert heapArray[0].vertex in Keys;
      } else {
        assert forall v :: v !in Keys;
      }
    }

    /** `MinHeap(n)`: an empty heap for vertices 0 .. n-1. */
    constructor (n: nat)
      ensures Valid() && capacity == n && size == 0 && Keys == map[]
      ensures fresh(heapArray) && fresh(vertexToIndex)
    {
      capacity := n;
      heapArray := new HeapNode[n];
      vertexToIndex := new int[n](_ => -1);
      size := 0;
      Keys := map[];
    }

    /** Exchanges slots `a` and `b` and updates both side-table entries. */
    method Swap(a: nat, b: nat)
      requires Indexed() && a < size && b < size
      modifies heapArray, vertexToIndex
      ensures Indexed()
      ensures heapArray[..] == old(heapArray[..])[a := old(heapArray[b])][b := old(heapArray[a])]
    {
      vertexToIndex[heapArray[a].vertex] := b;
      vertexToIndex[heapArray[b].vertex] := a;
      heapArray[a], heapArray[b] := heapArray[b], heapArray[a];
    }

    /** The sift-up loop shared by `insertKey` and `decreaseKey`: moves the
        node at slot `i` up while it is smaller than its parent. */
    method SiftUp(i: nat)
      requires Indexed() && i < size
      requires OrderedExceptAt(heapArray[..], size, i) && Bridge(heapArray[..], size, i)
      modifies heapArray, vertexToIndex
      ensures Valid()
    {
      var k := i;
      while k != 0 && heapArray[k].key < heapArray[Parent(k)].key
        invariant 0 <= k < size
        invariant Indexed()
        invariant OrderedExceptAt(heapArray[..], size, k) && Bridge(heapArray[..], size, k)
        decreases k
      {
        SiftUpStep(heapArray[..], size, k);
        Swap(k, Parent(k));
        k := Parent(k);
      }
    }

    /** `MinHeapify(i)`: moves the node at slot `i` down while a child is
        smaller, swapping with the smaller child (the left one on a tie). */
    method MinHeapify(i: nat)
      requires Indexed() && i < size
      requires OrderedExceptBelow(heapArray[..], size, i) && Bridge(heapArray[..], size, i)
      modifies heapArray, vertexToIndex
      ensures Valid()
      decreases size - i
    {
      var l := Left(i);
      var r := Right(i);
      var smallest := i;
      if l < size && heapArray[l].key < heapArray[smallest].key {
        smallest := l;
      }
      if r < size && heapArray[r].key < heapArray[smallest].key {
        smallest := r;
      }
      ghost var s := heapArray[..];
      assert forall c :: 0 < c < size && Parent(c) == i ==> c == l || c == r;
      if smallest != i {
        Swap(i, smallest);
        SiftDownStep(s, heapArray[..], size, i, smallest);
        MinHeapify(smallest);
      } else {
        SiftDownDone(s, size, i);
      }
    }

    /** `insertKey`: false and no change when the heap is full; an
        `ArrayIndexOutOfBoundsException` for a vertex outside 0 .. capacity-1,
        thrown after the new node was written into the first free slot, so
        the heap itself is unchanged; otherwise the vertex gets the key and
        the size grows by one. */
    method InsertKey(vertex: int, key: int) returns (r: Result<bool>)
      requires Valid()
      requires size < capacity && 0 <= vertex < capacity ==> vertex !in Keys
      modifies this, heapArray, vertexToIndex
      ensures Valid()
      ensures old(size) == capacity ==>
                && r == Ok(false) && size == old(size) && Keys == old(Keys)
                && heapArray[..] == old(heapArray[..])
                && vertexToIndex[..] == old(vertexToIndex[..])
      ensures old(size) < capacity && !(0 <= vertex < capacity) ==>
                && r == Err(IndexOutOfRange) && size == old(size) && Keys == old(Keys)
                && heapArray[..] == old(heapArray[..])[old(size) := HeapNode(vertex, key)]
                && vertexToIndex[..] == old(vertexToIndex[..])
      ensures old(size) < capacity && 0 <= vertex < capacity ==>
                && r == Ok(true) && size == old(size) + 1 && Keys == old(Keys)[vertex := key]
                && heapArray[vertexToIndex[vertex]] == HeapNode(vertex, key)
    {
      if size == capacity {
        return Ok(false);
      }
      var i := size;
      heapArray[i] := HeapNode(vertex, key);
      if !(0 <= vertex < capacity) {
        return Err(IndexOutOfRange);
      }
      vertexToIndex[vertex] := i;
      size := size + 1;
      Keys := Keys[vertex := key];
      SiftUp(i);
      return Ok(true);
    }

    /** `decreaseKey`: a no-op for a vertex not in the heap; rejected, with
        nothing changed, when the new key is larger; otherwise the vertex's
        key becomes `newVal`. */
    method DecreaseKey(vertex: int, newVal: int) returns (r: Outcome)
      requires Valid() && 0 <= vertex < capacity
      modifies this, heapArray, vertexToIndex
      ensures Valid() && size == old(size)
      ensures vertex !in old(Keys) ==>
                r == Pass && Keys == old(Keys)
                && heapArray[..] == old(heapArray[..])
                && vertexToIndex[..] == old(vertexToIndex[..])
      ensures vertex in old(Keys) && newVal > old(Keys)[vertex] ==>
                r == Fail(InvalidKeyUpdate) && Keys == old(Keys)
                && heapArray[..] == old(heapArray[..])
                && vertexToIndex[..] == old(vertexToIndex[..])
      ensures vertex in old(Keys) && newVal <= old(Keys)[vertex] ==>
                r == Pass && Keys == old(Keys)[vertex := newVal]
    {
      if vertexToIndex[vertex] == -1 {
        return Pass;
      }
      var i := vertexToIndex[vertex];
      // The Java check `i < 0 || i >= current_heap_size` cannot fire: the
      // side table only holds -1 or a slot below the size.
      assert 0 <= i < size;
      if newVal > heapArray[i].key {
        return Fail(InvalidKeyUpdate);
      }
      heapArray[i] := heapArray[i].(key := newVal);
      Keys := Keys[vertex := newVal];
      SiftUp(i);
      return Pass;
    }

    /** `getMin`: the root, which holds a smallest key; an error when empty. */
    method GetMin() returns (r: Result<HeapNode>)
      requires Valid()
      ensures size == 0 ==> r == Err(EmptyCollection)
      ensures size > 0 ==> r.Ok?
      ensures r.Ok? ==> r.value.vertex in Keys && Keys[r.value.vertex] == r.value.key
                        && forall v :: v in Keys ==> r.value.key <= Keys[v]
    {
      if size == 0 {
        return Err(EmptyCollection);
      }
      forall v | v in Keys
        ensures heapArray[0].key <= Keys[v]
      {
        RootIsMinimal(heapArray[..], size, vertexToIndex[v]);
      }
      return Ok(heapArray[0]);
    }

    /** The first half of `extractMin`: the root's vertex leaves the side
        table, the last node moves into the root slot and the size shrinks;
        the only disorder left is below the root. */
    method RemoveRoot()
      requires Valid() && size > 0
      modifies this, heapArray, vertexToIndex
      ensures Indexed() && OrderedExceptBelow(heapArray[..], size, 0) && Bridge(heapArray[..], size, 0)
      ensures size == old(size) - 1 && Keys == old(Keys) - {old(heapArray[0].vertex)}
    {
      ghost var s, t, n := heapArray[..], vertexToIndex[..], size;
      var root := heapArray[0];
      var last := heapArray[size - 1];
      vertexToIndex[root.vertex] := -1;
      if size > 1 {
        heapArray[0] := last;
        vertexToIndex[last.vertex] := 0;
      }
      size := size - 1;
      Keys := Keys - {root.vertex};
      forall i | 0 <= i < size
        ensures 0 <= heapArray[i].vertex < capacity && vertexToIndex[heapArray[i].vertex] == i
      {
        if i > 0 {
          assert heapArray[i] == s[i] && t[s[i].vertex] == i;
          assert s[i].vertex != root.vertex && s[i].vertex != last.vertex;
        }
      }
      forall v | 0 <= v < capacity
        ensures -1 <= vertexToIndex[v] < size
        ensures v in Keys <==> vertexToIndex[v] != -1
        ensures v in Keys ==> heapArray[vertexToIndex[v]] == HeapNode(v, Keys[v])
      {
        if v != root.vertex && (size == 0 || v != last.vertex) {
          assert vertexToIndex[v] == t[v];
          if t[v] != -1 {
            assert s[t[v]].vertex == v;
            assert t[v] != 0 && t[v] != n - 1;
          }
        }
      }
      forall i | 0 < i < size && Parent(i) != 0
        ensures heapArray[..][Parent(i)].key <= heapArray[..][i].key
      {
        assert heapArray[i] == s[i] && heapArray[Parent(i)] == s[Parent(i)];
      }
    }

    /** `extractMin`: removes and returns the root, a node with a smallest
        key, marking its vertex absent; an error when empty. */
    method ExtractMin() returns (r: Result<HeapNode>)
      requires Valid()
      modifies this, heapArray, vertexToIndex
      ensures Valid()
      ensures old(size) == 0 ==> r == Err(EmptyCollection)
      ensures old(size) > 0 ==> r.Ok?
      ensures r.Err? ==> size == old(size) && Keys == old(Keys)
      ensures r.Ok? ==>
                && size == old(size) - 1
                && r.value.vertex in old(Keys) && old(Keys)[r.value.vertex] == r.value.key
                && (forall v :: v in old(Keys) ==> r.value.key <= old(Keys)[v])
                && Keys == old(Keys) - {r.value.vertex}
                && vertexToIndex[r.value.vertex] == -1
    {
      if size <= 0 {
        return Err(EmptyCollection);
      }
      var root := heapArray[0];
      forall v | v in Keys
        ensures root.key <= Keys[v]
      {
        RootIsMinimal(heapArray[..], size, vertexToIndex[v]);
      }
      RemoveRoot();
      if size > 0 {
        MinHeapify(0);
      }
      return Ok(root);
    }
  }

  /** The heap scenarios of the unit tests: after inserting keys 15, 10, 20,
      5, 30 for vertices 0 .. 4 the minimum is 5; decreasing vertex 2 to 1
      makes it 1; extracting the minimum yields 5 and leaves 10 on top. */
  method InsertFive(h: MinHeap)
    requires h.Valid() && h.capacity == 10 && h.size == 0
    modifies h, h.heapArray, h.vertexToIndex
    ensures h.Valid() && h.size == 5
    ensures h.Keys == map[0 := 15, 1 := 10, 2 := 20, 3 := 5, 4 := 30]
  {
    h.EmptyIff();
    var ok := h.InsertKey(0, 15);
    ok := h.InsertKey(1, 10);
    ok := h.InsertKey(2, 20);
    ok := h.InsertKey(3, 5);
    ok := h.InsertKey(4, 30);
  }

  method InsertAndGetMinScenario() returns (min: int)
    ensures min == 5
  {
    var h := new MinHeap(10);
    InsertFive(h);
    var r := h.GetMin();
    min := r.value.key;
    assert min <= h.Keys[3] == 5;
    assert r.value.vertex in {0, 1, 2, 3, 4};
  }

  method DecreaseKeyScenario() returns (min: int)
    ensures min == 1
  {
    var h := new MinHeap(10);
    InsertFive(h);
    var d := h.DecreaseKey(2, 1);
    assert h.Keys == map[0 := 15, 1 := 10, 2 := 1, 3 := 5, 4 := 30];
    var r := h.GetMin();
    min := r.value.key;
    assert min <= h.Keys[2] == 1;
    assert r.value.vertex in {0, 1, 2, 3, 4};
  }

  method ExtractMinScenario() returns (first: int, next: int)
    ensures first == 5 && next == 10
  {
    var h := new MinHeap(10);
    InsertFive(h);
    ghost var before := h.Keys;
    var r := h.ExtractMin();
    first := r.value.key;
    assert first <= before[3] == 5;
    assert r.value.vertex == 3 by {
      assert r.value.vertex in {0, 1, 2, 3, 4};
    }
    assert h.Keys == map[0 := 15, 1 := 10, 2 := 20, 4 := 30];
    var m := h.GetMin();
    next := m.value.key;
    assert next <= h.Keys[1] == 10;
    assert m.value.vertex in {0, 1, 2, 4};
  }
}

=== FILE: mst.dfy ===
/** Prim's algorithm as `Graph.primMST` runs it, on a snapshot of the
    adjacency lists, and the tree sums that `printMSTRecursive` adds up over
    the parent array it produces. */
module Mst {
  import opened Common
  import opened Adjacency
  import opened Heap
  import opened PriorityQueue

  /** Some entry of `u` leads to `v` with exactly the weight `key[v]`. */
  ghost predicate TreeEdge(adj: seq<seq<Edge>>, key: seq<int>, u: int, v: int)
    requires |key| == |adj| && 0 <= u < |adj| && 0 <= v < |adj|
  {
    exists j :: 0 <= j < |adj[u]| && adj[u][j].dest == v && adj[u][j].weight == key[v]
  }

  /** Entry `j` of `u` is no lighter than the key of its destination, unless
      that destination joined the tree before `u`. */
  ghost predicate Light(adj: seq<seq<Edge>>, key: seq<int>, inMST: seq<bool>, rank: seq<nat>, u: int, j: int)
    requires WellFormed(adj) && |key| == |adj| && |inMST| == |adj| && |rank| == |adj|
    requires 0 <= u < |adj| && 0 <= j < |adj[u]|
  {
    var v := adj[u][j].dest;
    !inMST[v] || rank[u] < rank[v] ==> key[v] <= adj[u][j].weight
  }

  /** Every tree vertex has all its entries light, except `cur`, which has
      its first `m`. */
  ghost predicate AllLight(adj: seq<seq<Edge>>, key: seq<int>, inMST: seq<bool>, rank: seq<nat>, cur: int, m: int)
    requires WellFormed(adj) && |key| == |adj| && |inMST| == |adj| && |rank| == |adj|
  {
    forall x, j :: 0 <= x < |adj| && inMST[x] && 0 <= j < |adj[x]| && (x == cur ==> j < m) ==>
      Light(adj, key, inMST, rank, x, j)
  }

  /** The order in which `primMST` takes vertices out of the queue: each
      tree vertex `u` is no heavier than any entry from a vertex taken
      before `u` to a vertex not taken before `u` (so `u` had a least key
      when it was dequeued). */
  ghost predicate LeastFirst(adj: seq<seq<Edge>>, key: seq<int>, inMST: seq<bool>, rank: seq<nat>)
    requires WellFormed(adj) && |key| == |adj| && |inMST| == |adj| && |rank| == |adj|
  {
    forall x, j, u :: 0 <= x < |adj| && 0 <= j < |adj[x]| && 0 <= u < |adj| && inMST[u] &&
      rank[x] < rank[u] <= rank[adj[x][j].dest]
      ==> key[u] <= adj[x][j].weight
  }

  /** The loop invariant of `primMST`: `order` lists the `count` vertices
      taken into the tree so far and `rank` is its inverse; every parent link
      comes from an earlier tree vertex along an entry weighing the key. */
  ghost predicate Grown(adj: seq<seq<Edge>>, start: int, key: seq<int>, parent: seq<int>,
                        inMST: seq<bool>, rank: seq<nat>, order: seq<int>, count: nat)
    requires WellFormed(adj)
  {
    var n := |adj|;
    && |key| == n && |parent| == n && |inMST| == n && |rank| == n && |order| == count && 0 <= start < n && count <= n
    && key[start] == 0 && parent[start] == -1
    && (count == 0 ==> forall v :: 0 <= v < n && v != start ==> key[v] == INF)
    && (count > 0 ==> inMST[start] && rank[start] == 0)
    && (forall v :: 0 <= v < n ==> key[v] <= INF)
    && (forall i :: 0 <= i < count ==> 0 <= order[i] < n && inMST[order[i]] && rank[order[i]] == i)
    && (forall v :: 0 <= v < n && inMST[v] ==> rank[v] < count && order[rank[v]] == v)
    && (forall v :: 0 <= v < n && !inMST[v] ==> rank[v] == n)
    && (forall v :: 0 <= v < n && v != start ==> (key[v] < INF <==> parent[v] != -1))
    && (forall v :: 0 <= v < n && parent[v] != -1 ==>
          && 0 <= parent[v] < n && inMST[parent[v]] && rank[parent[v]] < rank[v]
          && TreeEdge(adj, key, parent[v], v))
  }

  /** What `primMST` leaves behind: every vertex was taken out of the queue
      exactly once (`order` and `rank` are inverse permutations of 0 .. n-1,
      `start` first); each parent link comes from an earlier vertex along an
      entry that weighs the key; no entry from an earlier vertex to a later
      one is lighter than the later one's key; and no entry from a vertex
      taken before `u` to one taken at or after `u` is lighter than `u`'s
      key, which is the least-key order of the queue. */
  ghost predicate PrimTree(adj: seq<seq<Edge>>, start: int, key: seq<int>, parent: seq<int>,
                           rank: seq<nat>, order: seq<int>)
    requires WellFormed(adj)
  {
    var n := |adj|;
    && |key| == n && |parent| == n && |rank| == n && |order| == n && 0 <= start < n
    && key[start] == 0 && parent[start] == -1 && rank[start] == 0
    && (forall i :: 0 <= i < n ==> 0 <= order[i] < n && rank[order[i]] == i)
    && (forall v :: 0 <= v < n ==> rank[v] < n && order[rank[v]] == v)
    && (forall v :: 0 <= v < n ==> key[v] <= INF)
    && (forall v :: 0 <= v < n && v != start ==> (key[v] < INF <==> parent[v] != -1))
    && RankedParents(parent, rank)
    && (forall v :: 0 <= v < n && parent[v] != -1 ==> TreeEdge(adj, key, parent[v], v))
    && (forall u, j :: 0 <= u < n && 0 <= j < |adj[u]| && rank[u] < rank[adj[u][j].dest] ==>
          key[adj[u][j].dest] <= adj[u][j].weight)
    && (forall x, j, u :: 0 <= x < n && 0 <= j < |adj[x]| && 0 <= u < n &&
          rank[x] < rank[u] <= rank[adj[x][j].dest]
          ==> key[u] <= adj[x][j].weight)
  }

  /** Before the main loop: only `start` has a finite key, nothing is in the
      tree. */
  lemma PrimInitially(adj: seq<seq<Edge>>, start: int)
    requires WellFormed(adj) && 0 <= start < |adj|
    ensures
      var n := |adj|;
      && Grown(adj, start, seq(n, _ => INF)[start := 0], seq(n, _ => -1), seq(n, _ => false), seq(n, _ => n), [], 0)
      && AllLight(adj, seq(n, _ => INF)[start := 0], seq(n, _ => false), seq(n, _ => n), -1, 0)
      && LeastFirst(adj, seq(n, _ => INF)[start := 0], seq(n, _ => false), seq(n, _ => n))
  {
  }

  /** Taking the dequeued vertex `u` (a smallest key outside the tree) into
      the tree keeps the invariant; the first such vertex is `start`. */
  lemma TakeStep(adj: seq<seq<Edge>>, start: int, key: seq<int>, parent: seq<int>,
                 inMST: seq<bool>, rank: seq<nat>, order: seq<int>, count: nat, u: int)
    requires WellFormed(adj) && Grown(adj, start, key, parent, inMST, rank, order, count)
    requires 0 <= u < |adj| && !inMST[u] && count < |adj|
    requires forall v :: 0 <= v < |adj| && !inMST[v] ==> key[u] <= key[v]
    requires AllLight(adj, key, inMST, rank, -1, 0)
    ensures Grown(adj, start, key, parent, inMST[u := true], rank[u := count], order + [u], count + 1)
    ensures AllLight(adj, key, inMST[u := true], rank[u := count], u, 0)
  {
    var inMST', rank', order' := inMST[u := true], rank[u := count], order + [u];
    if count == 0 {
      assert key[u] <= key[start] == 0;
      assert u == start;
    }
    forall i | 0 <= i < count + 1
      ensures 0 <= order'[i] < |adj| && inMST'[order'[i]] && rank'[order'[i]] == i
    {
      if i < count {
        assert order'[i] == order[i] && order[i] != u;
      }
    }
    forall v | 0 <= v < |adj| && parent[v] != -1
      ensures rank'[parent[v]] < rank'[v]
    {
      if v != u {
        assert parent[v] != u;
      }
    }
    forall x, j | 0 <= x < |adj| && inMST'[x] && 0 <= j < |adj[x]| && x != u
      ensures Light(adj, key, inMST', rank', x, j)
    {
      assert Light(adj, key, inMST, rank, x, j);
    }
  }

  /** Taking a vertex `u` with a least key outside the tree keeps the
      least-key order: every entry into the rest of the graph from the
      tree is light, so none undercuts `u`. */
  lemma TakeInOrder(adj: seq<seq<Edge>>, key: seq<int>, inMST: seq<bool>, rank: seq<nat>, count: nat, u: int)
    requires WellFormed(adj) && |key| == |adj| && |inMST| == |adj| && |rank| == |adj| && count < |adj|
    requires forall v :: 0 <= v < |adj| && inMST[v] ==> rank[v] < count
    requires forall v :: 0 <= v < |adj| && !inMST[v] ==> rank[v] == |adj|
    requires 0 <= u < |adj| && !inMST[u]
    requires forall v :: 0 <= v < |adj| && !inMST[v] ==> key[u] <= key[v]
    requires AllLight(adj, key, inMST, rank, -1, 0) && LeastFirst(adj, key, inMST, rank)
    ensures LeastFirst(adj, key, inMST[u := true], rank[u := count])
  {
    var inMST', rank' := inMST[u := true], rank[u := count];
    forall x, j, w | 0 <= x < |adj| && 0 <= j < |adj[x]| && 0 <= w < |adj| && inMST'[w] &&
                     rank'[x] < rank'[w] <= rank'[adj[x][j].dest]
      ensures key[w] <= adj[x][j].weight
    {
      var v := adj[x][j].dest;
      if w == u {
        assert inMST[x] && !inMST[v];
        assert Light(adj, key, inMST, rank, x, j);
      } else {
        assert rank[x] < rank[w] <= rank[v];
      }
    }
  }

  /** Lowering the key of the destination `v` of entry `j` of the vertex `u`
      being processed to that entry's weight, and pointing its parent at `u`,
      keeps the invariant and makes entry `j` light. */
  lemma LowerStep(adj: seq<seq<Edge>>, start: int, key: seq<int>, parent: seq<int>,
                  inMST: seq<bool>, rank: seq<nat>, order: seq<int>, count: nat, u: int, j: int, v: int, w: int)
    requires WellFormed(adj) && Grown(adj, start, key, parent, inMST, rank, order, count)
    requires 0 <= u < |adj| && inMST[u] && rank[u] == count - 1 && 0 <= j < |adj[u]|
    requires AllLight(adj, key, inMST, rank, u, j)
    requires v == adj[u][j].dest && w == adj[u][j].weight && !inMST[v] && w < key[v]
    ensures Grown(adj, start, key[v := w], parent[v := u], inMST, rank, order, count)
    ensures AllLight(adj, key[v := w], inMST, rank, u, j + 1)
  {
    var key', parent' := key[v := w], parent[v := u];
    forall x | 0 <= x < |adj| && parent'[x] != -1
      ensures TreeEdge(adj, key', parent'[x], x)
    {
      if x == v {
        assert adj[u][j].dest == v && adj[u][j].weight == key'[v];
      } else {
        var y := parent[x];
        var i :| 0 <= i < |adj[y]| && adj[y][i].dest == x && adj[y][i].weight == key[x];
        assert adj[y][i].dest == x && adj[y][i].weight == key'[x];
      }
    }
    forall x, i | 0 <= x < |adj| && inMST[x] && 0 <= i < |adj[x]| && (x == u ==> i < j + 1)
      ensures Light(adj, key', inMST, rank, x, i)
    {
      if !(x == u && i == j) {
        assert Light(adj, key, inMST, rank, x, i);
      }
    }
  }

  /** Lowering the key of a vertex outside the tree leaves the keys of the
      tree, and so the least-key order, as they are. */
  lemma LowerInOrder(adj: seq<seq<Edge>>, key: seq<int>, inMST: seq<bool>, rank: seq<nat>, v: int, w: int)
    requires WellFormed(adj) && |key| == |adj| && |inMST| == |adj| && |rank| == |adj|
    requires 0 <= v < |adj| && !inMST[v] && LeastFirst(adj, key, inMST, rank)
    ensures LeastFirst(adj, key[v := w], inMST, rank)
  {
    forall x | 0 <= x < |adj| && inMST[x] ensures key[v := w][x] == key[x] {
    }
  }

  /** An entry that leads into the tree, or is no lighter than its
      destination's key, is light as it stands. */
  lemma KeepStep(adj: seq<seq<Edge>>, key: seq<int>, inMST: seq<bool>, rank: seq<nat>, count: nat, u: int, j: int)
    requires WellFormed(adj) && |key| == |adj| && |inMST| == |adj| && |rank| == |adj|
    requires 0 <= u < |adj| && inMST[u] && rank[u] == count - 1 && 0 <= j < |adj[u]|
    requires forall x :: 0 <= x < |adj| && inMST[x] ==> rank[x] < count
    requires AllLight(adj, key, inMST, rank, u, j)
    requires inMST[adj[u][j].dest] || adj[u][j].weight >= key[adj[u][j].dest]
    ensures AllLight(adj, key, inMST, rank, u, j + 1)
  {
    assert Light(adj, key, inMST, rank, u, j);
  }

  /** Once every vertex is in the tree, the invariant is the
      postcondition. */
  lemma PrimConclude(adj: seq<seq<Edge>>, start: int, key: seq<int>, parent: seq<int>,
                     inMST: seq<bool>, rank: seq<nat>, order: seq<int>)
    requires WellFormed(adj) && Grown(adj, start, key, parent, inMST, rank, order, |adj|)
    requires AllLight(adj, key, inMST, rank, -1, 0) && LeastFirst(adj, key, inMST, rank)
    requires forall v :: 0 <= v < |adj| ==> inMST[v]
    ensures PrimTree(adj, start, key, parent, rank, order)
  {
    forall u, j | 0 <= u < |adj| && 0 <= j < |adj[u]| && rank[u] < rank[adj[u][j].dest]
      ensures key[adj[u][j].dest] <= adj[u][j].weight
    {
      assert Light(adj, key, inMST, rank, u, j);
    }
  }

  /** `primMST(startNode)` without the printing: the keys and parents it
      computes, and (ghost) the order in which it took the vertices. */
  method Prim(adj: seq<seq<Edge>>, start: int) returns (key: seq<int>, parent: seq<int>, ghost rank: seq<nat>, ghost order: seq<int>)
    requires WellFormed(adj) && 0 <= start < |adj|
    ensures PrimTree(adj, start, key, parent, rank, order)
    ensures Forest(parent, rank)
    ensures forall x :: 0 <= x < |adj| ==> (InSubtree(parent, rank, start, x) <==> Reaches(adj, start, x))
  {
    var n := |adj|;
    key := seq(n, _ => INF)[start := 0];
    parent := seq(n, _ => -1);
    var inMST := seq(n, _ => false);
    rank, order := seq(n, _ => n), [];

    var pq := QueueOf(key);

    ghost var count: nat := 0;
    PrimInitially(adj, start);
    while !pq.IsEmpty()
      invariant pq.Valid() && pq.minHeap.capacity == n && count + pq.minHeap.size == n
      invariant Grown(adj, start, key, parent, inMST, rank, order, count)
      invariant Mirrors(pq.Keys(), key, inMST)
      invariant AllLight(adj, key, inMST, rank, -1, 0) && LeastFirst(adj, key, inMST, rank)
      decreases pq.minHeap.size
    {
      ghost var keys := pq.Keys();
      var node := pq.Dequeue();
      var u := node.value.vertex;
      DequeueStep(keys, key, inMST, u);
      TakeStep(adj, start, key, parent, inMST, rank, order, count, u);
      TakeInOrder(adj, key, inMST, rank, count, u);
      inMST := inMST[u := true];
      rank, order := rank[u := count], order + [u];
      count := count + 1;

      key, parent := LowerKeys(adj, start, pq, key, parent, inMST, rank, order, count, u);
    }
    EmptyQueue(pq.Keys(), key, inMST);
    PrimConclude(adj, start, key, parent, inMST, rank, order);
    SpansReachable(adj, start, key, parent, rank, order);
  }

  /** The inner loop of `primMST`: for every entry of the vertex `u` just
      taken into the tree, lower the key of a destination outside the tree
      that the entry undercuts. */
  method LowerKeys(adj: seq<seq<Edge>>, start: int, pq: CustomPriorityQueue, key0: seq<int>, parent0: seq<int>,
                   inMST: seq<bool>, ghost rank: seq<nat>, ghost order: seq<int>, ghost count: nat, u: int)
    returns (key: seq<int>, parent: seq<int>)
    requires WellFormed(adj) && 0 <= u < |adj|
    requires pq.Valid() && pq.minHeap.capacity == |adj| && count + pq.minHeap.size == |adj|
    requires Grown(adj, start, key0, parent0, inMST, rank, order, count)
    requires inMST[u] && rank[u] == count - 1
    requires Mirrors(pq.Keys(), key0, inMST)
    requires AllLight(adj, key0, inMST, rank, u, 0) && LeastFirst(adj, key0, inMST, rank)
    modifies pq.minHeap, pq.minHeap.heapArray, pq.minHeap.vertexToIndex
    ensures pq.Valid() && count + pq.minHeap.size == |adj|
    ensures Grown(adj, start, key, parent, inMST, rank, order, count)
    ensures Mirrors(pq.Keys(), key, inMST)
    ensures AllLight(adj, key, inMST, rank, -1, 0) && LeastFirst(adj, key, inMST, rank)
  {
    var n := |adj|;
    key, parent := key0, parent0;
    var adjacentNodes := adj[u];
    var j := 0;
    while j < |adjacentNodes|
      invariant 0 <= j <= |adjacentNodes| && adjacentNodes == adj[u]
      invariant pq.Valid() && pq.minHeap.capacity == n && count + pq.minHeap.size == n
      invariant Grown(adj, start, key, parent, inMST, rank, order, count)
      invariant Mirrors(pq.Keys(), key, inMST)
      invariant AllLight(adj, key, inMST, rank, u, j) && LeastFirst(adj, key, inMST, rank)
    {
      var v := adjacentNodes[j];
      var vVertex := v.dest;
      var weight := v.weight;
      if !inMST[vVertex] && weight < key[vVertex] {
        LowerStep(adj, start, key, parent, inMST, rank, order, count, u, j, vVertex, weight);
        LowerInOrder(adj, key, inMST, rank, vVertex, weight);
        ghost var keys := pq.Keys();
        assert vVertex in keys && weight <= keys[vVertex];
        parent := parent[vVertex := u];
        key := key[vVertex := weight];
        var _ := pq.DecreaseKey(vVertex, weight);
        assert pq.Keys() == keys[vVertex := weight];
      } else {
        KeepStep(adj, key, inMST, rank, count, u, j);
      }
      j := j + 1;
    }
    assert AllLight(adj, key, inMST, rank, u, |adj[u]|);
  }

  /** Parent links that end (`RankedParents`) with ranks no larger than the
      number of vertices, so that a rank-based measure bounds recursion over
      the tree. */
  ghost predicate Forest(parent: seq<int>, rank: seq<nat>) {
    RankedParents(parent, rank) && forall v :: 0 <= v < |rank| ==> rank[v] <= |rank|
  }

  /** `x` lies in the subtree of `node`: following parent links from `x`
      reaches `node`. */
  ghost predicate InSubtree(parent: seq<int>, rank: seq<nat>, node: int, x: int)
    requires Forest(parent, rank) && 0 <= x < |parent|
    decreases rank[x]
  {
    x == node || (parent[x] != -1 && InSubtree(parent, rank, node, parent[x]))
  }

  /** For `x` strictly below `node`: the child of `node` whose subtree holds
      `x`. */
  ghost function ChildOnPath(parent: seq<int>, rank: seq<nat>, node: int, x: int): (c: int)
    requires Forest(parent, rank) && 0 <= x < |parent| && InSubtree(parent, rank, node, x) && x != node
    ensures 0 <= c < |parent| && parent[c] == node && InSubtree(parent, rank, c, x)
    decreases rank[x]
  {
    if parent[x] == node then x else ChildOnPath(parent, rank, node, parent[x])
  }

  /** The total `printMSTRecursive` accumulates below `node`: for every child
      `i` (in increasing order), the weight `getWeight(node, i)` reports plus
      the total below `i`. */
  ghost function SubtreeWeight(adj: seq<seq<Edge>>, parent: seq<int>, rank: seq<nat>, node: int): int
    requires |adj| == |parent| && Forest(parent, rank) && 0 <= node < |parent|
    decreases |parent| - rank[node], |parent| + 1
  {
    ChildrenWeight(adj, parent, rank, node, 0)
  }

  /** The part of `SubtreeWeight(node)` owed to the children `i .. n-1`. */
  ghost function ChildrenWeight(adj: seq<seq<Edge>>, parent: seq<int>, rank: seq<nat>, node: int, i: int): int
    requires |adj| == |parent| && Forest(parent, rank) && 0 <= node < |parent| && 0 <= i <= |parent|
    decreases |parent| - rank[node], |parent| - i
  {
    if i == |parent| then 0
    else
      (if parent[i] == node then Weight(adj, node, i) + SubtreeWeight(adj, parent, rank, i) else 0)
      + ChildrenWeight(adj, parent, rank, node, i + 1)
  }

  /** The subtree of a child `c` of `node` is exactly the set of vertices
      strictly below `node` whose path to `node` passes through `c`. */
  lemma {:induction false} SubtreeOfChild(parent: seq<int>, rank: seq<nat>, node: int, c: int, x: int)
    requires Forest(parent, rank) && 0 <= node < |parent| && 0 <= c < |parent| && parent[c] == node && 0 <= x < |parent|
    ensures InSubtree(parent, rank, c, x) <==>
              InSubtree(parent, rank, node, x) && x != node && ChildOnPath(parent, rank, node, x) == c
    decreases rank[x]
  {
    if InSubtree(parent, rank, c, x) {
      BelowChild(parent, rank, node, c, x);
    }
    if InSubtree(parent, rank, node, x) && x != node && ChildOnPath(parent, rank, node, x) == c {
      if parent[x] != node {
        SubtreeOfChild(parent, rank, node, c, parent[x]);
      }
    }
  }

  lemma {:induction false} BelowChild(parent: seq<int>, rank: seq<nat>, node: int, c: int, x: int)
    requires Forest(parent, rank) && 0 <= node < |parent| && 0 <= c < |parent| && parent[c] == node && 0 <= x < |parent|
    requires InSubtree(parent, rank, c, x)
    ensures InSubtree(parent, rank, node, x) && x != node && ChildOnPath(parent, rank, node, x) == c
    ensures rank[c] <= rank[x]
    decreases rank[x]
  {
    if x != c {
      var y := parent[x];
      BelowChild(parent, rank, node, c, y);
      assert y != node && InSubtree(parent, rank, node, y);
      assert ChildOnPath(parent, rank, node, x) == ChildOnPath(parent, rank, node, y);
    }
  }

  /** The weight of the tree below `node`, summed vertex by vertex: for every
      vertex `x` in `j .. n-1` strictly below `node`, the weight
      `getWeight(parent[x], x)` of the link from `x` to its parent. */
  ghost function EdgeSum(adj: seq<seq<Edge>>, parent: seq<int>, rank: seq<nat>, node: int, j: int): int
    requires |adj| == |parent| && Forest(parent, rank) && 0 <= j <= |parent|
    decreases |parent| - j
  {
    if j == |parent| then 0
    else
      (if InSubtree(parent, rank, node, j) && j != node then Weight(adj, parent[j], j) else 0)
      + EdgeSum(adj, parent, rank, node, j + 1)
  }

  /** The share of vertex `x` in the links below `node` whose path to `node`
      passes through a child numbered `i` or higher. */
  ghost function Share(adj: seq<seq<Edge>>, parent: seq<int>, rank: seq<nat>, node: int, i: int, x: int): int
    requires |adj| == |parent| && Forest(parent, rank) && 0 <= x < |parent|
  {
    if InSubtree(parent, rank, node, x) && x != node && ChildOnPath(parent, rank, node, x) >= i
    then Weight(adj, parent[x], x) else 0
  }

  /** The shares of the vertices `j .. n-1`. */
  ghost function Shares(adj: seq<seq<Edge>>, parent: seq<int>, rank: seq<nat>, node: int, i: int, j: int): int
    requires |adj| == |parent| && Forest(parent, rank) && 0 <= j <= |parent|
    decreases |parent| - j
  {
    if j == |parent| then 0
    else Share(adj, parent, rank, node, i, j) + Shares(adj, parent, rank, node, i, j + 1)
  }

  /** Every link below `node` passes through some child, numbered 0 or
      higher. */
  lemma {:induction false} SharesFromZero(adj: seq<seq<Edge>>, parent: seq<int>, rank: seq<nat>, node: int, j: int)
    requires |adj| == |parent| && Forest(parent, rank) && 0 <= j <= |parent|
    ensures Shares(adj, parent, rank, node, 0, j) == EdgeSum(adj, parent, rank, node, j)
    decreases |parent| - j
  {
    if j < |parent| {
      SharesFromZero(adj, parent, rank, node, j + 1);
    }
  }

  /** No link passes through a child numbered `n` or higher. */
  lemma {:induction false} SharesBeyond(adj: seq<seq<Edge>>, parent: seq<int>, rank: seq<nat>, node: int, j: int)
    requires |adj| == |parent| && Forest(parent, rank) && 0 <= j <= |parent|
    ensures Shares(adj, parent, rank, node, |parent|, j) == 0
    decreases |parent| - j
  {
    if j < |parent| {
      SharesBeyond(adj, parent, rank, node, j + 1);
    }
  }

  /** Splitting off child `i`: the links through `i` are the link from `i`
      to `node` and the links below `i`. */
  lemma {:induction false} SharesStep(adj: seq<seq<Edge>>, parent: seq<int>, rank: seq<nat>, node: int, i: int, j: int)
    requires |adj| == |parent| && Forest(parent, rank) && 0 <= node < |parent| && 0 <= i < |parent| && 0 <= j <= |parent|
    ensures Shares(adj, parent, rank, node, i, j) ==
              Shares(adj, parent, rank, node, i + 1, j)
              + (if parent[i] == node then (if j <= i then Weight(adj, node, i) else 0) + EdgeSum(adj, parent, rank, i, j) else 0)
    decreases |parent| - j
  {
    if j < |parent| {
      SharesStep(adj, parent, rank, node, i, j + 1);
      if parent[i] == node {
        SubtreeOfChild(parent, rank, node, i, j);
      }
    }
  }

  /** The children `i .. n-1` of `node` account for exactly the links
      through them. */
  lemma {:induction false} ChildrenWeightIsShares(adj: seq<seq<Edge>>, parent: seq<int>, rank: seq<nat>, node: int, i: int)
    requires |adj| == |parent| && Forest(parent, rank) && 0 <= node < |parent| && 0 <= i <= |parent|
    ensures ChildrenWeight(adj, parent, rank, node, i) == Shares(adj, parent, rank, node, i, 0)
    decreases |parent| - rank[node], |parent| - i
  {
    if i == |parent| {
      SharesBeyond(adj, parent, rank, node, 0);
    } else {
      ChildrenWeightIsShares(adj, parent, rank, node, i + 1);
      SharesStep(adj, parent, rank, node, i, 0);
      if parent[i] == node {
        SubtreeIsEdgeSum(adj, parent, rank, i);
      }
    }
  }

  /** The total the tree walk accumulates below `node` is the sum, over the
      vertices strictly below `node`, of the weight of each one's link to
      its parent. */
  lemma {:induction false} SubtreeIsEdgeSum(adj: seq<seq<Edge>>, parent: seq<int>, rank: seq<nat>, node: int)
    requires |adj| == |parent| && Forest(parent, rank) && 0 <= node < |parent|
    ensures SubtreeWeight(adj, parent, rank, node) == EdgeSum(adj, parent, rank, node, 0)
    decreases |parent| - rank[node], |parent| + 1
  {
    ChildrenWeightIsShares(adj, parent, rank, node, 0);
    SharesFromZero(adj, parent, rank, node, 0);
  }

  /** Every entry the walk uses weighs less than `INF`: `primMST` only
      lowers a key below `Integer.MAX_VALUE`, so heavier entries never
      link a vertex into the tree. */
  ghost predicate LightWalk(adj: seq<seq<Edge>>, vs: seq<int>, js: seq<int>)
    requires IsWalk(adj, vs, js)
  {
    forall i :: 0 <= i < |js| ==> adj[vs[i]][js[i]].weight < INF
  }

  /** Some walk from `start` along entries lighter than `INF` ends at `x`. */
  ghost predicate Reaches(adj: seq<seq<Edge>>, start: int, x: int) {
    exists vs, js :: IsWalk(adj, vs, js) && LightWalk(adj, vs, js) && vs[0] == start && vs[|vs| - 1] == x
  }

  /** Every vertex taken up to the `i`-th had a finite key. */
  ghost predicate FiniteUpTo(key: seq<int>, order: seq<int>, i: int) {
    forall m :: 0 <= m <= i && m < |order| ==> 0 <= order[m] < |key| && key[order[m]] < INF
  }

  /** Entries lighter than `INF` lead from vertices with `FiniteUpTo` to
      vertices with `FiniteUpTo`. */
  ghost predicate FiniteClosed(adj: seq<seq<Edge>>, key: seq<int>, rank: seq<nat>, order: seq<int>)
    requires WellFormed(adj) && |rank| == |adj|
  {
    forall a, j :: 0 <= a < |adj| && 0 <= j < |adj[a]| && adj[a][j].weight < INF && FiniteUpTo(key, order, rank[a])
      ==> FiniteUpTo(key, order, rank[adj[a][j].dest])
  }

  /** In the tree `primMST` leaves, `v` hangs below `start` exactly when
      every vertex taken up to and including `v` had a finite key. */
  lemma {:induction false} SubtreeIsPrefix(adj: seq<seq<Edge>>, start: int, key: seq<int>, parent: seq<int>,
                                           rank: seq<nat>, order: seq<int>, v: int)
    requires WellFormed(adj) && PrimTree(adj, start, key, parent, rank, order) && 0 <= v < |adj|
    ensures Forest(parent, rank)
    ensures InSubtree(parent, rank, start, v) <==> FiniteUpTo(key, order, rank[v])
    decreases rank[v]
  {
    if v == start {
      assert order[0] == start;
    } else if parent[v] == -1 {
      assert order[rank[v]] == v;
    } else {
      var p := parent[v];
      SubtreeIsPrefix(adj, start, key, parent, rank, order, p);
      var j :| 0 <= j < |adj[p]| && adj[p][j].dest == v && adj[p][j].weight == key[v];
      if FiniteUpTo(key, order, rank[p]) {
        FiniteStep(adj, start, key, parent, rank, order, p, j);
      }
    }
  }

  /** One entry lighter than `INF` out of a vertex taken before any vertex
      with an infinite key leads to such a vertex as well. */
  lemma FiniteStep(adj: seq<seq<Edge>>, start: int, key: seq<int>, parent: seq<int>,
                   rank: seq<nat>, order: seq<int>, a: int, j: int)
    requires WellFormed(adj) && PrimTree(adj, start, key, parent, rank, order)
    requires 0 <= a < |adj| && 0 <= j < |adj[a]| && adj[a][j].weight < INF
    requires FiniteUpTo(key, order, rank[a])
    ensures FiniteUpTo(key, order, rank[adj[a][j].dest])
  {
    forall m | rank[a] < m <= rank[adj[a][j].dest] ensures key[order[m]] <= adj[a][j].weight {
      assert rank[order[m]] == m;
    }
  }

  lemma FiniteClosedInTree(adj: seq<seq<Edge>>, start: int, key: seq<int>, parent: seq<int>,
                           rank: seq<nat>, order: seq<int>)
    requires WellFormed(adj) && PrimTree(adj, start, key, parent, rank, order)
    ensures FiniteClosed(adj, key, rank, order)
  {
    forall a, j | 0 <= a < |adj| && 0 <= j < |adj[a]| && adj[a][j].weight < INF && FiniteUpTo(key, order, rank[a])
      ensures FiniteUpTo(key, order, rank[adj[a][j].dest])
    {
      FiniteStep(adj, start, key, parent, rank, order, a, j);
    }
  }

  /** A walk along entries lighter than `INF` that starts at a vertex with
      `FiniteUpTo` ends at one. */
  lemma {:induction false} WalkStaysFinite(adj: seq<seq<Edge>>, key: seq<int>, rank: seq<nat>, order: seq<int>,
                                           vs: seq<int>, js: seq<int>)
    requires WellFormed(adj) && |rank| == |adj| && FiniteClosed(adj, key, rank, order)
    requires IsWalk(adj, vs, js) && LightWalk(adj, vs, js) && FiniteUpTo(key, order, rank[vs[0]])
    ensures FiniteUpTo(key, order, rank[vs[|vs| - 1]])
    decreases |js|
  {
    if |js| > 0 {
      var vs', js' := vs[..|vs| - 1], js[..|js| - 1];
      assert IsWalk(adj, vs', js') && LightWalk(adj, vs', js');
      WalkStaysFinite(adj, key, rank, order, vs', js');
      var a, j := vs[|js| - 1], js[|js| - 1];
      assert vs'[|vs'| - 1] == a && adj[a][j].dest == vs[|vs| - 1];
    }
  }

  /** Every parent link comes along an entry that weighs the child's key,
      which is finite. */
  ghost predicate TreeLinks(adj: seq<seq<Edge>>, key: seq<int>, parent: seq<int>)
    requires |key| == |adj| && |parent| == |adj|
  {
    forall v :: 0 <= v < |adj| && parent[v] != -1 ==>
      0 <= parent[v] < |adj| && key[v] < INF && TreeEdge(adj, key, parent[v], v)
  }

  /** The parent links from `v` back to `start`, read forwards, are a walk
      along entries lighter than `INF`. */
  lemma {:induction false} TreeWalk(adj: seq<seq<Edge>>, start: int, key: seq<int>, parent: seq<int>,
                                    rank: seq<nat>, v: int) returns (vs: seq<int>, js: seq<int>)
    requires WellFormed(adj) && |key| == |adj| && |parent| == |adj| && TreeLinks(adj, key, parent)
    requires Forest(parent, rank) && 0 <= v < |adj| && InSubtree(parent, rank, start, v)
    ensures IsWalk(adj, vs, js) && LightWalk(adj, vs, js) && vs[0] == start && vs[|vs| - 1] == v
    decreases rank[v]
  {
    if v == start {
      vs, js := [start], [];
    } else {
      var p := parent[v];
      var qs, ks := TreeWalk(adj, start, key, parent, rank, p);
      var j :| 0 <= j < |adj[p]| && adj[p][j].dest == v && adj[p][j].weight == key[v];
      ExtendLightWalk(adj, qs, ks, j, v);
      vs, js := qs + [v], ks + [j];
    }
  }

  /** Appending an entry lighter than `INF` to a walk along such entries
      gives another. */
  lemma ExtendLightWalk(adj: seq<seq<Edge>>, vs: seq<int>, js: seq<int>, j: int, v: int)
    requires IsWalk(adj, vs, js) && LightWalk(adj, vs, js)
    requires 0 <= j < |adj[vs[|vs| - 1]]| && adj[vs[|vs| - 1]][j].dest == v && 0 <= v < |adj|
    requires adj[vs[|vs| - 1]][j].weight < INF
    ensures IsWalk(adj, vs + [v], js + [j]) && LightWalk(adj, vs + [v], js + [j])
  {
    ExtendWalk(adj, vs, js, j, v);
    assert forall i :: 0 <= i < |js| ==> (vs + [v])[i] == vs[i] && (js + [j])[i] == js[i];
  }

  /** The tree `primMST` grows from `start` spans exactly the vertices that
      a walk from `start` along entries lighter than `INF` reaches; every
      other vertex is left outside it. */
  lemma SpansReachable(adj: seq<seq<Edge>>, start: int, key: seq<int>, parent: seq<int>,
                       rank: seq<nat>, order: seq<int>)
    requires WellFormed(adj) && PrimTree(adj, start, key, parent, rank, order)
    ensures Forest(parent, rank)
    ensures forall x :: 0 <= x < |adj| ==> (InSubtree(parent, rank, start, x) <==> Reaches(adj, start, x))
  {
    SubtreeIsPrefix(adj, start, key, parent, rank, order, start);
    FiniteClosedInTree(adj, start, key, parent, rank, order);
    assert TreeLinks(adj, key, parent);
    forall x | 0 <= x < |adj|
      ensures InSubtree(parent, rank, start, x) <==> Reaches(adj, start, x)
    {
      SubtreeIsPrefix(adj, start, key, parent, rank, order, x);
      if InSubtree(parent, rank, start, x) {
        var vs, js := TreeWalk(adj, start, key, parent, rank, x);
      }
      if Reaches(adj, start, x) {
        var vs, js :| IsWalk(adj, vs, js) && LightWalk(adj, vs, js) && vs[0] == start && vs[|vs| - 1] == x;
        WalkStaysFinite(adj, key, rank, order, vs, js);
      }
    }
  }
}

=== FILE: priority_queue.dfy ===
/** `CustomPriorityQueue`: the priority-queue face of the indexed min-heap,
    used by Prim's and Dijkstra's algorithms. Every operation forwards to
    the owned heap; a full heap on enqueue and an empty queue on dequeue or
    peek become exceptions. */
module PriorityQueue {
  import opened Common
  import opened Heap

  class CustomPriorityQueue {
    const minHeap: MinHeap

    ghost predicate Valid()
      reads this, minHeap, minHeap.heapArray, minHeap.vertexToIndex
    {
      minHeap.Valid()
    }

    /** The abstract value: the key of every vertex in the queue. */
    ghost function Keys(): map<int, int>
      reads this, minHeap
    {
      minHeap.Keys
    }

    /** `CustomPriorityQueue(capacity)`: an empty queue for vertices
        0 .. capacity-1. */
    constructor (capacity: nat)
      ensures Valid() && Keys() == map[] && minHeap.capacity == capacity && minHeap.size == 0
      ensures fresh(minHeap) && fresh(minHeap.heapArray) && fresh(minHeap.vertexToIndex)
    {
      minHeap := new MinHeap(capacity);
    }

    /** `isEmpty`: the heap size is 0, which is the same as holding no
        vertex. */
    function IsEmpty(): (r: bool)
      reads this, minHeap, minHeap.heapArray, minHeap.vertexToIndex
      requires Valid()
      ensures r <==> Keys() == map[]
    {
      minHeap.EmptyIff();
      minHeap.size == 0
    }

    /** `enqueue`: the vertex joins with the key, unless the heap is full, in
        which case the queue throws and nothing changes; a vertex outside
        0 .. capacity-1 makes the heap throw, also with no vertex or key
        changed. */
    method Enqueue(vertex: int, key: int) returns (r: Outcome)
      requires Valid()
      requires minHeap.size < minHeap.capacity && 0 <= vertex < minHeap.capacity ==> vertex !in Keys()
      modifies minHeap, minHeap.heapArray, minHeap.vertexToIndex
      ensures Valid()
      ensures old(minHeap.size) == minHeap.capacity ==>
                r == Fail(CapacityExceeded) && Keys() == old(Keys()) && minHeap.size == old(minHeap.size)
      ensures old(minHeap.size) < minHeap.capacity && !(0 <= vertex < minHeap.capacity) ==>
                r == Fail(IndexOutOfRange) && Keys() == old(Keys()) && minHeap.size == old(minHeap.size)
      ensures old(minHeap.size) < minHeap.capacity && 0 <= vertex < minHeap.capacity ==>
                r == Pass && Keys() == old(Keys())[vertex := key] && minHeap.size == old(minHeap.size) + 1
    {
      var inserted := minHeap.InsertKey(vertex, key);
      if inserted.Err? {
        return Fail(inserted.error);
      }
      if !inserted.value {
        return Fail(CapacityExceeded);
      }
      return Pass;
    }

    /** `dequeue`: removes and returns a vertex with the smallest key; an
        exception when empty. */
    method Dequeue() returns (r: Result<HeapNode>)
      requires Valid()
      modifies minHeap, minHeap.heapArray, minHeap.vertexToIndex
      ensures Valid()
      ensures old(Keys()) == map[] ==> r == Err(EmptyCollection) && Keys() == old(Keys())
      ensures old(Keys()) != map[] ==>
                && r.Ok?
                && r.value.vertex in old(Keys()) && old(Keys())[r.value.vertex] == r.value.key
                && (forall v :: v in old(Keys()) ==> r.value.key <= old(Keys())[v])
                && Keys() == old(Keys()) - {r.value.vertex}
                && minHeap.size == old(minHeap.size) - 1
    {
      if IsEmpty() {
        return Err(EmptyCollection);
      }
      r := minHeap.ExtractMin();
    }

    /** `peek`: a vertex with the smallest key, without removing it; an
        exception when empty. */
    method Peek() returns (r: Result<HeapNode>)
      requires Valid()
      ensures Keys() == map[] ==> r == Err(EmptyCollection)
      ensures Keys() != map[] ==>
                && r.Ok?
                && r.value.vertex in Keys() && Keys()[r.value.vertex] == r.value.key
                && forall v :: v in Keys() ==> r.value.key <= Keys()[v]
    {
      if IsEmpty() {
        return Err(EmptyCollection);
      }
      r := minHeap.GetMin();
    }

    /** `decreaseKey`: exactly the heap's decrease-key. */
    method DecreaseKey(vertex: int, newKey: int) returns (r: Outcome)
      requires Valid() && 0 <= vertex < minHeap.capacity
      modifies minHeap, minHeap.heapArray, minHeap.vertexToIndex
      ensures Valid() && minHeap.size == old(minHeap.size)
      ensures vertex !in old(Keys()) ==> r == Pass && Keys() == old(Keys())
      ensures vertex in old(Keys()) && newKey > old(Keys())[vertex] ==>
                r == Fail(InvalidKeyUpdate) && Keys() == old(Keys())
      ensures vertex in old(Keys()) && newKey <= old(Keys())[vertex] ==>
                r == Pass && Keys() == old(Keys())[vertex := newKey]
    {
      r := minHeap.DecreaseKey(vertex, newKey);
    }
  }

  /** The queue of `primMST` or `dijkstra` holds exactly the vertices not yet
      taken out, each keyed by its current key (a distance, for Dijkstra). */
  ghost predicate Mirrors(keys: map<int, int>, dist: seq<int>, visited: seq<bool>) {
    && (forall v :: v in keys <==> 0 <= v < |visited| && !visited[v])
    && (forall v :: v in keys ==> 0 <= v < |dist| && keys[v] == dist[v])
  }

  /** A dequeued vertex has the smallest key among the remaining ones,
      and the queue without it mirrors the state with it taken out; if that
      key is infinite, so is every remaining one. */
  lemma DequeueStep(keys: map<int, int>, dist: seq<int>, visited: seq<bool>, u: int)
    requires Mirrors(keys, dist, visited) && u in keys
    requires forall v :: v in keys ==> keys[u] <= keys[v]
    requires forall v :: 0 <= v < |dist| ==> dist[v] <= INF
    ensures 0 <= u < |visited| && !visited[u]
    ensures forall v :: 0 <= v < |visited| && !visited[v] ==> dist[u] <= dist[v]
    ensures dist[u] == INF ==> forall v :: 0 <= v < |visited| && !visited[v] ==> dist[v] == INF
    ensures Mirrors(keys - {u}, dist, visited[u := true])
  {
    forall v | 0 <= v < |visited| && !visited[v] ensures dist[u] <= dist[v] {
      assert v in keys;
    }
  }

  /** An empty queue means every vertex has been visited. */
  lemma EmptyQueue(keys: map<int, int>, dist: seq<int>, visited: seq<bool>)
    requires Mirrors(keys, dist, visited) && keys == map[]
    ensures forall v :: 0 <= v < |visited| ==> visited[v]
  {
    forall v | 0 <= v < |visited| ensures visited[v] {
      assert v !in keys;
    }
  }

  /** The queue both `primMST` and `dijkstra` start from: every vertex,
      enqueued in order with its initial key. */
  method QueueOf(keys: seq<int>) returns (pq: CustomPriorityQueue)
    ensures fresh(pq.minHeap) && fresh(pq.minHeap.heapArray) && fresh(pq.minHeap.vertexToIndex)
    ensures pq.Valid() && pq.minHeap.capacity == |keys| && pq.minHeap.size == |keys|
    ensures forall v :: v in pq.Keys() <==> 0 <= v < |keys|
    ensures forall v :: v in pq.Keys() ==> pq.Keys()[v] == keys[v]
  {
    pq := new CustomPriorityQueue(|keys|);
    var i := 0;
    while i < |keys|
      invariant 0 <= i <= |keys|
      invariant pq.Valid() && pq.minHeap.capacity == |keys| && pq.minHeap.size == i
      invariant forall v :: v in pq.Keys() <==> 0 <= v < i
      invariant forall v :: v in pq.Keys() ==> pq.Keys()[v] == keys[v]
    {
      var _ := pq.Enqueue(i, keys[i]);
      i := i + 1;
    }
  }

  /** The queue scenarios of the unit tests. */
  method EmptyAfterDequeueScenario() returns (initially: bool, afterEnqueue: bool, afterDequeue: bool)
    ensures initially && !afterEnqueue && afterDequeue
  {
    var pq := new CustomPriorityQueue(10);
    initially := pq.IsEmpty();
    var e := pq.Enqueue(0, 15);
    afterEnqueue := pq.IsEmpty();
    var d := pq.Dequeue();
    afterDequeue := pq.IsEmpty();
  }

  method EnqueueFive(pq: CustomPriorityQueue)
    requires pq.Valid() && pq.minHeap.capacity == 10 && pq.Keys() == map[]
    modifies pq.minHeap, pq.minHeap.heapArray, pq.minHeap.vertexToIndex
    ensures pq.Valid()
    ensures pq.Keys() == map[0 := 15, 1 := 10, 2 := 20, 3 := 5, 4 := 30]
  {
    pq.minHeap.EmptyIff();
    var r := pq.Enqueue(0, 15);
    r := pq.Enqueue(1, 10);
    r := pq.Enqueue(2, 20);
    r := pq.Enqueue(3, 5);
    r := pq.Enqueue(4, 30);
  }

  method PeekScenario() returns (min: int)
    ensures min == 5
  {
    var pq := new CustomPriorityQueue(10);
    EnqueueFive(pq);
    assert 0 in pq.Keys();
    var r := pq.Peek();
    min := r.value.key;
    assert min <= pq.Keys()[3] == 5;
    assert r.value.vertex in {0, 1, 2, 3, 4};
  }

  method DecreaseKeyScenario() returns (min: int)
    ensures min == 1
  {
    var pq := new CustomPriorityQueue(10);
    EnqueueFive(pq);
    var d := pq.DecreaseKey(2, 1);
    assert pq.Keys() == map[0 := 15, 1 := 10, 2 := 1, 3 := 5, 4 := 30];
    assert 0 in pq.Keys();
    var r := pq.Peek();
    min := r.value.key;
    assert min <= pq.Keys()[2] == 1;
    assert r.value.vertex in {0, 1, 2, 3, 4};
  }

  method DequeueScenario() returns (first: int, next: int)
    ensures first == 5 && next == 10
  {
    var pq := new CustomPriorityQueue(10);
    EnqueueFive(pq);
    ghost var before := pq.Keys();
    assert 0 in before;
    var r := pq.Dequeue();
    first := r.value.key;
    assert first <= before[3] == 5;
    assert r.value.vertex == 3 by {
      assert r.value.vertex in {0, 1, 2, 3, 4};
    }
    assert pq.Keys() == map[0 := 15, 1 := 10, 2 := 20, 4 := 30];
    var m := pq.Peek();
    next := m.value.key;
    assert next <= pq.Keys()[1] == 10;
    assert m.value.vertex in {0, 1, 2, 4};
  }
}

=== FILE: shortest_paths.dfy ===
/** Dijkstra's algorithm as `Graph.dijkstra` and
    `EvacuationGraph.calculateEvacuationRoutes` run it, and the recursive path
    builder both use to print a route. The algorithm works on a snapshot of
    the adjacency lists; the evacuation graph hands it only the unblocked
    entries. */
module ShortestPaths {
  import opened Common
  import opened Adjacency
  import opened Heap
  import opened PriorityQueue

  /** Some entry of `u` leads to `v` and accounts exactly for `dist[v]`. */
  ghost predicate TreeLink(adj: seq<seq<Edge>>, dist: seq<int>, u: int, v: int)
    requires |dist| == |adj| && 0 <= u < |adj| && 0 <= v < |adj|
  {
    exists j :: 0 <= j < |adj[u]| && adj[u][j].dest == v && dist[v] == dist[u] + adj[u][j].weight
  }

  /** The first `m` entries of `x` cannot shorten any distance any more. */
  ghost predicate RelaxedUpTo(adj: seq<seq<Edge>>, dist: seq<int>, x: int, m: int)
    requires WellFormed(adj) && |dist| == |adj| && 0 <= x < |adj| && m <= |adj[x]|
  {
    forall j :: 0 <= j < m ==> dist[adj[x][j].dest] <= dist[x] + adj[x][j].weight
  }

  /** What a run of Dijkstra's algorithm from `start` leaves behind. */
  ghost predicate ShortestPathTree(adj: seq<seq<Edge>>, start: int, dist: seq<int>, parent: seq<int>, rank: seq<nat>)
    requires WellFormed(adj)
  {
    var n := |adj|;
    && |dist| == n && |parent| == n && 0 <= start < n
    && dist[start] == 0 && parent[start] == -1
    && (forall v :: 0 <= v < n ==> dist[v] <= INF)
    && (forall v :: 0 <= v < n && v != start ==> (dist[v] < INF <==> parent[v] != -1))
    && RankedParents(parent, rank)
    && (forall v :: 0 <= v < n && parent[v] != -1 ==> dist[parent[v]] < INF && TreeLink(adj, dist, parent[v], v))
    && (NonNegative(adj) ==> forall u :: 0 <= u < n && dist[u] < INF ==> RelaxedUpTo(adj, dist, u, |adj[u]|))
  }

  /** The loop invariant of the main loop, apart from the queue and the
      relaxation facts; `last` is the distance of the vertex settled last,
      which separates the settled distances from the others. */
  ghost predicate Settled(adj: seq<seq<Edge>>, start: int, dist: seq<int>, parent: seq<int>,
                          visited: seq<bool>, rank: seq<nat>, count: nat, last: int)
    requires WellFormed(adj)
  {
    var n := |adj|;
    && |dist| == n && |parent| == n && |visited| == n && |rank| == n && 0 <= start < n && count <= n
    && dist[start] == 0 && parent[start] == -1
    && (forall v :: 0 <= v < n ==> dist[v] <= INF)
    && (forall v :: 0 <= v < n && visited[v] ==> dist[v] < INF && rank[v] < count)
    && (forall v :: 0 <= v < n && !visited[v] ==> rank[v] == n)
    && (forall v :: 0 <= v < n && v != start ==> (dist[v] < INF <==> parent[v] != -1))
    && (forall v :: 0 <= v < n && parent[v] != -1 ==>
          && 0 <= parent[v] < n && visited[parent[v]] && rank[parent[v]] < rank[v]
          && TreeLink(adj, dist, parent[v], v))
    && (!visited[start] ==> forall v :: 0 <= v < n ==> !visited[v] && (v != start ==> dist[v] == INF))
    && (NonNegative(adj) ==> forall v :: 0 <= v < n && visited[v] ==> dist[v] <= last)
    && (NonNegative(adj) ==> forall v :: 0 <= v < n && !visited[v] ==> last <= dist[v])
  }

  /** Every visited vertex is fully relaxed, except `cur`, whose first `m`
      entries are (meaningful when weights are non-negative). */
  ghost predicate AllRelaxed(adj: seq<seq<Edge>>, dist: seq<int>, visited: seq<bool>, cur: int, m: int)
    requires WellFormed(adj) && |dist| == |adj| && |visited| == |adj|
  {
    NonNegative(adj) ==>
      forall x :: 0 <= x < |adj| && visited[x] ==>
        if x == cur then m <= |adj[x]| && RelaxedUpTo(adj, dist, x, m) else RelaxedUpTo(adj, dist, x, |adj[x]|)
  }

  /** Marking the dequeued vertex `u` (a smallest unvisited distance, below
      infinity) as visited keeps the invariant. */
  lemma SettleStep(adj: seq<seq<Edge>>, start: int, dist: seq<int>, parent: seq<int>,
                   visited: seq<bool>, rank: seq<nat>, count: nat, last: int, u: int)
    requires WellFormed(adj) && Settled(adj, start, dist, parent, visited, rank, count, last)
    requires 0 <= u < |adj| && !visited[u] && dist[u] < INF && count < |adj|
    requires forall v :: 0 <= v < |adj| && !visited[v] ==> dist[u] <= dist[v]
    requires AllRelaxed(adj, dist, visited, -1, 0)
    ensures Settled(adj, start, dist, parent, visited[u := true], rank[u := count], count + 1, dist[u])
    ensures visited[u := true][start]
    ensures AllRelaxed(adj, dist, visited[u := true], u, 0)
  {
    var visited', rank' := visited[u := true], rank[u := count];
    assert !visited[start] ==> u == start;
    forall v | 0 <= v < |adj| && parent[v] != -1
      ensures rank'[parent[v]] < rank'[v]
    {
      if v != u {
        assert parent[v] != u;
      }
    }
  }

  /** Lowering the distance of the unvisited destination `v` of entry `j` of
      the vertex `u` being processed, and pointing its parent at `u`, keeps the
      invariant. */
  lemma RelaxStep(adj: seq<seq<Edge>>, start: int, dist: seq<int>, parent: seq<int>,
                  visited: seq<bool>, rank: seq<nat>, count: nat, u: int, j: int, v: int, newDist: int)
    requires WellFormed(adj) && |dist| == |adj| && 0 <= u < |adj|
    requires Settled(adj, start, dist, parent, visited, rank, count, dist[u])
    requires visited[u] && visited[start] && 0 <= j < |adj[u]|
    requires v == adj[u][j].dest && newDist == dist[u] + adj[u][j].weight
    requires !visited[v] && newDist < dist[v]
    ensures Settled(adj, start, dist[v := newDist], parent[v := u], visited, rank, count, dist[u])
  {
    var dist', parent' := dist[v := newDist], parent[v := u];
    forall w | 0 <= w < |adj| && parent'[w] != -1
      ensures TreeLink(adj, dist', parent'[w], w)
    {
      if w == v {
        assert adj[u][j].dest == v && dist'[v] == dist'[u] + adj[u][j].weight;
      } else {
        TreeLinkKept(adj, dist, dist', parent[w], w);
      }
    }
  }

  /** The same relaxation keeps every visited vertex relaxed and adds entry
      `j` of `u` to the relaxed ones. */
  lemma RelaxStepRelaxed(adj: seq<seq<Edge>>, dist: seq<int>, visited: seq<bool>, u: int, j: int, v: int, newDist: int)
    requires WellFormed(adj) && |dist| == |adj| && |visited| == |adj|
    requires 0 <= u < |adj| && visited[u] && 0 <= j < |adj[u]|
    requires AllRelaxed(adj, dist, visited, u, j)
    requires v == adj[u][j].dest && newDist == dist[u] + adj[u][j].weight
    requires !visited[v] && newDist < dist[v]
    ensures AllRelaxed(adj, dist[v := newDist], visited, u, j + 1)
  {
    var dist' := dist[v := newDist];
    if NonNegative(adj) {
      forall x | 0 <= x < |adj| && visited[x]
        ensures RelaxedUpTo(adj, dist', x, if x == u then j + 1 else |adj[x]|)
      {
        if x == u {
          RelaxedKept(adj, dist, dist', x, j);
        } else {
          RelaxedKept(adj, dist, dist', x, |adj[x]|);
        }
      }
    }
  }

  /** An entry that leads to a visited vertex, or does not shorten its
      destination's distance, is relaxed as it stands. */
  lemma SkipStep(adj: seq<seq<Edge>>, dist: seq<int>, visited: seq<bool>, u: int, j: int)
    requires WellFormed(adj) && |dist| == |adj| && |visited| == |adj|
    requires 0 <= u < |adj| && visited[u] && 0 <= j < |adj[u]|
    requires AllRelaxed(adj, dist, visited, u, j)
    requires NonNegative(adj) ==> forall x :: 0 <= x < |adj| && visited[x] ==> dist[x] <= dist[u]
    requires visited[adj[u][j].dest] || dist[u] + adj[u][j].weight >= dist[adj[u][j].dest]
    ensures AllRelaxed(adj, dist, visited, u, j + 1)
  {
  }

  /** Before the main loop: only `start` is reached, nothing is visited. */
  lemma Initially(adj: seq<seq<Edge>>, start: int)
    requires WellFormed(adj) && 0 <= start < |adj|
    ensures
      var n := |adj|;
      && Settled(adj, start, seq(n, _ => INF)[start := 0], seq(n, _ => -1), seq(n, _ => false), seq(n, _ => n), 0, 0)
      && AllRelaxed(adj, seq(n, _ => INF)[start := 0], seq(n, _ => false), -1, 0)
  {
  }

  /** Once every unvisited vertex is unreached, the invariant is the
      postcondition. */
  lemma Conclude(adj: seq<seq<Edge>>, start: int, dist: seq<int>, parent: seq<int>,
                 visited: seq<bool>, rank: seq<nat>, count: nat, last: int)
    requires WellFormed(adj) && Settled(adj, start, dist, parent, visited, rank, count, last)
    requires AllRelaxed(adj, dist, visited, -1, 0)
    requires forall v :: 0 <= v < |adj| && !visited[v] ==> dist[v] == INF
    ensures ShortestPathTree(adj, start, dist, parent, rank)
  {
  }

  /** Lowering the distance of an unvisited vertex keeps every link of the
      tree that does not end at it. */
  lemma TreeLinkKept(adj: seq<seq<Edge>>, dist: seq<int>, dist': seq<int>, u: int, v: int)
    requires |dist| == |adj| && |dist'| == |adj| && 0 <= u < |adj| && 0 <= v < |adj|
    requires TreeLink(adj, dist, u, v) && dist'[u] == dist[u] && dist'[v] == dist[v]
    ensures TreeLink(adj, dist', u, v)
  {
    var j :| 0 <= j < |adj[u]| && adj[u][j].dest == v && dist[v] == dist[u] + adj[u][j].weight;
    assert adj[u][j].dest == v && dist'[v] == dist'[u] + adj[u][j].weight;
  }

  /** Lowering distances of unvisited vertices keeps a visited vertex
      relaxed. */
  lemma RelaxedKept(adj: seq<seq<Edge>>, dist: seq<int>, dist': seq<int>, x: int, m: int)
    requires WellFormed(adj) && |dist| == |adj| && |dist'| == |adj| && 0 <= x < |adj| && m <= |adj[x]|
    requires RelaxedUpTo(adj, dist, x, m) && dist'[x] == dist[x]
    requires forall v :: 0 <= v < |adj| ==> dist'[v] <= dist[v]
    ensures RelaxedUpTo(adj, dist', x, m)
  {
  }

  /** `dijkstra(startNode)` without the printing: the distances and parents it
      computes, and (ghost) the order in which it settled the vertices. */
  method Dijkstra(adj: seq<seq<Edge>>, start: int) returns (distances: seq<int>, parent: seq<int>, ghost rank: seq<nat>)
    requires WellFormed(adj) && 0 <= start < |adj|
    ensures ShortestPathTree(adj, start, distances, parent, rank)
  {
    var n := |adj|;
    distances := seq(n, _ => INF)[start := 0];
    parent := seq(n, _ => -1);
    var visited := seq(n, _ => false);
    rank := seq(n, _ => n);

    var pq := QueueOf(distances);

    ghost var count: nat, last, unreachedRest := 0, 0, false;
    Initially(adj, start);
    while !pq.IsEmpty()
      invariant pq.Valid() && pq.minHeap.capacity == n && count + pq.minHeap.size == n
      invariant Settled(adj, start, distances, parent, visited, rank, count, last)
      invariant Mirrors(pq.Keys(), distances, visited)
      invariant AllRelaxed(adj, distances, visited, -1, 0)
      invariant !unreachedRest
      decreases pq.minHeap.size
    {
      ghost var keys := pq.Keys();
      var node := pq.Dequeue();
      var u := node.value.vertex;
      DequeueStep(keys, distances, visited, u);
      if distances[u] == INF {
        unreachedRest := true;
        break;
      }
      SettleStep(adj, start, distances, parent, visited, rank, count, last, u);
      visited := visited[u := true];
      rank := rank[u := count];
      count := count + 1;
      last := distances[u];

      distances, parent := RelaxEntries(adj, start, pq, distances, parent, visited, rank, count, u);
    }
    if !unreachedRest {
      EmptyQueue(pq.Keys(), distances, visited);
    }
    Conclude(adj, start, distances, parent, visited, rank, count, last);
  }

  /** The inner loop of `dijkstra`: relax every entry of the vertex `u` that
      has just been settled, lowering the queue key of each destination whose
      distance drops. */
  method RelaxEntries(adj: seq<seq<Edge>>, start: int, pq: CustomPriorityQueue, distances0: seq<int>, parent0: seq<int>,
                      visited: seq<bool>, ghost rank: seq<nat>, ghost count: nat, u: int)
    returns (distances: seq<int>, parent: seq<int>)
    requires WellFormed(adj) && 0 <= u < |adj| && |distances0| == |adj|
    requires pq.Valid() && pq.minHeap.capacity == |adj| && count + pq.minHeap.size == |adj|
    requires Settled(adj, start, distances0, parent0, visited, rank, count, distances0[u])
    requires visited[u] && visited[start]
    requires Mirrors(pq.Keys(), distances0, visited)
    requires AllRelaxed(adj, distances0, visited, u, 0)
    modifies pq.minHeap, pq.minHeap.heapArray, pq.minHeap.vertexToIndex
    ensures pq.Valid() && count + pq.minHeap.size == |adj|
    ensures Settled(adj, start, distances, parent, visited, rank, count, distances0[u])
    ensures Mirrors(pq.Keys(), distances, visited)
    ensures AllRelaxed(adj, distances, visited, -1, 0)
  {
    var n := |adj|;
    distances, parent := distances0, parent0;
    var adjacentNodes := adj[u];
    var j := 0;
    while j < |adjacentNodes|
      invariant 0 <= j <= |adjacentNodes| && adjacentNodes == adj[u]
      invariant pq.Valid() && pq.minHeap.capacity == n && count + pq.minHeap.size == n
      invariant |distances| == n && distances[u] == distances0[u]
      invariant Settled(adj, start, distances, parent, visited, rank, count, distances0[u])
      invariant Mirrors(pq.Keys(), distances, visited)
      invariant AllRelaxed(adj, distances, visited, u, j)
    {
      var v := adjacentNodes[j];
      var vVertex := v.dest;
      var weight := v.weight;
      if !visited[vVertex] && distances[u] != INF {
        var newDist := distances[u] + weight;
        if newDist < distances[vVertex] {
          RelaxStep(adj, start, distances, parent, visited, rank, count, u, j, vVertex, newDist);
          RelaxStepRelaxed(adj, distances, visited, u, j, vVertex, newDist);
          ghost var keys := pq.Keys();
          assert vVertex in keys && newDist <= keys[vVertex];
          distances := distances[vVertex := newDist];
          parent := parent[vVertex := u];
          var _ := pq.DecreaseKey(vVertex, distances[vVertex]);
          assert pq.Keys() == keys[vVertex := newDist];
        } else {
          SkipStep(adj, distances, visited, u, j);
        }
      } else {
        SkipStep(adj, distances, visited, u, j);
      }
      j := j + 1;
    }
  }

  /** `getPath` without the names: the vertices from `start` to `v` along
      parent links, or `None` ("No path available") when `distance` is
      infinite or `v` has no parent. A chain that breaks further up gives
      `None` as well, where the source returns "No path available" followed
      by the names appended on the way back; `PathOfReached` shows that
      `dijkstra`'s parents never break that way. `distance` is the target's
      distance and is passed down unchanged, as in the source. */
  function GetPath(parent: seq<int>, v: int, start: int, distance: int, ghost rank: seq<nat>): (p: Option<seq<int>>)
    requires RankedParents(parent, rank) && 0 <= v < |parent|
    ensures distance == INF ==> p == None
    ensures p.Some? ==> |p.value| >= 1 && p.value[0] == start && p.value[|p.value| - 1] == v
    ensures p.Some? ==> forall i :: 0 <= i < |p.value| ==> 0 <= p.value[i] < |parent|
    ensures p.Some? ==> forall i :: 0 < i < |p.value| ==> parent[p.value[i]] == p.value[i - 1]
    ensures distance != INF && v == start ==> p == Some([start])
    ensures distance != INF && v != start && parent[v] == -1 ==> p == None
    decreases rank[v]
  {
    if distance == INF then None
    else if v == start then Some([start])
    else if parent[v] == -1 then None
    else
      match GetPath(parent, parent[v], start, distance, rank)
      case None => None
      case Some(prefix) => Some(prefix + [v])
  }

  /** The part of a shortest-path tree that the paths rely on: reached
      vertices other than `start` have a reached parent that accounts for
      their distance. */
  ghost predicate ParentLinks(adj: seq<seq<Edge>>, start: int, dist: seq<int>, parent: seq<int>, rank: seq<nat>) {
    && |dist| == |adj| && |parent| == |adj| && 0 <= start < |adj| && dist[start] == 0
    && RankedParents(parent, rank)
    && forall v :: 0 <= v < |adj| && v != start && dist[v] < INF ==>
         && 0 <= parent[v] < |adj| && dist[parent[v]] < INF && TreeLink(adj, dist, parent[v], v)
  }

  /** In a shortest-path tree every reached vertex gets a path, and that path
      is a walk of the graph whose weight is the vertex's distance. */
  lemma PathOfReached(adj: seq<seq<Edge>>, start: int, dist: seq<int>, parent: seq<int>,
                      rank: seq<nat>, v: int, distance: int)
    requires WellFormed(adj) && ShortestPathTree(adj, start, dist, parent, rank)
    requires 0 <= v < |adj| && dist[v] < INF && distance != INF
    ensures GetPath(parent, v, start, distance, rank).Some?
    ensures var p := GetPath(parent, v, start, distance, rank).value;
            exists js :: IsWalk(adj, p, js) && WalkWeight(adj, p, js) == dist[v]
  {
    var js := PathAlongLinks(adj, start, dist, parent, rank, v, distance);
  }

  lemma {:induction false} PathAlongLinks(adj: seq<seq<Edge>>, start: int, dist: seq<int>, parent: seq<int>,
                                          rank: seq<nat>, v: int, distance: int) returns (js: seq<int>)
    requires ParentLinks(adj, start, dist, parent, rank)
    requires 0 <= v < |adj| && dist[v] < INF && distance != INF
    ensures GetPath(parent, v, start, distance, rank).Some?
    ensures var p := GetPath(parent, v, start, distance, rank).value;
            IsWalk(adj, p, js) && WalkWeight(adj, p, js) == dist[v]
    decreases rank[v]
  {
    if v == start {
      js := [];
    } else {
      var u := parent[v];
      assert 0 <= u < |adj| && dist[u] < INF && TreeLink(adj, dist, u, v);
      var j :| 0 <= j < |adj[u]| && adj[u][j].dest == v && dist[v] == dist[u] + adj[u][j].weight;
      var qs := PathAlongLinks(adj, start, dist, parent, rank, u, distance);
      var q := GetPath(parent, u, start, distance, rank).value;
      ExtendWalk(adj, q, qs, j, v);
      PathStep(parent, v, start, distance, rank);
      js := qs + [j];
    }
  }

  /** A path to a vertex other than `start` is its parent's path and then the
      vertex itself. */
  lemma PathStep(parent: seq<int>, v: int, start: int, distance: int, rank: seq<nat>)
    requires RankedParents(parent, rank) && 0 <= v < |parent| && v != start && parent[v] != -1 && distance != INF
    requires GetPath(parent, parent[v], start, distance, rank).Some?
    ensures GetPath(parent, v, start, distance, rank) == Some(GetPath(parent, parent[v], start, distance, rank).value + [v])
  {
  }

  /** With non-negative weights no walk from `start` is shorter than the
      distance of the vertex it ends at: the distances are minimal. */
  lemma {:induction false} NoShorterWalk(adj: seq<seq<Edge>>, start: int, dist: seq<int>, parent: seq<int>,
                                         rank: seq<nat>, vs: seq<int>, js: seq<int>)
    requires WellFormed(adj) && ShortestPathTree(adj, start, dist, parent, rank) && NonNegative(adj)
    requires IsWalk(adj, vs, js) && vs[0] == start
    ensures dist[vs[|vs| - 1]] <= WalkWeight(adj, vs, js)
    decreases |js|
  {
    if |js| > 0 {
      var vs', js' := vs[..|vs| - 1], js[..|js| - 1];
      assert IsWalk(adj, vs', js');
      NoShorterWalk(adj, start, dist, parent, rank, vs', js');
      var u, j := vs[|js| - 1], js[|js| - 1];
      assert vs'[|vs'| - 1] == u;
      if dist[u] < INF {
        assert RelaxedUpTo(adj, dist, u, |adj[u]|);
      }
    }
  }

  /** Together: with non-negative weights a vertex is reached exactly when
      some walk from `start` leads to it with weight below infinity, and its
      path is a lightest walk. */
  lemma ReachedIfWalk(adj: seq<seq<Edge>>, start: int, dist: seq<int>, parent: seq<int>,
                  rank: seq<nat>, vs: seq<int>, js: seq<int>)
    requires WellFormed(adj) && ShortestPathTree(adj, start, dist, parent, rank) && NonNegative(adj)
    requires IsWalk(adj, vs, js) && vs[0] == start && WalkWeight(adj, vs, js) < INF
    ensures dist[vs[|vs| - 1]] < INF
  {
    NoShorterWalk(adj, start, dist, parent, rank, vs, js);
  }
}

=== FILE: team_allocation.dfy ===
/** `FunctionFiveHelper`: teams are matched to nodes whose requirements
    their skills cover, by a maximum flow from a source through the teams and
    the nodes to a sink, found with breadth-first augmenting paths. Vertex 0
    is the source, teams are 1..teamCount, nodes teamCount+1..teamCount+nodeCount,
    and the sink comes last. */
module TeamAllocation {
  import opened Common
  import opened FlowNetwork

  /** The two entries `addEdge(from, to, capacity)` appends: the forward edge
      and its reverse edge of capacity 0, both without flow. */
  function Pair(from: int, to: int, capacity: int): (r: seq<FlowEdge>)
    ensures |r| == 2 && r[1].from == r[0].to && r[1].to == r[0].from && r[1].capacity == 0
  {
    [FlowEdge(from, to, capacity, 0), FlowEdge(to, from, 0, 0)]
  }

  /** The first loop of `buildGraph` up to team `k`: source to team, capacity 1. */
  function SourceEdges(k: nat): (r: seq<FlowEdge>)
    ensures |r| == 2 * k
  {
    if k == 0 then [] else SourceEdges(k - 1) + Pair(0, k, 1)
  }

  /** The inner loop of `buildGraph` for team `i` (0-based) up to node `j`:
      team to node, capacity 1, when the team's skills contain all the node's
      requirements. */
  function MatchEdges(teamCount: nat, teamSkills: seq<set<string>>, nodeRequirements: seq<set<string>>, i: nat, j: nat): (r: seq<FlowEdge>)
    requires i < |teamSkills| && j <= |nodeRequirements|
    ensures |r| % 2 == 0 && |r| <= 2 * j
  {
    if j == 0 then []
    else
      var r := MatchEdges(teamCount, teamSkills, nodeRequirements, i, j - 1);
      if nodeRequirements[j - 1] <= teamSkills[i] then r + Pair(i + 1, teamCount + j, 1) else r
  }

  /** The nested loops of `buildGraph` up to team `i`. */
  function TeamEdges(teamCount: nat, nodeCount: nat, teamSkills: seq<set<string>>, nodeRequirements: seq<set<string>>, i: nat): (r: seq<FlowEdge>)
    requires i <= |teamSkills| && nodeCount <= |nodeRequirements|
    ensures |r| % 2 == 0
  {
    if i == 0 then []
    else TeamEdges(teamCount, nodeCount, teamSkills, nodeRequirements, i - 1) + MatchEdges(teamCount, teamSkills, nodeRequirements, i - 1, nodeCount)
  }

  /** The last loop of `buildGraph` up to node `k`: node to sink, capacity 1. */
  function SinkEdges(teamCount: nat, sink: int, k: nat): (r: seq<FlowEdge>)
    ensures |r| == 2 * k
  {
    if k == 0 then [] else SinkEdges(teamCount, sink, k - 1) + Pair(teamCount + k, sink, 1)
  }

  /** The source entries: one unit from the source to each of the first `k`
      teams, and their empty reverse entries. */
  lemma {:induction false} SourceEdgesShape(k: nat)
    ensures forall x :: x in SourceEdges(k) ==>
              x.flow == 0 &&
              ((x.from == 0 && 1 <= x.to <= k && x.capacity == 1) || (x.to == 0 && 1 <= x.from <= k && x.capacity == 0))
  {
    if k > 0 {
      SourceEdgesShape(k - 1);
    }
  }

  /** The match entries of team `i`: one unit to each of the first `j` nodes
      whose requirements the team's skills contain, all of them, and their
      empty reverse entries. */
  lemma {:induction false} MatchEdgesShape(teamCount: nat, teamSkills: seq<set<string>>, nodeRequirements: seq<set<string>>, i: nat, j: nat)
    requires i < |teamSkills| && j <= |nodeRequirements|
    ensures forall x :: x in MatchEdges(teamCount, teamSkills, nodeRequirements, i, j) ==>
              x.flow == 0 &&
              ((x.from == i + 1 && teamCount < x.to <= teamCount + j && x.capacity == 1 &&
                nodeRequirements[x.to - teamCount - 1] <= teamSkills[i]) ||
               (x.to == i + 1 && teamCount < x.from <= teamCount + j && x.capacity == 0))
    ensures forall y :: 0 <= y < j && nodeRequirements[y] <= teamSkills[i] ==>
              FlowEdge(i + 1, teamCount + y + 1, 1, 0) in MatchEdges(teamCount, teamSkills, nodeRequirements, i, j)
  {
    if j > 0 {
      MatchEdgesShape(teamCount, teamSkills, nodeRequirements, i, j - 1);
    }
  }

  /** The match entries of the first `i` teams. */
  lemma {:induction false} TeamEdgesShape(teamCount: nat, nodeCount: nat, teamSkills: seq<set<string>>, nodeRequirements: seq<set<string>>, i: nat)
    requires i <= |teamSkills| && nodeCount <= |nodeRequirements|
    ensures forall x :: x in TeamEdges(teamCount, nodeCount, teamSkills, nodeRequirements, i) ==>
              x.flow == 0 &&
              ((1 <= x.from <= i && teamCount < x.to <= teamCount + nodeCount && x.capacity == 1 &&
                nodeRequirements[x.to - teamCount - 1] <= teamSkills[x.from - 1]) ||
               (1 <= x.to <= i && teamCount < x.from <= teamCount + nodeCount && x.capacity == 0))
    ensures forall t, y :: 0 <= t < i && 0 <= y < nodeCount && nodeRequirements[y] <= teamSkills[t] ==>
              FlowEdge(t + 1, teamCount + y + 1, 1, 0) in TeamEdges(teamCount, nodeCount, teamSkills, nodeRequirements, i)
  {
    if i > 0 {
      TeamEdgesShape(teamCount, nodeCount, teamSkills, nodeRequirements, i - 1);
      MatchEdgesShape(teamCount, teamSkills, nodeRequirements, i - 1, nodeCount);
      var prev := TeamEdges(teamCount, nodeCount, teamSkills, nodeRequirements, i - 1);
      var last := MatchEdges(teamCount, teamSkills, nodeRequirements, i - 1, nodeCount);
      assert forall x :: x in TeamEdges(teamCount, nodeCount, teamSkills, nodeRequirements, i) <==> x in prev || x in last;
    }
  }

  /** The sink entries: one unit from each of the first `k` nodes to the
      sink, and their empty reverse entries. */
  lemma {:induction false} SinkEdgesShape(teamCount: nat, sink: int, k: nat)
    ensures forall x :: x in SinkEdges(teamCount, sink, k) ==>
              x.flow == 0 &&
              ((teamCount < x.from <= teamCount + k && x.to == sink && x.capacity == 1) ||
               (x.from == sink && teamCount < x.to <= teamCount + k && x.capacity == 0))
  {
    if k > 0 {
      SinkEdgesShape(teamCount, sink, k - 1);
    }
  }

  /** Every entry `buildGraph` appends, by where it starts and ends. */
  lemma BuildEdgesShape(teamCount: nat, nodeCount: nat, teamSkills: seq<set<string>>, nodeRequirements: seq<set<string>>)
    requires teamCount <= |teamSkills| && nodeCount <= |nodeRequirements|
    ensures forall x :: x in BuildEdges(teamCount, nodeCount, teamSkills, nodeRequirements) ==>
              x.flow == 0 &&
              ((x.from == 0 && 1 <= x.to <= teamCount && x.capacity == 1) ||
               (x.to == 0 && 1 <= x.from <= teamCount && x.capacity == 0) ||
               (1 <= x.from <= teamCount && teamCount < x.to <= teamCount + nodeCount && x.capacity == 1 &&
                nodeRequirements[x.to - teamCount - 1] <= teamSkills[x.from - 1]) ||
               (1 <= x.to <= teamCount && teamCount < x.from <= teamCount + nodeCount && x.capacity == 0) ||
               (teamCount < x.from <= teamCount + nodeCount && x.to == teamCount + nodeCount + 1 && x.capacity == 1) ||
               (x.from == teamCount + nodeCount + 1 && teamCount < x.to <= teamCount + nodeCount && x.capacity == 0))
  {
    SourceEdgesShape(teamCount);
    TeamEdgesShape(teamCount, nodeCount, teamSkills, nodeRequirements, teamCount);
    SinkEdgesShape(teamCount, teamCount + nodeCount + 1, nodeCount);
  }

  /** Everything `buildGraph` appends, in order. */
  function BuildEdges(teamCount: nat, nodeCount: nat, teamSkills: seq<set<string>>, nodeRequirements: seq<set<string>>): (r: seq<FlowEdge>)
    requires teamCount <= |teamSkills| && nodeCount <= |nodeRequirements|
    ensures |r| >= 2 * (teamCount + nodeCount)
  {
    SourceEdges(teamCount) + TeamEdges(teamCount, nodeCount, teamSkills, nodeRequirements, teamCount)
      + SinkEdges(teamCount, teamCount + nodeCount + 1, nodeCount)
  }

  /** Only the forward entry of a pair can carry anything. */
  lemma PairLimit(from: int, to: int, capacity: int, w: int, outgoing: bool)
    ensures LimitAt(Pair(from, to, capacity), w, outgoing) ==
            if End(FlowEdge(from, to, capacity, 0), outgoing) == w then Limit(capacity) else 0
  {
    var p := Pair(from, to, capacity);
    assert p[..1][..0] == [];
    assert LimitAt(p[..1], w, outgoing) == if End(p[0], outgoing) == w then Limit(capacity) else 0;
  }

  /** The source can send one unit to each of the first `k` teams. */
  lemma {:induction false} SourceEdgesLimit(k: nat)
    ensures LimitAt(SourceEdges(k), 0, true) == k
  {
    if k > 0 {
      SourceEdgesLimit(k - 1);
      LimitAtConcat(SourceEdges(k - 1), Pair(0, k, 1), 0, true);
      PairLimit(0, k, 1, 0, true);
    }
  }

  /** The sink can receive one unit from each of the first `k` nodes. */
  lemma {:induction false} SinkEdgesLimit(teamCount: nat, sink: int, k: nat)
    requires sink > teamCount + k
    ensures LimitAt(SinkEdges(teamCount, sink, k), sink, false) == k
  {
    if k > 0 {
      SinkEdgesLimit(teamCount, sink, k - 1);
      LimitAtConcat(SinkEdges(teamCount, sink, k - 1), Pair(teamCount + k, sink, 1), sink, false);
      PairLimit(teamCount + k, sink, 1, sink, false);
    }
  }

  /** A node among the first `k` can send one unit, to the sink. */
  lemma {:induction false} NodeLimit(teamCount: nat, sink: int, k: nat, v: int)
    requires teamCount < v <= teamCount + k < sink
    ensures LimitAt(SinkEdges(teamCount, sink, k), v, true) == 1
  {
    LimitAtConcat(SinkEdges(teamCount, sink, k - 1), Pair(teamCount + k, sink, 1), v, true);
    PairLimit(teamCount + k, sink, 1, v, true);
    if v < teamCount + k {
      NodeLimit(teamCount, sink, k - 1, v);
    } else {
      SinkEdgesShape(teamCount, sink, k - 1);
      LimitAtNone(SinkEdges(teamCount, sink, k - 1), v, true);
    }
  }

  /** `buildGraph` lets `teamCount` units leave the source. */
  lemma BuildSourceLimit(teamCount: nat, nodeCount: nat, teamSkills: seq<set<string>>, nodeRequirements: seq<set<string>>)
    requires teamCount <= |teamSkills| && nodeCount <= |nodeRequirements|
    ensures LimitAt(BuildEdges(teamCount, nodeCount, teamSkills, nodeRequirements), 0, true) == teamCount
  {
    var s := SourceEdges(teamCount);
    var t := TeamEdges(teamCount, nodeCount, teamSkills, nodeRequirements, teamCount);
    var k := SinkEdges(teamCount, teamCount + nodeCount + 1, nodeCount);
    SourceEdgesLimit(teamCount);
    TeamEdgesShape(teamCount, nodeCount, teamSkills, nodeRequirements, teamCount);
    SinkEdgesShape(teamCount, teamCount + nodeCount + 1, nodeCount);
    LimitAtNone(t, 0, true);
    LimitAtNone(k, 0, true);
    LimitAtConcat(s, t, 0, true);
    LimitAtConcat(s + t, k, 0, true);
  }

  /** `buildGraph` lets `nodeCount` units enter the sink. */
  lemma BuildSinkLimit(teamCount: nat, nodeCount: nat, teamSkills: seq<set<string>>, nodeRequirements: seq<set<string>>)
    requires teamCount <= |teamSkills| && nodeCount <= |nodeRequirements|
    ensures LimitAt(BuildEdges(teamCount, nodeCount, teamSkills, nodeRequirements), teamCount + nodeCount + 1, false) == nodeCount
  {
    var sink := teamCount + nodeCount + 1;
    var s := SourceEdges(teamCount);
    var t := TeamEdges(teamCount, nodeCount, teamSkills, nodeRequirements, teamCount);
    var k := SinkEdges(teamCount, sink, nodeCount);
    SourceEdgesShape(teamCount);
    TeamEdgesShape(teamCount, nodeCount, teamSkills, nodeRequirements, teamCount);
    LimitAtNone(s, sink, false);
    LimitAtNone(t, sink, false);
    SinkEdgesLimit(teamCount, sink, nodeCount);
    LimitAtConcat(s, t, sink, false);
    LimitAtConcat(s + t, k, sink, false);
  }

  /** `buildGraph` lets one unit leave each node. */
  lemma BuildNodeLimit(teamCount: nat, nodeCount: nat, teamSkills: seq<set<string>>, nodeRequirements: seq<set<string>>, v: int)
    requires teamCount <= |teamSkills| && nodeCount <= |nodeRequirements|
    requires teamCount < v <= teamCount + nodeCount
    ensures LimitAt(BuildEdges(teamCount, nodeCount, teamSkills, nodeRequirements), v, true) == 1
  {
    var sink := teamCount + nodeCount + 1;
    var s := SourceEdges(teamCount);
    var t := TeamEdges(teamCount, nodeCount, teamSkills, nodeRequirements, teamCount);
    var k := SinkEdges(teamCount, sink, nodeCount);
    SourceEdgesShape(teamCount);
    TeamEdgesShape(teamCount, nodeCount, teamSkills, nodeRequirements, teamCount);
    LimitAtNone(s, v, true);
    LimitAtNone(t, v, true);
    NodeLimit(teamCount, sink, nodeCount, v);
    LimitAtConcat(s, t, v, true);
    LimitAtConcat(s + t, k, v, true);
  }

  /** The entries `getAllocation` reads: team to node, carrying flow. */
  predicate Assigned(x: FlowEdge, teamCount: int, sink: int)
  {
    x.from > 0 && x.from <= teamCount && x.to > teamCount && x.to < sink && x.flow > 0
  }

  /** The map `getAllocation` builds: for each team with a flow-carrying edge
      to a node, that node's number (1-based); a later edge overwrites an
      earlier one. */
  function Allocation(edges: seq<FlowEdge>, teamCount: int, sink: int): (m: map<int, int>)
    ensures forall t :: t in m ==> 0 < t <= teamCount && 0 < m[t] < sink - teamCount
    ensures forall e :: 0 <= e < |edges| && Assigned(edges[e], teamCount, sink) ==> edges[e].from in m
  {
    if |edges| == 0 then map[]
    else
      var n := |edges| - 1;
      var m := Allocation(edges[..n], teamCount, sink);
      assert forall e :: 0 <= e < n ==> edges[..n][e] == edges[e];
      if Assigned(edges[n], teamCount, sink) then m[edges[n].from := edges[n].to - teamCount] else m
  }

  /** Each team in the allocation has an edge to its node carrying flow. */
  lemma {:induction false} AllocationEdge(edges: seq<FlowEdge>, teamCount: int, sink: int, t: int) returns (e: int)
    requires t in Allocation(edges, teamCount, sink)
    ensures 0 <= e < |edges| && Assigned(edges[e], teamCount, sink)
    ensures edges[e].from == t && edges[e].to == teamCount + Allocation(edges, teamCount, sink)[t]
  {
    var n := |edges| - 1;
    if Assigned(edges[n], teamCount, sink) && edges[n].from == t {
      e := n;
    } else {
      e := AllocationEdge(edges[..n], teamCount, sink, t);
    }
  }

  /** In the graph `buildGraph` makes, an entry from a team to a node is one
      the team's skills allow. */
  lemma BuildEdgeCompatible(teamCount: nat, nodeCount: nat, teamSkills: seq<set<string>>, nodeRequirements: seq<set<string>>, x: FlowEdge)
    requires teamCount <= |teamSkills| && nodeCount <= |nodeRequirements|
    requires x in BuildEdges(teamCount, nodeCount, teamSkills, nodeRequirements)
    requires 0 < x.from <= teamCount && teamCount < x.to <= teamCount + nodeCount
    ensures nodeRequirements[x.to - teamCount - 1] <= teamSkills[x.from - 1] && x.capacity == 1
  {
    BuildEdgesShape(teamCount, nodeCount, teamSkills, nodeRequirements);
  }

  /** No node is allocated to two teams: in a conserved feasible flow on the
      graph `buildGraph` makes, a node can pass on one unit only. */
  lemma AllocationInjective(edges: seq<FlowEdge>, teamCount: nat, nodeCount: nat, teamSkills: seq<set<string>>, nodeRequirements: seq<set<string>>)
    requires teamCount <= |teamSkills| && nodeCount <= |nodeRequirements|
    requires SameShape(edges, BuildEdges(teamCount, nodeCount, teamSkills, nodeRequirements))
    requires Antisymmetric(edges) && Feasible(edges)
    requires Conserved(edges, teamCount + nodeCount + 2, 0, teamCount + nodeCount + 1)
    ensures var m := Allocation(edges, teamCount, teamCount + nodeCount + 1);
            forall t1, t2 :: t1 in m && t2 in m && t1 != t2 ==> m[t1] != m[t2]
  {
    var sink := teamCount + nodeCount + 1;
    var m := Allocation(edges, teamCount, sink);
    forall t1, t2 | t1 in m && t2 in m && t1 != t2
      ensures m[t1] != m[t2]
    {
      var e1 := AllocationEdge(edges, teamCount, sink, t1);
      var e2 := AllocationEdge(edges, teamCount, sink, t2);
      if m[t1] == m[t2] {
        NodeCarriesOne(edges, teamCount, nodeCount, teamSkills, nodeRequirements, e1, e2);
      }
    }
  }

  /** Two different team entries into the same node carry at most one unit
      between them. */
  lemma NodeCarriesOne(edges: seq<FlowEdge>, teamCount: nat, nodeCount: nat, teamSkills: seq<set<string>>, nodeRequirements: seq<set<string>>, e1: int, e2: int)
    requires teamCount <= |teamSkills| && nodeCount <= |nodeRequirements|
    requires SameShape(edges, BuildEdges(teamCount, nodeCount, teamSkills, nodeRequirements))
    requires Antisymmetric(edges) && Feasible(edges)
    requires Conserved(edges, teamCount + nodeCount + 2, 0, teamCount + nodeCount + 1)
    requires 0 <= e1 < |edges| && 0 <= e2 < |edges| && e1 != e2 && edges[e1].to == edges[e2].to
    requires 0 < edges[e1].from <= teamCount && 0 < edges[e2].from <= teamCount
    requires teamCount < edges[e1].to <= teamCount + nodeCount
    ensures edges[e1].flow + edges[e2].flow <= 1
  {
    var v := edges[e1].to;
    assert Partner(e1) < |edges| && Partner(e2) < |edges|;
    ReverseCapacity(edges, teamCount, nodeCount, teamSkills, nodeRequirements, Partner(e1));
    ReverseCapacity(edges, teamCount, nodeCount, teamSkills, nodeRequirements, Partner(e2));
    LimitAtShape(edges, BuildEdges(teamCount, nodeCount, teamSkills, nodeRequirements), v, true);
    BuildNodeLimit(teamCount, nodeCount, teamSkills, nodeRequirements, v);
    IntoUnitVertex(edges, v, e1, e2);
  }

  /** An entry from a node back to a team is a reverse edge: capacity 0. */
  lemma ReverseCapacity(edges: seq<FlowEdge>, teamCount: nat, nodeCount: nat, teamSkills: seq<set<string>>, nodeRequirements: seq<set<string>>, a: int)
    requires teamCount <= |teamSkills| && nodeCount <= |nodeRequirements|
    requires SameShape(edges, BuildEdges(teamCount, nodeCount, teamSkills, nodeRequirements))
    requires 0 <= a < |edges| && teamCount < edges[a].from <= teamCount + nodeCount && 0 < edges[a].to <= teamCount
    ensures edges[a].capacity == 0
  {
    var b := BuildEdges(teamCount, nodeCount, teamSkills, nodeRequirements);
    BuildEdgesShape(teamCount, nodeCount, teamSkills, nodeRequirements);
    assert b[a] in b;
  }

  /** `adj[u]` lists exactly the edges leaving `u`, and every edge joins two
      vertices of the network. */
  predicate Indexed(edges: seq<FlowEdge>, adj: seq<seq<int>>)
  {
    && (forall e :: 0 <= e < |edges| ==> 0 <= edges[e].from < |adj| && 0 <= edges[e].to < |adj|)
    && (forall u, k :: 0 <= u < |adj| && 0 <= k < |adj[u]| ==> 0 <= adj[u][k] < |edges| && edges[adj[u][k]].from == u)
    && (forall e :: 0 <= e < |edges| ==> e in adj[edges[e].from])
  }

  /** `addEdge` keeps the lists exact. */
  lemma PairIndexed(edges: seq<FlowEdge>, adj: seq<seq<int>>, from: int, to: int, capacity: int)
    requires Indexed(edges, adj) && 0 <= from < |adj| && 0 <= to < |adj|
    ensures var grown := adj[from := adj[from] + [|edges|]];
            Indexed(edges + Pair(from, to, capacity), grown[to := grown[to] + [|edges| + 1]])
  {
    var grown := adj[from := adj[from] + [|edges|]];
    var lists := grown[to := grown[to] + [|edges| + 1]];
    var r := edges + Pair(from, to, capacity);
    forall u, k | 0 <= u < |lists| && 0 <= k < |lists[u]|
      ensures 0 <= lists[u][k] < |r| && r[lists[u][k]].from == u
    {
      if u != from && u != to {
        assert lists[u] == adj[u];
      } else if k < |adj[u]| {
        assert lists[u][k] == adj[u][k];
      }
    }
    forall e | 0 <= e < |r|
      ensures e in lists[r[e].from]
    {
      if e < |edges| {
        assert e in adj[edges[e].from];
      }
    }
  }

  /** `addEdge` keeps the flow antisymmetric and feasible: both new entries
      carry nothing. */
  lemma PairAntisymmetric(edges: seq<FlowEdge>, from: int, to: int, capacity: int)
    requires Antisymmetric(edges) && Feasible(edges)
    ensures Antisymmetric(edges + Pair(from, to, capacity)) && Feasible(edges + Pair(from, to, capacity))
  {
    var r := edges + Pair(from, to, capacity);
    forall e | 0 <= e < |r|
      ensures r[Partner(e)].from == r[e].to && r[Partner(e)].to == r[e].from && r[e].flow == -r[Partner(e)].flow
    {
      if e < |edges| {
        assert Partner(e) < |edges|;
      }
    }
  }

  /** Concatenation regrouped. */
  lemma Regroup<T>(a: seq<T>, b: seq<T>, c: seq<T>)
    ensures (a + b) + c == a + (b + c)
  {
  }

  /** The vertices not reached yet. */
  ghost function Unvisited(visited: seq<bool>): set<int>
  {
    set x | 0 <= x < |visited| && !visited[x]
  }

  /** The first `k` edges leaving `u` that have spare capacity lead to
      reached vertices. */
  ghost predicate ScannedUpTo(edges: seq<FlowEdge>, adj: seq<seq<int>>, u: int, k: int, reached: seq<bool>)
  {
    && 0 <= u < |adj| && 0 <= k <= |adj[u]|
    && forall j :: 0 <= j < k ==>
         0 <= adj[u][j] < |edges| &&
         (Residual(edges[adj[u][j]]) > 0 ==> 0 <= edges[adj[u][j]].to < |reached| && reached[edges[adj[u][j]].to])
  }

  /** The state of `bfs` between two polls of the queue: the source is
      reached and the sink is not; every reached vertex is either waiting in
      the queue or fully scanned; the parent links form a tree whose ranks
      are below `count`. */
  ghost predicate Frontier(edges: seq<FlowEdge>, adj: seq<seq<int>>, source: int, sink: int, visited: seq<bool>,
                           par: seq<int>, rank: seq<nat>, count: nat, queue: seq<int>, done: set<int>)
  {
    && |visited| == |adj| && |rank| == |adj| && Indexed(edges, adj)
    && 0 <= source < |adj| && 0 <= sink < |adj| && visited[source] && !visited[sink]
    && (forall x :: x in queue ==> 0 <= x < |adj| && visited[x])
    && (forall x :: x in done ==> 0 <= x < |adj| && visited[x] && ScannedUpTo(edges, adj, x, |adj[x]|, visited))
    && (forall x :: 0 <= x < |adj| && visited[x] ==> x in queue || x in done)
    && (forall x :: 0 <= x < |adj| && visited[x] ==> rank[x] < count)
    && Tree(edges, par, visited, rank, source)
  }

  /** `bfs` starts with the source alone in the queue. */
  lemma SearchStart(edges: seq<FlowEdge>, adj: seq<seq<int>>, source: int, sink: int, visited: seq<bool>, par: seq<int>, rank: seq<nat>)
    requires Indexed(edges, adj) && 0 <= source < |adj| && 0 <= sink < |adj| && source != sink
    requires |visited| == |adj| && |par| == |adj| && |rank| == |adj|
    requires forall x :: 0 <= x < |visited| ==> (visited[x] <==> x == source)
    requires forall x :: 0 <= x < |rank| ==> rank[x] == 0
    ensures Frontier(edges, adj, source, sink, visited, par, rank, 1, [source], {})
  {
  }

  /** Reaching a new vertex `w` (not the sink) through the `k`-th edge of `u`
      puts `w` at the back of the queue and keeps the search state. */
  lemma SearchVisit(edges: seq<FlowEdge>, adj: seq<seq<int>>, source: int, sink: int, visited: seq<bool>,
                    par: seq<int>, rank: seq<nat>, count: nat, queue: seq<int>, done: set<int>, u: int, k: int)
    requires Frontier(edges, adj, source, sink, visited, par, rank, count, [u] + queue, done)
    requires 0 <= u < |adj| && visited[u] && ScannedUpTo(edges, adj, u, k, visited) && k < |adj[u]|
    requires !visited[edges[adj[u][k]].to] && Residual(edges[adj[u][k]]) > 0 && edges[adj[u][k]].to != sink
    ensures var e := adj[u][k];
            var w := edges[e].to;
            && Frontier(edges, adj, source, sink, visited[w := true], par[w := e], rank[w := count], count + 1, [u] + (queue + [w]), done)
            && ScannedUpTo(edges, adj, u, k + 1, visited[w := true])
            && Unvisited(visited[w := true]) < Unvisited(visited)
  {
    var e := adj[u][k];
    var w := edges[e].to;
    TreeExtend(edges, par, visited, rank, source, w, e, count);
    assert w in Unvisited(visited) && w !in Unvisited(visited[w := true]);
    VisitKeepsScanned(edges, adj, visited, done, w);
    ScanVisit(edges, adj, u, k, visited);
    VisitKeepsQueue(adj, visited, [u] + queue, done, w);
    Regroup([u], queue, [w]);
    VisitKeepsRanks(adj, visited, visited[w := true], rank, rank[w := count], count, w);
  }

  /** Reaching one more vertex keeps the scanned vertices scanned. */
  lemma VisitKeepsScanned(edges: seq<FlowEdge>, adj: seq<seq<int>>, visited: seq<bool>, done: set<int>, w: int)
    requires |visited| == |adj| && 0 <= w < |visited|
    requires forall x :: x in done ==> 0 <= x < |adj| && ScannedUpTo(edges, adj, x, |adj[x]|, visited)
    ensures forall x :: x in done ==> ScannedUpTo(edges, adj, x, |adj[x]|, visited[w := true])
  {
  }

  /** Scanning the `k`-th edge of `u` and reaching its end. */
  lemma ScanVisit(edges: seq<FlowEdge>, adj: seq<seq<int>>, u: int, k: int, visited: seq<bool>)
    requires Indexed(edges, adj) && |visited| == |adj| && ScannedUpTo(edges, adj, u, k, visited) && k < |adj[u]|
    ensures ScannedUpTo(edges, adj, u, k + 1, visited[edges[adj[u][k]].to := true])
  {
  }

  /** Reaching `w` and queueing it keeps every reached vertex pending or done. */
  lemma VisitKeepsQueue(adj: seq<seq<int>>, visited: seq<bool>, pending: seq<int>, done: set<int>, w: int)
    requires |visited| == |adj| && 0 <= w < |visited|
    requires forall x :: x in pending ==> 0 <= x < |adj| && visited[x]
    requires forall x :: 0 <= x < |adj| && visited[x] ==> x in pending || x in done
    ensures forall x :: x in pending + [w] ==> 0 <= x < |adj| && visited[w := true][x]
    ensures forall x :: 0 <= x < |adj| && visited[w := true][x] ==> x in pending + [w] || x in done
  {
  }

  /** The new vertex gets rank `count`, below the next count. */
  lemma VisitKeepsRanks(adj: seq<seq<int>>, visited: seq<bool>, now: seq<bool>, rank: seq<nat>, ranks: seq<nat>, count: nat, w: int)
    requires |visited| == |adj| && |rank| == |adj| && 0 <= w < |visited|
    requires now == visited[w := true] && ranks == rank[w := count]
    requires forall x :: 0 <= x < |adj| && visited[x] ==> rank[x] < count
    ensures forall x :: 0 <= x < |adj| && now[x] ==> ranks[x] < count + 1
  {
  }

  /** Passing over an edge without spare capacity, or into a reached vertex. */
  lemma SearchSkip(edges: seq<FlowEdge>, adj: seq<seq<int>>, u: int, k: int, visited: seq<bool>)
    requires Indexed(edges, adj) && |visited| == |adj| && ScannedUpTo(edges, adj, u, k, visited) && k < |adj[u]|
    requires visited[edges[adj[u][k]].to] || Residual(edges[adj[u][k]]) <= 0
    ensures ScannedUpTo(edges, adj, u, k + 1, visited)
  {
  }

  /** Once all of `u`'s edges are scanned, `u` is done. */
  lemma SearchPop(edges: seq<FlowEdge>, adj: seq<seq<int>>, source: int, sink: int, visited: seq<bool>,
                  par: seq<int>, rank: seq<nat>, count: nat, queue: seq<int>, done: set<int>, u: int)
    requires Frontier(edges, adj, source, sink, visited, par, rank, count, [u] + queue, done)
    requires 0 <= u < |adj| && visited[u] && ScannedUpTo(edges, adj, u, |adj[u]|, visited)
    ensures Frontier(edges, adj, source, sink, visited, par, rank, count, queue, done + {u})
  {
    forall x | x in queue
      ensures 0 <= x < |adj| && visited[x]
    {
      assert x in [u] + queue;
    }
    forall x | 0 <= x < |adj| && visited[x]
      ensures x in queue || x in done + {u}
    {
      assert x in [u] + queue || x in done;
    }
  }

  /** With the queue empty, the reached vertices are closed under edges with
      spare capacity, so no augmenting path exists. */
  lemma SearchBlocks(edges: seq<FlowEdge>, adj: seq<seq<int>>, source: int, sink: int, visited: seq<bool>,
                     par: seq<int>, rank: seq<nat>, count: nat, done: set<int>)
    requires Frontier(edges, adj, source, sink, visited, par, rank, count, [], done)
    ensures NoAugmentingPath(edges, source, sink)
  {
    forall e | 0 <= e < |edges| && 0 <= edges[e].from < |visited| && visited[edges[e].from] && Residual(edges[e]) > 0
      ensures 0 <= edges[e].to < |visited| && visited[edges[e].to]
    {
      var x := edges[e].from;
      assert e in adj[x];
      var j :| 0 <= j < |adj[x]| && adj[x][j] == e;
      assert x in done;
      assert ScannedUpTo(edges, adj, x, |adj[x]|, visited);
    }
    ClosedBlocks(edges, visited, source, sink);
  }

  /** The lists stay exact when only flows change. */
  lemma IndexedShape(a: seq<FlowEdge>, b: seq<FlowEdge>, adj: seq<seq<int>>)
    requires Indexed(b, adj) && SameShape(a, b)
    ensures Indexed(a, adj)
  {
    forall e | 0 <= e < |a|
      ensures e in adj[a[e].from]
    {
      assert e in adj[b[e].from];
    }
  }

  /** One round of `maxFlow`: augmenting along the parent chain of the sink
      by its bottleneck keeps the flow antisymmetric, feasible and indexed,
      raises what leaves the source and what enters the sink by the same
      positive amount, and keeps every other vertex balanced. */
  lemma MaxFlowRound(before: seq<FlowEdge>, adj: seq<seq<int>>, par: seq<int>, reached: seq<bool>,
                     rank: seq<nat>, source: int, sink: int, pathFlow: int)
    requires Antisymmetric(before) && Feasible(before) && Indexed(before, adj)
    requires Tree(before, par, reached, rank, source) && 0 <= sink < |reached| && reached[sink] && source != sink
    requires pathFlow == Bottleneck(before, Chain(before, par, reached, rank, source, sink))
    ensures var after := Augment(before, Chain(before, par, reached, rank, source, sink), pathFlow);
            && Antisymmetric(after) && Feasible(after) && Indexed(after, adj) && SameShape(after, before)
            && pathFlow >= 1
            && FlowAt(after, source, true) == FlowAt(before, source, true) + pathFlow
            && FlowAt(after, sink, false) == FlowAt(before, sink, false) + pathFlow
            && (forall n :: Conserved(before, n, source, sink) ==> Conserved(after, n, source, sink))
            && FlowAt(after, source, true) <= LimitAt(after, source, true)
            && LimitAt(after, source, true) == LimitAt(before, source, true)
  {
    var path := Chain(before, par, reached, rank, source, sink);
    var after := Augment(before, path, pathFlow);
    ChainAugments(before, par, reached, rank, source, sink);
    AugmentPath(before, path, source, sink, pathFlow);
    LimitAtShape(after, before, source, true);
    FlowWithinLimit(after, source, true);
    IndexedShape(after, before, adj);
  }

  /** The flow network of team allocation. The edge list holds each forward
      edge at an even index and its reverse edge right after it; `adj[u]`
      lists the indices of the edges leaving `u`. */
  class FunctionFiveHelper {
    var edges: seq<FlowEdge>
    var adj: seq<seq<int>>
    const source: int
    const sink: int
    const nodeCount: nat
    const teamCount: nat

    ghost predicate Valid()
      reads this
    {
      && source == 0 && sink == teamCount + nodeCount + 1 && |adj| == sink + 1
      && Antisymmetric(edges) && Feasible(edges)
      && Indexed(edges, adj)
    }

    /** Vertices 0 (source) to teamCount + nodeCount + 1 (sink), no edges. */
    constructor (teamCount: nat, nodeCount: nat)
      ensures Valid() && this.teamCount == teamCount && this.nodeCount == nodeCount
      ensures edges == [] && adj == seq(teamCount + nodeCount + 2, _ => [])
    {
      this.teamCount := teamCount;
      this.nodeCount := nodeCount;
      var totalNodes := teamCount + nodeCount + 2;
      source := 0;
      sink := totalNodes - 1;
      edges := [];
      var lists: seq<seq<int>> := [];
      var i := 0;
      while i < totalNodes
        invariant 0 <= i <= totalNodes && lists == seq(i, _ => [])
      {
        lists := lists + [[]];
        i := i + 1;
      }
      adj := lists;
    }

    /** Appends the edge and its reverse edge and lists each at its tail. */
    method AddEdge(from: int, to: int, capacity: int)
      requires Valid() && 0 <= from < |adj| && 0 <= to < |adj|
      modifies this
      ensures Valid() && edges == old(edges) + Pair(from, to, capacity)
      ensures var grown := old(adj)[from := old(adj)[from] + [|old(edges)|]];
              adj == grown[to := grown[to] + [|old(edges)| + 1]]
    {
      PairIndexed(edges, adj, from, to, capacity);
      PairAntisymmetric(edges, from, to, capacity);
      var size := |edges|;
      edges := edges + Pair(from, to, capacity);
      adj := adj[from := adj[from] + [size]];
      adj := adj[to := adj[to] + [size + 1]];
    }

    /** Source to every team, every team to every node whose requirements its
        skills contain, every node to the sink; capacity 1 throughout. */
    method BuildGraph(teamSkills: seq<set<string>>, nodeRequirements: seq<set<string>>)
      requires Valid() && teamCount <= |teamSkills| && nodeCount <= |nodeRequirements|
      modifies this
      ensures Valid() && edges == old(edges) + BuildEdges(teamCount, nodeCount, teamSkills, nodeRequirements)
    {
      ghost var start := edges;
      AddSourceEdges();
      AddTeamEdges(teamSkills, nodeRequirements);
      AddSinkEdges();
      ghost var sources := SourceEdges(teamCount);
      ghost var teams := TeamEdges(teamCount, nodeCount, teamSkills, nodeRequirements, teamCount);
      Regroup(start, sources, teams);
      Regroup(start, sources + teams, SinkEdges(teamCount, sink, nodeCount));
    }

    /** The first loop of `buildGraph`: source to each team. */
    method AddSourceEdges()
      requires Valid()
      modifies this
      ensures Valid() && edges == old(edges) + SourceEdges(teamCount)
    {
      ghost var start := edges;
      var i := 0;
      while i < teamCount
        invariant Valid() && 0 <= i <= teamCount && edges == start + SourceEdges(i)
      {
        ghost var linked := SourceEdges(i);
        AddEdge(source, i + 1, 1);
        Regroup(start, linked, Pair(0, i + 1, 1));
        i := i + 1;
      }
    }

    /** The nested loops of `buildGraph`: each team to each node its skills
        allow. */
    method AddTeamEdges(teamSkills: seq<set<string>>, nodeRequirements: seq<set<string>>)
      requires Valid() && teamCount <= |teamSkills| && nodeCount <= |nodeRequirements|
      modifies this
      ensures Valid() && edges == old(edges) + TeamEdges(teamCount, nodeCount, teamSkills, nodeRequirements, teamCount)
    {
      ghost var start := edges;
      var i := 0;
      while i < teamCount
        invariant Valid() && 0 <= i <= teamCount
        invariant edges == start + TeamEdges(teamCount, nodeCount, teamSkills, nodeRequirements, i)
      {
        ghost var row := edges;
        AddMatchEdges(i, teamSkills, nodeRequirements);
        Regroup(start, TeamEdges(teamCount, nodeCount, teamSkills, nodeRequirements, i),
                MatchEdges(teamCount, teamSkills, nodeRequirements, i, nodeCount));
        i := i + 1;
      }
    }

    /** The inner loop of `buildGraph` for team `i` (0-based). */
    method AddMatchEdges(i: nat, teamSkills: seq<set<string>>, nodeRequirements: seq<set<string>>)
      requires Valid() && i < teamCount && teamCount <= |teamSkills| && nodeCount <= |nodeRequirements|
      modifies this
      ensures Valid() && edges == old(edges) + MatchEdges(teamCount, teamSkills, nodeRequirements, i, nodeCount)
    {
      ghost var start := edges;
      var j := 0;
      while j < nodeCount
        invariant Valid() && 0 <= j <= nodeCount
        invariant edges == start + MatchEdges(teamCount, teamSkills, nodeRequirements, i, j)
      {
        ghost var matched := MatchEdges(teamCount, teamSkills, nodeRequirements, i, j);
        if nodeRequirements[j] <= teamSkills[i] {
          AddEdge(i + 1, teamCount + j + 1, 1);
          Regroup(start, matched, Pair(i + 1, teamCount + j + 1, 1));
        }
        j := j + 1;
      }
    }

    /** The last loop of `buildGraph`: each node to the sink. */
    method AddSinkEdges()
      requires Valid()
      modifies this
      ensures Valid() && edges == old(edges) + SinkEdges(teamCount, sink, nodeCount)
    {
      ghost var start := edges;
      var i := 0;
      while i < nodeCount
        invariant Valid() && 0 <= i <= nodeCount && edges == start + SinkEdges(teamCount, sink, i)
      {
        ghost var linked := SinkEdges(teamCount, sink, i);
        AddEdge(teamCount + i + 1, sink, 1);
        Regroup(start, linked, Pair(teamCount + i + 1, sink, 1));
        i := i + 1;
      }
    }

    /** Breadth-first search for the sink through edges with spare capacity.
        On success `parent` links the sink back to the source; on failure
        no augmenting path exists. */
    method Bfs(parent: array<int>) returns (found: bool, ghost reached: seq<bool>, ghost rank: seq<nat>)
      requires Indexed(edges, adj) && 0 <= source < |adj| && 0 <= sink < |adj| && source != sink
      requires parent.Length == |adj|
      modifies parent
      ensures |reached| == |adj|
      ensures found ==> Tree(edges, parent[..], reached, rank, source) && reached[sink]
      ensures !found ==> NoAugmentingPath(edges, source, sink)
    {
      var es := edges;
      var lists := adj;
      var n := |lists|;
      var visited := new bool[n](_ => false);
      var queue: seq<int> := [source];
      visited[source] := true;
      rank := seq(n, _ => 0);
      ghost var count: nat := 1;
      ghost var done: set<int> := {};
      SearchStart(es, lists, source, sink, visited[..], parent[..], rank);
      while |queue| > 0
        invariant visited.Length == n
        invariant Frontier(es, lists, source, sink, visited[..], parent[..], rank, count, queue, done)
        decreases Unvisited(visited[..]), |queue|
      {
        var u := queue[0];
        assert u in queue && [u] + queue[1..] == queue;
        found, queue, rank, count := ScanEdges(u, visited, parent, queue[1..], rank, count, done);
        if found {
          reached := visited[..];
          return;
        }
        SearchPop(es, lists, source, sink, visited[..], parent[..], rank, count, queue, done, u);
        done := done + {u};
      }
      found := false;
      reached := visited[..];
      SearchBlocks(es, lists, source, sink, reached, parent[..], rank, count, done);
    }

    /** The inner loop of `bfs` for the polled vertex `u`: every edge of
        `u` with spare capacity into a vertex not reached yet reaches that
        vertex, records the edge as its parent link and queues it; reaching
        the sink ends the search. Otherwise all of `u`'s edges end up
        scanned, and either some vertex was reached or the queue is `rest`. */
    method ScanEdges(u: int, visited: array<bool>, parent: array<int>, rest: seq<int>,
                     ghost rank0: seq<nat>, ghost count0: nat, ghost done: set<int>)
      returns (found: bool, queue: seq<int>, ghost rank: seq<nat>, ghost count: nat)
      requires visited.Length == |adj| && parent.Length == |adj| && 0 <= u < |adj| && visited[u]
      requires Frontier(edges, adj, source, sink, visited[..], parent[..], rank0, count0, [u] + rest, done)
      modifies visited, parent
      ensures found ==> Tree(edges, parent[..], visited[..], rank, source) && visited[sink]
      ensures !found ==> Frontier(edges, adj, source, sink, visited[..], parent[..], rank, count, [u] + queue, done)
      ensures !found ==> ScannedUpTo(edges, adj, u, |adj[u]|, visited[..])
      ensures !found ==> Unvisited(visited[..]) < old(Unvisited(visited[..])) || queue == rest
    {
      var es := edges;
      var lists := adj;
      ghost var before := Unvisited(visited[..]);
      queue, rank, count := rest, rank0, count0;
      var list := lists[u];
      var k := 0;
      while k < |list|
        invariant visited[u]
        invariant Frontier(es, lists, source, sink, visited[..], parent[..], rank, count, [u] + queue, done)
        invariant ScannedUpTo(es, lists, u, k, visited[..])
        invariant Unvisited(visited[..]) < before || queue == rest
      {
        var edgeIndex := list[k];
        var edge := es[edgeIndex];
        if !visited[edge.to] && edge.flow < edge.capacity {
          ghost var seen := visited[..];
          ghost var links := parent[..];
          if edge.to == sink {
            TreeExtend(es, links, seen, rank, source, sink, edgeIndex, count);
          } else {
            SearchVisit(es, lists, source, sink, seen, links, rank, count, queue, done, u, k);
          }
          parent[edge.to] := edgeIndex;
          visited[edge.to] := true;
          queue := queue + [edge.to];
          rank := rank[edge.to := count];
          count := count + 1;
          assert visited[..] == seen[edge.to := true];
          assert parent[..] == links[edge.to := edgeIndex];
          if edge.to == sink {
            return true, queue, rank, count;
          }
        } else {
          SearchSkip(es, lists, u, k, visited[..]);
        }
        k := k + 1;
      }
      found := false;
    }

    /** Edmonds-Karp: augments along shortest paths with spare capacity
        until there is none. The result is the flow gained out of the source,
        which is also the flow gained into the sink; a conserved flow stays
        conserved, and in the end no augmenting path is left. */
    method MaxFlow() returns (totalFlow: int)
      requires Valid()
      modifies this
      ensures Valid() && adj == old(adj) && SameShape(edges, old(edges))
      ensures totalFlow >= 0
      ensures totalFlow == FlowAt(edges, source, true) - FlowAt(old(edges), source, true)
      ensures totalFlow == FlowAt(edges, sink, false) - FlowAt(old(edges), sink, false)
      ensures Conserved(old(edges), |adj|, source, sink) ==> Conserved(edges, |adj|, source, sink)
      ensures NoAugmentingPath(edges, source, sink)
    {
      totalFlow := 0;
      var parent := new int[|adj|];
      var found: bool;
      ghost var reached: seq<bool>, rank: seq<nat>;
      found, reached, rank := Bfs(parent);
      FlowWithinLimit(edges, source, true);
      while found
        invariant Valid() && adj == old(adj) && SameShape(edges, old(edges)) && parent.Length == |adj|
        invariant totalFlow >= 0
        invariant totalFlow == FlowAt(edges, source, true) - FlowAt(old(edges), source, true)
        invariant totalFlow == FlowAt(edges, sink, false) - FlowAt(old(edges), sink, false)
        invariant Conserved(old(edges), |adj|, source, sink) ==> Conserved(edges, |adj|, source, sink)
        invariant found ==> Tree(edges, parent[..], reached, rank, source) && |reached| == |adj| && reached[sink]
        invariant !found ==> NoAugmentingPath(edges, source, sink)
        invariant FlowAt(edges, source, true) <= LimitAt(edges, source, true)
        decreases LimitAt(edges, source, true) - FlowAt(edges, source, true)
      {
        ghost var before := edges;
        var pathFlow := Round(parent, reached, rank);
        ShapeTrans(edges, before, old(edges));
        totalFlow := totalFlow + pathFlow;
        found, reached, rank := Bfs(parent);
      }
    }

    /** The body of `maxFlow`'s loop after a successful search: the two loops
        along the parent links, as one augmentation by the bottleneck. */
    method Round(parent: array<int>, ghost reached: seq<bool>, ghost rank: seq<nat>) returns (pathFlow: int)
      requires Valid() && Tree(edges, parent[..], reached, rank, source) && |reached| == |adj| && reached[sink]
      modifies this
      ensures Valid() && adj == old(adj) && SameShape(edges, old(edges)) && pathFlow >= 1
      ensures FlowAt(edges, source, true) == FlowAt(old(edges), source, true) + pathFlow
      ensures FlowAt(edges, sink, false) == FlowAt(old(edges), sink, false) + pathFlow
      ensures forall n :: Conserved(old(edges), n, source, sink) ==> Conserved(edges, n, source, sink)
      ensures FlowAt(edges, source, true) <= LimitAt(edges, source, true)
      ensures LimitAt(edges, source, true) == LimitAt(old(edges), source, true)
    {
      ghost var par := parent[..];
      pathFlow := PathCapacity(parent, par, reached, rank);
      MaxFlowRound(edges, adj, par, reached, rank, source, sink, pathFlow);
      AugmentAlong(parent, par, reached, rank, pathFlow);
    }

    /** For each team sending flow to a node, the node's number (1-based);
        when a team sends flow to several nodes the last edge wins. */
    method GetAllocation() returns (allocation: map<int, int>)
      requires Valid()
      ensures allocation == Allocation(edges, teamCount, sink)
    {
      allocation := map[];
      var i := 0;
      while i < |edges|
        invariant 0 <= i <= |edges| && allocation == Allocation(edges[..i], teamCount, sink)
      {
        var edge := edges[i];
        assert edges[..i + 1][..i] == edges[..i];
        if edge.from > 0 && edge.from <= teamCount && edge.to > teamCount && edge.to < sink && edge.flow > 0 {
          var teamIndex := edge.from;
          var nodeIndex := edge.to - teamCount;
          allocation := allocation[teamIndex := nodeIndex];
        }
        i := i + 1;
      }
      assert edges[..|edges|] == edges;
    }

    /** The first loop of `maxFlow`'s body: the least spare capacity along
        the parent links from the sink back to the source. */
    method PathCapacity(parent: array<int>, ghost par: seq<int>, ghost reached: seq<bool>, ghost rank: seq<nat>) returns (pathFlow: int)
      requires par == parent[..] && Tree(edges, par, reached, rank, source) && 0 <= sink < |reached| && reached[sink]
      ensures pathFlow == Bottleneck(edges, Chain(edges, par, reached, rank, source, sink))
    {
      ghost var path := Chain(edges, par, reached, rank, source, sink);
      pathFlow := INF;
      var v := sink;
      while v != source
        invariant 0 <= v < |reached| && reached[v] && pathFlow <= INF
        invariant Bottleneck(edges, path) == Min(pathFlow, Bottleneck(edges, Chain(edges, par, reached, rank, source, v)))
        decreases rank[v]
      {
        var e := parent[v];
        ghost var rest := Chain(edges, par, reached, rank, source, edges[e].from);
        assert ([e] + rest)[1..] == rest;
        pathFlow := Min(pathFlow, edges[e].capacity - edges[e].flow);
        v := edges[e].from;
      }
    }

    /** The second loop of `maxFlow`'s body: each edge on the parent chain
        gains `pathFlow` and its reverse edge loses it. */
    method AugmentAlong(parent: array<int>, ghost par: seq<int>, ghost reached: seq<bool>, ghost rank: seq<nat>, pathFlow: int)
      requires par == parent[..] && Paired(edges) && Tree(edges, par, reached, rank, source) && 0 <= sink < |reached| && reached[sink]
      modifies this
      ensures adj == old(adj)
      ensures edges == Augment(old(edges), Chain(old(edges), par, reached, rank, source, sink), pathFlow)
    {
      ghost var orig := edges;
      ghost var target := Augment(orig, Chain(orig, par, reached, rank, source, sink), pathFlow);
      var v := sink;
      while v != source
        invariant 0 <= v < |reached| && reached[v] && adj == old(adj)
        invariant Paired(edges) && SameShape(edges, orig)
        invariant InRange(edges, Chain(orig, par, reached, rank, source, v))
        invariant Augment(edges, Chain(orig, par, reached, rank, source, v), pathFlow) == target
        decreases rank[v]
      {
        var e := parent[v];
        AugmentStep(orig, edges, par, reached, rank, source, v, pathFlow, target);
        edges := Push(edges, e, pathFlow);
        v := edges[e].from;
      }
    }
  }

  /** The network `buildGraph` makes carries no flow yet, so it is conserved
      and nothing has left the source or entered the sink. */
  lemma BuiltEmpty(built: seq<FlowEdge>, teamCount: nat, nodeCount: nat, teamSkills: seq<set<string>>, nodeRequirements: seq<set<string>>,
                   n: int, source: int, sink: int)
    requires teamCount <= |teamSkills| && nodeCount <= |nodeRequirements|
    requires built == BuildEdges(teamCount, nodeCount, teamSkills, nodeRequirements)
    requires source == 0 && sink == teamCount + nodeCount + 1 && n == sink + 1
    ensures FlowAt(built, source, true) == 0 && FlowAt(built, sink, false) == 0
    ensures Conserved(built, n, source, sink)
  {
    BuildEdgesShape(teamCount, nodeCount, teamSkills, nodeRequirements);
    FlowAtZero(built, source, true);
    FlowAtZero(built, sink, false);
    forall v | 0 <= v < n && v != source && v != sink
      ensures FlowAt(built, v, true) == 0
    {
      FlowAtZero(built, v, true);
    }
  }

  /** What a feasible, antisymmetric and conserved flow on the network of
      `buildGraph` gives: at most one unit per team leaves the source, at
      most one per node enters the sink, and the allocation read off it
      pairs teams with distinct nodes they are qualified for. */
  lemma FlowAllocation(edges: seq<FlowEdge>, built: seq<FlowEdge>, m: map<int, int>,
                       teamCount: nat, nodeCount: nat, teamSkills: seq<set<string>>, nodeRequirements: seq<set<string>>,
                       n: int, source: int, sink: int)
    requires teamCount <= |teamSkills| && nodeCount <= |nodeRequirements|
    requires source == 0 && sink == teamCount + nodeCount + 1 && n == sink + 1
    requires built == BuildEdges(teamCount, nodeCount, teamSkills, nodeRequirements) && SameShape(edges, built)
    requires Antisymmetric(edges) && Feasible(edges) && Conserved(edges, n, source, sink)
    requires m == Allocation(edges, teamCount, sink)
    ensures FlowAt(edges, source, true) <= teamCount && FlowAt(edges, sink, false) <= nodeCount
    ensures forall t :: t in m ==>
              && 1 <= t <= teamCount && 1 <= m[t] <= nodeCount
              && nodeRequirements[m[t] - 1] <= teamSkills[t - 1]
    ensures forall t1, t2 :: t1 in m && t2 in m && t1 != t2 ==> m[t1] != m[t2]
  {
    FlowWithinLimit(edges, source, true);
    LimitAtShape(edges, built, source, true);
    BuildSourceLimit(teamCount, nodeCount, teamSkills, nodeRequirements);
    FlowWithinLimit(edges, sink, false);
    LimitAtShape(edges, built, sink, false);
    BuildSinkLimit(teamCount, nodeCount, teamSkills, nodeRequirements);
    AllocationInjective(edges, teamCount, nodeCount, teamSkills, nodeRequirements);
    forall t | t in m
      ensures nodeRequirements[m[t] - 1] <= teamSkills[t - 1]
    {
      var e := AllocationEdge(edges, teamCount, sink, t);
      assert built[e] in built;
      BuildEdgeCompatible(teamCount, nodeCount, teamSkills, nodeRequirements, built[e]);
    }
  }

  /** The first half of the team-allocation function: a fresh network
      holding exactly the edges of `buildGraph`. */
  method NewNetwork(teamCount: nat, nodeCount: nat, teamSkills: seq<set<string>>, nodeRequirements: seq<set<string>>)
    returns (helper: FunctionFiveHelper)
    requires |teamSkills| == teamCount && |nodeRequirements| == nodeCount
    ensures fresh(helper) && helper.Valid()
    ensures helper.teamCount == teamCount && helper.nodeCount == nodeCount
    ensures helper.edges == BuildEdges(teamCount, nodeCount, teamSkills, nodeRequirements)
  {
    helper := new FunctionFiveHelper(teamCount, nodeCount);
    helper.BuildGraph(teamSkills, nodeRequirements);
    assert helper.edges == [] + BuildEdges(teamCount, nodeCount, teamSkills, nodeRequirements);
  }

  /** The team-allocation function of the application: builds the network
      for the given teams and nodes, runs the maximum flow and reads off the
      allocation. At most one unit leaves the source per team and enters
      the sink per node; every allocated team meets its node's requirements,
      and no node is allocated twice. */
  method AssignTeams(teamCount: nat, nodeCount: nat, teamSkills: seq<set<string>>, nodeRequirements: seq<set<string>>)
    returns (maxFlow: int, allocation: map<int, int>)
    requires |teamSkills| == teamCount && |nodeRequirements| == nodeCount
    ensures 0 <= maxFlow <= teamCount && maxFlow <= nodeCount
    ensures forall t :: t in allocation ==>
              && 1 <= t <= teamCount && 1 <= allocation[t] <= nodeCount
              && nodeRequirements[allocation[t] - 1] <= teamSkills[t - 1]
    ensures forall t1, t2 :: t1 in allocation && t2 in allocation && t1 != t2 ==> allocation[t1] != allocation[t2]
  {
    var helper := NewNetwork(teamCount, nodeCount, teamSkills, nodeRequirements);
    ghost var built := helper.edges;
    BuiltEmpty(built, teamCount, nodeCount, teamSkills, nodeRequirements, |helper.adj|, helper.source, helper.sink);
    maxFlow := helper.MaxFlow();
    allocation := helper.GetAllocation();
    FlowAllocation(helper.edges, built, allocation, teamCount, nodeCount, teamSkills, nodeRequirements,
                   |helper.adj|, helper.source, helper.sink);
  }
}
